=== FILE: README.md ===
# libwaftp control channel, modelled in Dafny

libwaftp is a small FTP client library in C. This project models its
control-channel core and proves properties of that model. The core has
four layers, each feeding the next:

- **Receive buffer** (`src/socket_util.c`, module `SocketUtil`):
  - `struct RecvBuf` is a 1024-byte (`LINE_MAX_LEN`) buffer with a read pointer and a count of unread bytes.
  - It is refilled by `recv` and read a byte or a line at a time.
  - `sendn` writes a whole buffer with `send`.
  - The descriptor is a `Socket` object. It holds a script of `recv` outcomes (bytes, close, EINTR, error), a script of `send` outcomes, and the bytes sent so far.
- **Telnet scanner** (`src/telnet.h`, module `Telnet`). `try_read_telnet_cmd_and_reply` reads IAC commands (RFC 854) at a cursor:
  - it answers WILL with DONT and DO with WONT;
  - it skips other commands;
  - it stops on data or on an escaped IAC.
- **Replies and command sequences** (`src/cmd.c`, modules `CmdReply` and `CmdSession`):
  - `get_reply` decodes the three-digit reply code and frames multi-line replies (RFC 959 section 4.2).
  - `send_command` sends a command plus CRLF and decodes the answer.
  - The greeting loop, the USER/PASS/ACCT login automaton (RFC 959, page 57), and the reply validation.
  - EPSV (RFC 2428) with the PASV fallback, and the transfer parameters.
- **Text parsers** (`src/parse.c`, modules `ParsePassive`, `ParseScan` and `ParseListing`):
  - the PASV `(h1,h2,h3,h4,p1,p2)` and EPSV `(|||port|)` reply bodies;
  - the GNU `ls -l` listing line, with its scanning helpers and the year guess for lines that show a time.

`Common` holds what the modules share:
- C strings as `seq<char>` read through `At`, which returns NUL at and past the end;
- `isdigit`/`isspace`;
- decimal numerals.

The code's own form is kept. Loops that move a cursor, fill a buffer, or read replies are methods with loop invariants. Each such method is proved equal to a specification function or to a stated new state, and the properties are proved about those functions.

Each command sequence in `CmdSession` is specified by a function of the answers it received:
- `LoginFrom`, `EnterPassiveSpec` and `SetTransferSpec`;
- each method returns these answers as a ghost value, with the states of the control connection between its commands (`Wire`);
- the method states that it produced exactly that function's result;
- it also states that each command and its answer form one `send_command` exchange (`Exchanged`): the bytes sent, the send script used, and the reply decoded from the stream, or no answer exactly when the command did not all go out or no reply decoded.

The model keeps these behaviours of the code as they are:
- A 229 reply whose body does not parse makes `enter_passive_mode` return -1 (`src/cmd.c:368-374`); PASV is tried only after a reply other than 229.
- RFC 959 (section 4.1.2) gives the PASV host and port fields as 8-bit numbers. The host loop (`src/parse.c:34-50`) takes one to three digits without a range check, so `999` is accepted, and nothing after the second port number is checked, so the closing `)` is not required.
- A negative port octet is accepted, because `strtol` reads a sign and only the upper bound 255 is checked (`src/parse.c:61-74`). What port the code then computes is not defined by C; see `ParsePassive.PortNumber` under "## Left out".

## Model

| member | source | states |
|---|---|---|
| Common.NatToDecimal | src/parse.c:76 | what `%d` prints for a value of at least 0: non-empty, all digits, its decimal value is the number, and it has no leading zero |
| ParseScan.Strtol | src/parse.c:61-63 | `strtol` in base 10: without digits the end stays at the start; otherwise the end is just past a digit run and the value lies within `long` |
| ParseScan.StrtolReadsDigits | src/parse.c:61-63 | a digit run within range followed by a non-digit is read back as its decimal value, with the end right after it |
| ParseScan.ParseNumber | src/parse.c:201-219 | `parse_int`/`parse_ssize_t` succeed only on a non-NUL start, a non-empty number and a value in `[min, max]`; the end is just past the digits |
| ParseScan.ParseNumberReadsDigits | src/parse.c:201-219 | an in-range digit run is accepted with its decimal value and the end just past it |
| ParseScan.ParseInt | src/parse.c:218 | `parse_int` accepts only `strtoll`'s own conversion at the cursor, with a value within `int` and the end past the start; a value outside `int` is refused |
| ParseScan.ParseSsize | src/parse.c:219 | `parse_ssize_t` accepts only `strtoll`'s own conversion at the cursor, with a value in `[-1, SSIZE_MAX]` and the end past the start; a value outside that range is refused |
| ParseScan.CopyUntilFrom | src/parse.c:115-129 | `copy_until` succeeds at the first `c` within `len - 1` bytes that no NUL precedes, and fails when every such `c` has a NUL before it |
| ParseScan.CopyUntil | src/parse.c:115-129 | the loop succeeds exactly when `CopyUntilSpec` does; it leaves the cursor on `c` and copies the bytes before it |
| ParseScan.SkipEnd | src/parse.c:131-183 | the skip stops at the first NUL or stop byte; every byte passed is neither |
| ParseScan.SkipAtLeastOneSpec | src/parse.c:131-183 | the `skip_at_least_one_*` family fails exactly on a NUL first byte, and on success moves at least one byte |
| ParseScan.SkipAtLeastOne | src/parse.c:131-183 | the four skip loops take the first byte untested, then stop at NUL or their stop test |
| ParseScan.MonthIndexFrom | src/parse.c:192-199 | the month lookup returns -1 exactly when no table entry from `i` on equals the token; otherwise it returns the index of an equal entry |
| ParseScan.GetMon | src/parse.c:192-199 | `get_mon` returns the index (0 to 11) of an exactly equal month abbreviation, and -1 exactly when there is none |
| ParseScan.MonthsDistinct | src/parse.c:185-187 | the twelve month abbreviations are pairwise different, so the index `get_mon` returns is the only one |
| ParseScan.GuessYear | src/parse.c:221-239 | the guess is the current or the previous year; it is the current year exactly when the listed date in the current year lies strictly between six months ago and now |
| ParsePassive.SkipToDigit | src/parse.c:27-31 | the scan stops at the first digit from the start, or at the end, and passes only non-digits |
| ParsePassive.FieldDigits | src/parse.c:36-44 | a host field takes at most three digits, and takes fewer only when a non-digit or the end follows |
| ParsePassive.HostFieldEnd | src/parse.c:34-50 | a host field is accepted only as 1 to 3 digits followed by a comma |
| ParsePassive.HostFields | src/parse.c:34-50 | the host loop reads exactly the remaining fields, each of them a valid host field |
| ParsePassive.DottedQuad | src/parse.c:51-53 | the host name is 7 to 15 bytes of digits and dots |
| ParsePassive.ParsePasvSpec | src/parse.c:20-78 | an accepted PASV reply yields a 7 to 15 byte dotted host name |
| ParsePassive.PortPart | src/parse.c:55-77 | the port part keeps the host name it is given |
| ParsePassive.PortNumber | src/parse.c:75 | the `uint32_t` port lies in `[0, 2^32)`; for two octets in 0..255 it is `p1 * 256 + p2` (for a negative `p1` it is the model's two's-complement reading of an undefined shift, see "Left out") |
| ParsePassive.PortText | src/parse.c:76 | what `%d` writes: a port below 2^31 as digits that read back to it; a port from 2^31 up as `-` and digits that read back to `2^32 - port`, the `int` that `%d` takes the `uint32_t` for |
| ParsePassive.PortPartAcceptsOnlyOctets | src/parse.c:55-77 | the converse for the port: an accepted port part has a first octet of at most 255 read by `strtol` at its start and ended by a comma, a second octet of at most 255 read by `strtol` after that comma, and its port is built from these two |
| ParsePassive.ReadHostField | src/parse.c:34-50 | one pass of the host loop: it succeeds exactly when `HostFieldEnd` accepts the field, and appends the field and a dot to `name` |
| ParsePassive.ReadHostFields | src/parse.c:33-51 | the host loop succeeds exactly when the four host fields are accepted, stops just after the fourth comma, and has written the fields joined by dots with a trailing dot |
| ParsePassive.HostFieldsAt | src/parse.c:34-50 | four host fields of one to three digits, each followed by a comma, are read back verbatim, and the loop stops after the last comma |
| ParsePassive.HostFieldsLayout | src/parse.c:34-50 | converse: whatever the host loop accepts is four host fields, each followed by a comma, laid out one after another |
| ParsePassive.ReadPort | src/parse.c:55-77 | the port code succeeds exactly when `PortPart` does, and writes its port in decimal |
| ParsePassive.ParsePasvReply | src/parse.c:20-78 | `parse_pasv_reply` returns 0 exactly when the reply is accepted, and then writes its host name and the decimal text of its port |
| ParsePassive.PortOfOctets | src/parse.c:75-76 | for octets up to 255 the port is `p1 * 256 + p2`, at most 65535, written in at most 5 digits |
| ParsePassive.PasvReadsFields | src/parse.c:20-78 | round trip: four host fields and two port octets up to 255, written as the server writes them, give `f0.f1.f2.f3` and the port `n1 * 256 + n2` |
| ParsePassive.PasvAcceptsOnlyFields | src/parse.c:22-53 | converse: an accepted reply has four comma-ended host fields after its first digit, and its name is those fields joined by dots |
| ParsePassive.PasvRejectsWithoutDigits | src/parse.c:22-35 | a reply under 5 bytes, or one with no digit from offset 4 on, is rejected (`aaa`, `227`, `227 `, `227 Entering`) |
| ParsePassive.PasvRejectsFieldEnd | src/parse.c:39-47 | a host field ended by something other than a comma, or by a fourth digit, is rejected (`255.255,…`, `2555,…`) |
| ParsePassive.PasvRejectsEmptyField | src/parse.c:35-37 | an empty host field (`255,,255`) is rejected |
| ParsePassive.PasvRejectsPort | src/parse.c:55-77 | four good host fields followed by a failing port part are rejected |
| ParsePassive.PortRejectsHighFirst | src/parse.c:61-65 | a first port octet above 255 is rejected (`257`, `1234567890`) |
| ParsePassive.PortRejectsHighSecond | src/parse.c:70-74 | a second port octet above 255 is rejected |
| ParsePassive.PortAcceptsNegativeOctet | src/parse.c:61-76 | `strtol` lets `-1,0` through, because only the upper bound 255 is checked; the port value and text it then gets are the model's two's-complement reading of an undefined shift (see `ParsePassive.PortNumber` under "## Left out") |
| ParsePassive.PasvExampleLocal | tests/check_parse.c:26-28 | `(192,168,1,1,0,123)` gives `192.168.1.1` and port `123` |
| ParsePassive.PasvExampleOnes | tests/check_parse.c:29-31 | `(1,1,1,1,12,123)` gives `1.1.1.1` and port `3195` |
| ParsePassive.PasvExampleBroadcast | tests/check_parse.c:32-34 | `(255,255,255,255,1,0)` gives `255.255.255.255` and port `256` |
| ParsePassive.ParseEpsvReply | src/parse.c:80-113 | `parse_epsv_reply` returns 0 exactly when the reply is accepted, and then writes the port text |
| ParsePassive.ReadEpsvPort | src/parse.c:103-111 | the port loop succeeds exactly when the delimiter occurs again, and copies the bytes before it |
| ParsePassive.EpsvReadsPort | src/parse.c:82-112 | round trip: a `(` from offset 4 on, three equal delimiters, a port without the delimiter, then the delimiter give back that port |
| ParsePassive.EpsvAcceptsOnlyBody | src/parse.c:82-112 | converse: every accepted reply has such a body around the returned port |
| ParsePassive.EpsvRejectsDelimiterMismatch | src/parse.c:96-101 | a delimiter that does not repeat (`(\|1\|\|1234\|))`) is rejected |
| ParsePassive.EpsvExamples | tests/check_parse.c:75-82 | `(\|\|\|6446\|))`, `(\|\|\|\|))`, `(\|\|\|1\|))` and `(\|\|\|12\|))` give `6446`, the empty port, `1` and `12` |
| ParsePassive.EpsvRejectExamples | tests/check_parse.c:89 | `229`, `229 \|\|\|\|` and `229 (\|\|\|)` are rejected |
| ParseListing.HeadSpec | src/parse.c:247-257 | the type byte sets `is_dir` (`d`) and the link flag (`l`); `perm` is the 1 to 63 bytes after it up to a space; its first byte is copied untested (so `d  x` gives the permissions ` `), and the others are neither space nor NUL |
| ParseListing.ColumnsSpec | src/parse.c:260-265 | each skipped column and its spaces take at least two bytes; `ColumnsReads` gives where the columns of a well-formed line end |
| ParseListing.SizeSpec | src/parse.c:268-274 | the size lies in `[-1, SSIZE_MAX]` and is -1 for a link |
| ParseListing.MonthSpec | src/parse.c:276-285 | the month token is an exact table entry followed by a space; its index is 0 to 11 |
| ParseListing.DaySpec | src/parse.c:287-292 | the day is an `int` and the cursor moves on |
| ParseListing.TimeSpec | src/parse.c:294-316 | a token without `:` at index 2 has hour and minute 0; an `HH:MM` token takes its year from `guess_year`; the `assert` at 311 can only fail on an `HH:MM` token |
| ParseListing.NameSpec | src/parse.c:324-342 | the name is non-empty, and its bytes after the first are neither `isspace` bytes nor NUL; the first byte is copied without an `isspace` test, so a TAB or CR there becomes the name, and the LF scan starts past it; the line ends just past a LF |
| ParseListing.ParseLineMlsd | src/parse.c:345-349 | `parse_line_mlsd` rejects every line |
| ParseListing.ParseHead | src/parse.c:247-257 | the type and permission code computes `HeadSpec` |
| ParseListing.SkipColumn | src/parse.c:261-264 | one pass of the column loop computes one column of `ColumnsSpec`, and the remaining columns go on from its end |
| ParseListing.SkipColumns | src/parse.c:260-265 | the column loop computes `ColumnsSpec` for nlink, owner and group |
| ParseListing.ParseSize | src/parse.c:268-274 | the size code computes `SizeSpec` |
| ParseListing.ParseMonth | src/parse.c:276-285 | the month code computes `MonthSpec` |
| ParseListing.ParseDay | src/parse.c:287-292 | the day code computes `DaySpec` |
| ParseListing.ParseTime | src/parse.c:294-316 | the year-or-time code, with its three-byte check loop, computes `TimeSpec` |
| ParseListing.CopyName | src/parse.c:331-335 | the name copy loop copies exactly the name bytes |
| ParseListing.ParseName | src/parse.c:324-342 | the name and line-end code computes `NameSpec` |
| ParseListing.ParseLineListGnu | src/parse.c:241-343 | `parse_line_list_gnu` computes the composed specification `ListGnuSpec`; an accepted line leaves `*ignore` false and ends just past an LF; `is_dir` holds exactly when the first byte is `d`; a link (`l`) gets size -1 and every size lies in -1..SSIZE_MAX; the 1 to 63 permission bytes follow the type byte and a space follows them; the name is not empty |
| ParseListing.HeadReads | src/parse.c:247-257 | a type byte and a permission text followed by a space are read back verbatim |
| ParseListing.CopyUntilReads | src/parse.c:115-129 | a short enough text without `c` or NUL, followed by `c`, is copied whole |
| ParseListing.MonthReads | src/parse.c:276-285 | each month abbreviation followed by a space is read as its index |
| ParseListing.SizeReads | src/parse.c:268-274 | a size in range followed by a space is read back, or as -1 for a link |
| ParseListing.DayReads | src/parse.c:287-292 | a day in range followed by a space is read back |
| ParseListing.TimeReadsYear | src/parse.c:302-307 | a year of three or more digits is stored as year - 1900 with time 00:00 |
| ParseListing.TimeReadsClock | src/parse.c:308-315 | `HH:MM` is read as that hour and minute, in the year `guess_year` gives |
| ParseListing.TimeAssertFailsOnBadHour | src/parse.c:309-311 | a one-digit hour followed by a byte other than `:` (as in `1x:`) reaches the failing `assert` |
| ParseListing.NameReads | src/parse.c:324-342 | a name followed by CRLF is read back, and the line ends just past the LF |
| ParseListing.NameSkipsBareLf | src/parse.c:338 | a name followed directly by a LF does not end the line there: the scan for LF starts one byte past the name |
| ParseListing.NameRefusesLastBareLf | src/parse.c:338-339 | so ` a\n` as the last line is rejected |
| ParseListing.ListGnuRefusesEmpty | src/parse.c:247-248 | an empty line is rejected |
| ParseListing.SpacesEnd | src/parse.c:131-142 | `skip_at_least_one_eq` over a run of spaces stops at the first byte after it |
| ParseListing.TokenEnd | src/parse.c:144-155 | `skip_at_least_one_neq` over a column without spaces or NUL stops at the space after it |
| ParseListing.ColumnStep | src/parse.c:261-264 | one round of the column loop moves from a column's start to the start of the next column |
| ParseListing.ColumnsReads | src/parse.c:260-265 | link count, owner and group, each followed by spaces, are skipped to the start of the size column |
| ParseListing.DateLineReads | src/parse.c:247-292 | the stages up to the day read back a line's type byte, permissions, size (-1 for a link), month index and day, and end where the year or time starts |
| ParseListing.YearNameReads | src/parse.c:302-342 | a year column followed by one space, a name and CRLF is read as `year - 1900` at midnight, then as that name with the line ending past the LF |
| ParseListing.ClockNameReads | src/parse.c:308-342 | an `HH:MM` column followed by one space, a name and CRLF is read as that hour and minute in the year `guess_year` gives, then as that name |
| ParseListing.ListGnuDateLine | src/parse.c:241-343 | the whole parse of a line whose columns read back, whatever the time and name stages give |
| ParseListing.ListGnuReadsYear | src/parse.c:241-343 | round trip: a well-formed line with a year is accepted with `*ignore` false, ends just past its LF, and its fact holds its name, directory flag, size (-1 for a link), permissions, and `timegm` of its date at midnight |
| ParseListing.ListGnuReadsClock | src/parse.c:241-343 | round trip: a well-formed line with `HH:MM` gives the same fact, with `timegm` of its date and time in the year `guess_year` picks |
| Telnet.ScanFrom | src/telnet.h:17-50 | the cursor never passes `end`; frames are only appended, and each is a three-byte IAC DONT or IAC WONT; -1 comes exactly from a failed write, which is the last frame |
| Telnet.TryReadTelnetCmdAndReply | src/telnet.h:17-50 | the loop returns 0 or -1 and leaves the cursor and sent frames of `TelnetScan` |
| Telnet.ScanStopsAtData | src/telnet.h:27-28 | a non-IAC byte: 0, cursor unchanged, nothing sent |
| Telnet.ScanStopsAtEscapedIac | src/telnet.h:27-47 | IAC IAC: 0 with the cursor on the second IAC |
| Telnet.ScanRefuses | src/telnet.h:31-48 | IAC WILL opt sends exactly `[IAC, DONT, opt]`, IAC DO opt sends `[IAC, WONT, opt]`, and the scan goes on after the option |
| Telnet.ScanSendFails | src/telnet.h:41-42 | a failed write returns -1 with the cursor on the option byte |
| Telnet.ScanResumesOnOption | src/telnet.h:31-40 | IAC WONT/DONT sends nothing and goes on from the option byte |
| Telnet.ScanSkipsOtherCommand | src/telnet.h:44-48 | IAC followed by another command byte skips both bytes |
| Telnet.ScanStopsAtEnd | src/telnet.h:21-24 | a command cut off by `end` returns 0 with the cursor at `end` |
| Telnet.ScanLeavesOptionAsData | src/telnet.h:39-40 | as written, `IAC WONT 'A'` leaves the cursor on `'A'`, which is not part of a run of whole commands |
| Telnet.ScanFromFixed | src/telnet.h:17-50 | with WONT/DONT consuming their option, the scan stops only after a run of whole commands, at data or at an escaped IAC |
| Telnet.ScanFixedConsumesOption | src/telnet.h:31-40 | the corrected scan consumes `IAC WONT 'A'` whole |
| Telnet.Frame | src/telnet.h:9 | `send_telnet_negotiation` writes exactly three bytes: IAC, the command, the option |
| Telnet.FrameReadWhole | src/telnet.h:17-50 | a DONT/WONT frame this client writes is consumed whole by the corrected scan with nothing answered; the scan as written stops on its option byte |
| SocketUtil.FillSpec | src/socket_util.c:35-49 | `recv_buf_fill` retries EINTR; on 1 it buffers 1 to `LINE_MAX_LEN` bytes taken from the front of the stream; 0 means the stream ended by a close and -1 that it ended by an error |
| SocketUtil.GetCharTakesNext | src/socket_util.c:56-66 | `recv_buf_get_char` returns 1 exactly when a byte remains, and that byte is the next one of buffer-then-stream; otherwise 0 for a close and -1 for an error |
| SocketUtil.LineSpecSplitsStream | src/socket_util.h:15-22 | a line is a prefix of the stream that ends at its first LF or holds `LINE_MAX_LEN - 1` bytes; the stream goes on right after it; no line means the stream ended earlier without a LF |
| SocketUtil.LineSpecReadsReply | src/socket_util.h:15-22 | `220 ok\r\n` comes back as one 8-byte line |
| SocketUtil.RecvBuf.constructor | src/socket_util.h:7-11 | a fresh, empty buffer |
| SocketUtil.RecvBuf.Init | src/socket_util.c:24-27 | `recv_buf_init` leaves nothing buffered |
| SocketUtil.RecvBuf.Fill | src/socket_util.c:35-49 | the fill loop computes `FillSpec`, and on success sets `read_ptr = buf` and `remain_count` to the bytes received |
| SocketUtil.RecvBuf.GetChar | src/socket_util.c:56-66 | get_char computes `GetCharSpec`, refills only when empty, and keeps `(read_ptr - buf) + remain_count <= LINE_MAX_LEN` |
| SocketUtil.RecvBuf.GetLineAsWritten | src/socket_util.c:68-86 | as written: -1 for every stream except one that starts with LF, for which it returns 0 (read as a close) |
| SocketUtil.RecvBuf.NextByte | src/socket_util.c:74 | one get_char as a step along the stream |
| SocketUtil.RecvBuf.ReadLine | src/socket_util.c:72-83 | the line loop reads up to the first LF or `LINE_MAX_LEN - 1` bytes, or reports the close or error that ended the stream first |
| SocketUtil.RecvBuf.GetLine | src/socket_util.h:15-22 | as documented: the length of the LF-ended line, NUL-terminated inside `line[LINE_MAX_LEN]`, with the rest of the stream unread; 0 on a close and -1 on an error |
| SocketUtil.Store | src/socket_util.c:75-84 | the bytes land in `line`, followed by NUL |
| SocketUtil.SendnAsWritten | src/socket_util.c:5-22 | as written: -1 for any non-empty buffer, after sending the same leading bytes again and again until a send fails or takes nothing |
| SocketUtil.DeliveredFrom | src/socket_util.c:11-20 | the loop's progress only grows, up to the buffer length |
| SocketUtil.Sendn | src/socket_util.h:24-28 | as documented: the bytes go out in order, and it returns `n` exactly when all of them went out, -1 otherwise; each `send` takes one event of the send script (`ScriptLeft`) |
| SocketUtil.SendnDeliversAll | src/socket_util.h:24-28 | while every send takes at least one byte, every byte is delivered |
| CmdReply.CodeOfDigit | src/cmd.c:130 | `reply[i] - '0'`, stored unsigned: a code below 10 exactly for a digit, and then its value |
| CmdReply.CodeOf | src/cmd.c:130 | the stored code is an `unsigned int` value, and a digit byte gives its digit value |
| CmdReply.ReplyCodes | src/cmd.c:127-131 | one code per byte for the first three bytes |
| CmdReply.IsReplyEq | src/cmd.c:41-48 | `is_reply_eq` holds exactly when all three codes are equal |
| CmdReply.IsReplyMultiLine | src/cmd.c:91-97 | true exactly for a short reply of at least four bytes whose fourth is `-`; a shorter one is never continued |
| CmdReply.IsReplyMultiLineLast | src/cmd.c:99-105 | true for every short reply of at least four bytes whose fourth is a space, never for a shorter one, and never for a line `IsReplyMultiLine` continues |
| CmdReply.NextLineSpec | src/cmd.c:114-124 | `GET_LINE` either consumes a non-empty line of the stream or aborts with `NETWORK_ERROR`, `CLOSED`, `TELNET_ERROR` or a line without LF (the `assert` at 121) |
| CmdReply.GetReplySpec | src/cmd.c:107-146 | a decoded reply has three codes and consumed part of the stream |
| CmdReply.ContinuationSpec | src/cmd.c:136-143 | the multi-line loop keeps the opening codes, or aborts with a line error |
| CmdReply.ReplyCodesFromFirstLine | src/cmd.c:126-131 | the codes come from the first line; `SYNTAX_ERROR` exactly when that line's text is shorter than 3; a first-line error is returned as is |
| CmdReply.SingleLineReply | src/cmd.c:132-133 | a first line not marked multi-line is the whole reply |
| CmdReply.ContinuationStopsAtAnyLast | src/cmd.c:136-143 | the first later line with a space at index 3 ends the reply, whatever its code |
| CmdReply.LineErrorAborts | src/cmd.c:137 | a line error inside a multi-line reply aborts decoding with that error |
| CmdReply.ContinuationLeavesSuffix | src/cmd.c:136-143 | the multi-line loop reads its lines from the front of the stream: what it leaves is a suffix of it |
| CmdReply.GetReplyLeavesSuffix | src/cmd.c:107-146 | a decoded reply is read from the front of the stream: what is left is a suffix of it |
| CmdReply.GetLineStep | src/cmd.c:114-124 | one `GET_LINE` computes `NextLineSpec` on the buffered bytes and the stream |
| CmdReply.DecodeCodes | src/cmd.c:127-131 | the code loop fails exactly when the text has fewer than three bytes, and stores the codes `ReplyCodes` gives |
| CmdReply.ReadContinuation | src/cmd.c:136-143 | the `for (;;)` loop computes `ContinuationSpec` on the buffered bytes and the stream, and leaves the rest unread |
| CmdReply.GetReply | src/cmd.c:107-146 | `get_reply` computes `GetReplySpec` on the buffered bytes and the stream, and leaves the rest unread |
| CmdReply.SendCommand | src/cmd.c:50-89 | `send_command` sends the command plus CRLF in order, using the send script as `sendn` does; it returns -1 when not all bytes went out; otherwise it returns 0 exactly when a reply decodes from an empty buffer, and leftovers in the fresh buffer are lost |
| CmdReply.GreetingsSpec | src/cmd.c:162-188 | the greeting loop returns 0 or -1 |
| CmdReply.GreetedSucceeds | src/cmd.c:164-176 | after any number of class-1 replies, a class-2 reply gives 0 |
| CmdReply.SucceedsGreeted | src/cmd.c:164-184 | converse: 0 only after class-1 replies and then a class-2 reply |
| CmdReply.GetConnectionGreetings | src/cmd.c:162-188 | the greeting loop computes `GreetingsSpec` over the replies it reads |
| CmdSession.Ask | src/cmd.c:50-89 | a session's `send_command` is one `Exchanged` step: the command plus CRLF goes out as far as the send script allows; there is no answer exactly when not all of it went out or no reply decodes from the stream; otherwise the answer is the decoded reply, and a suffix of the rest of the stream is left (bytes the fresh buffer read past the reply are lost) |
| CmdSession.ExchangedSent | src/cmd.c:50-89 | an answered command went out whole, with its CRLF |
| CmdSession.DialogueTransmitted | src/cmd.c:50-89 | a series of exchanges that were all answered sent every command in full, in order |
| CmdSession.UserPassStep | src/cmd.c:235-253 | after USER or PASS, class 2 succeeds, class 3 continues, class 1 is an error, and any other class fails |
| CmdSession.AcctStep | src/cmd.c:290-300 | after ACCT, class 2 succeeds, and so does a class outside 1 to 5 (`return 0`); 1 and 3 are errors, and 4 and 5 fail |
| CmdSession.LoginFrom | src/cmd.c:190-317 | the login sends at most the remaining commands and returns 0 or -1 |
| CmdSession.LoginFromSendsInOrder | src/cmd.c:228-287 | USER, PASS and ACCT go out in that order, each at most once, and never one whose credential is missing |
| CmdSession.LoginFromSucceedsIff | src/cmd.c:190-317 | the login succeeds exactly when every command before the last got class 3 and the last got an accepting reply (class 2, or for ACCT a class outside 1 to 5) |
| CmdSession.LoginFromContinue | src/cmd.c:247-255 | a class-3 reply passes the rest of the answers to the next stage |
| CmdSession.LoginStage | src/cmd.c:232-238 | one credential command is one `Exchanged` step, and its reply leads where `UserPassStep` or `AcctStep` says |
| CmdSession.LoginAcct | src/cmd.c:281-300 | the ACCT block computes `LoginFrom` from stage 2, and its answers come from a `Dialogue` of its commands on the connection |
| CmdSession.LoginPass | src/cmd.c:255-300 | the PASS and ACCT blocks compute `LoginFrom` from stage 1, over a `Dialogue` of their commands |
| CmdSession.PerformLoginSequence | src/cmd.c:190-317 | `perform_login_sequence` returns `LoginFrom`'s result; its answers are the replies decoded from the stream to exactly `LoginFrom`'s commands, one `Exchanged` step each, and answered commands went out in full |
| CmdSession.GenericReplyNextState | src/cmd.c:321-331 | defined exactly for classes 1 to 5 (else `__builtin_unreachable`); SUCCESS exactly for class 2 |
| CmdSession.GenericReplyValidateAsWritten | src/cmd.c:333-358 | as written, `__builtin_unreachable` is reached exactly for class 2 and for a class outside 1 to 5; every other reply gives 0 or -1 (which ones: `ValidateAsWrittenInverted`) |
| CmdSession.ValidateAsWrittenInverted | src/cmd.c:338-358 | as written, classes 1 and 3 return 0, 4 and 5 return -1, and class 2 reaches `__builtin_unreachable` |
| CmdSession.GenericReplyValidate | src/cmd.c:333-358 | corrected: 0 exactly for class 2, else -1 |
| CmdSession.ValidateKeepsFailures | src/cmd.c:352-356 | the correction keeps the as-written verdict on classes 4 and 5 |
| CmdSession.ValidateOutsideClasses | src/cmd.c:321-331 | a first code outside 1 to 5 (`027`, `a27`) reaches `__builtin_unreachable` in `generic_reply_next_state` and in the validation as written; the corrected validation returns -1 for it |
| CmdSession.PasvSpec | src/cmd.c:380-392 | the PASV path sends EPSV then PASV; it succeeds only on a class-2 reply with a dotted host name |
| CmdSession.EpsvSpec | src/cmd.c:365-378 | only an exact 2,2,9 reply takes the EPSV path; there success leaves `name` empty and the parsed port in `service` |
| CmdSession.EnterPassiveSpec | src/cmd.c:360-393 | one command unless EPSV is refused, then two |
| CmdSession.EnterPassiveSucceedsIff | src/cmd.c:360-393 | success exactly when a 229 reply body parses, or when EPSV was refused and PASV got a class-2 reply whose body parses; a 229 body that fails gives -1 with no fallback |
| CmdSession.EnterPassiveUsesItsAnswers | src/cmd.c:398 | entering passive mode depends only on the answers to the commands it sent |
| CmdSession.EnterPassiveByEpsv | src/cmd.c:365-379 | the EPSV block computes `EpsvSpec` on the answer of an `EPSV` exchange |
| CmdSession.EnterPassiveByPasv | src/cmd.c:380-392 | the PASV block computes `PasvSpec` on the answer of a `PASV` exchange |
| CmdSession.EnterPassiveMode | src/cmd.c:360-393 | `enter_passive_mode` returns `EnterPassiveSpec`'s result, host and port, over a `Dialogue` of exactly its commands |
| CmdSession.SetTransferSpec | src/cmd.c:395-419 | success needs passive mode entered, then `TYPE I` sent and answered with class 2 |
| CmdSession.SetTransferSucceedsIff | src/cmd.c:395-419 | both directions: `set_transfer_parameters` succeeds exactly when passive mode was entered and the `TYPE I` reply that follows is of class 2 |
| CmdSession.SetTransferParameters | src/cmd.c:395-419 | `set_transfer_parameters` returns `SetTransferSpec`'s result over a `Dialogue` of exactly its commands |

## Left out

- ParsePassive.PortNumber: `(p1 << 8) + p2` at `src/parse.c:75` shifts a `long` that may be negative, which C leaves undefined. The model takes the two's-complement result, `p1 * 256 + p2` reduced modulo 2^32. `PortText` then prints it as the `int` that `%d` reads, although `%d` given a `uint32_t` of 2^31 or more is itself a type mismatch. A negative octet makes the port text up to 11 bytes plus NUL. Writes past a `service` buffer too short for that are not modelled. Neither is the EPSV port copy (`src/parse.c:103-111`), which is bounded only by the reply.
- The system calls are not modelled. `recv`, `send` and `errno` are scripts of outcomes held by `SocketUtil.Socket`. A script is finite, so a loop that would spin forever ends when its script runs out. Only EINTR is told apart among errno values.
- `copy_from_telnet_line` (called at `src/cmd.c:123`) is not part of this model. It is the parameter `copy`, which maps a line and the text so far to the new text and short reply, or fails. `get_reply` depends only on that result.
- `send_telnet_negotiation` (`src/telnet.c`) is reduced to its three-byte frame and a parameter `sendOk` that tells whether each write succeeded.
- `vsnprintf` formatting and the `malloc` path of `send_command` are left out; the command is an already formatted string. The second use of the consumed `va_list` at `src/cmd.c:64` is undefined behaviour and is not modelled.
- Error messages are not modelled: `get_reply_result_to_err_msg`, the `ERR_*` macros and `debug`. That function's write to `err_msg + len` at `src/cmd.c:158`, past the buffer, is not modelled either.
- `time`, `gmtime_r` and `timegm` are the parameters `now` and `Calendar`, and are arbitrary functions. The stored `modify` (`src/parse.c:318-323`) is `timegm` applied to the listed year, month, day, hour and minute; nothing is stated about its value as a point in time.
- ParseListing.TimeSpec: `year_abs - 1900` (`src/parse.c:307`) is taken on unbounded integers. For a year below `INT_MIN + 1900` the C subtraction overflows, which is undefined behaviour; that case is not modelled.
- `strtol`/`strtoll` are modelled for the C locale only, with a 64-bit `long`; out-of-range values saturate as in the C library.
- The unused `rb` argument of `enter_passive_mode` and `set_transfer_parameters` is left out.
- What `name` and `service` hold after a failed call is left out.
- `char` is taken as signed, as on x86, when a reply byte above 127 becomes a reply code.
- Common.IsDigit, Common.IsSpace: `isdigit` at src/parse.c:29, 36 and 41 and `isspace` at src/parse.c:327 are given a signed `char`; a byte above 127 is then a negative argument other than EOF, which C leaves undefined. The model answers false for such a byte.
- CmdSession.Ask: a reply pins the stream only from the front: what the fresh buffer read past the reply is lost, and the stream left is stated to be a suffix of the rest, not its exact value.
- CmdSession.PerformLoginSequence: each exchange of its `Dialogue` has the same gap as `Ask`.
- CmdSession.EnterPassiveMode: each exchange of its `Dialogue` has the same gap as `Ask`.
- CmdSession.SetTransferParameters: each exchange of its `Dialogue` has the same gap as `Ask`.
- CmdReply.SendCommand: states what a fresh buffer decodes from the stream. Bytes it reads past the reply are dropped with that buffer, and its contract says only that the stream left is a suffix of the rest.
- `recv_buf_get_line` as written ends after its first byte, so the NUL written after `LINE_MAX_LEN` bytes (one past `line[LINE_MAX_LEN]` in `get_reply`) is unreachable in it. The documented version, `SocketUtil.RecvBuf.GetLine`, stops at `LINE_MAX_LEN - 1` bytes so that the NUL fits.
- CmdReply.GetLineStep: built on the corrected `SocketUtil.RecvBuf.GetLine`, not on `GetLineAsWritten`. With the line reader as written, `get_reply` returns `GET_REPLY_NETWORK_ERROR` on `220 ok\r\n`.
- CmdReply.ReadContinuation: built on the corrected `GetLine`, as above.
- CmdReply.GetReply: built on the corrected `GetLine`, as above.
- CmdReply.GetConnectionGreetings: built on the corrected `GetLine`, as above; with the code as written no greeting is ever read.
- CmdReply.SendCommand: built on the corrected `SocketUtil.Sendn`, not on `SendnAsWritten`, which returns -1 for any command.
- CmdSession.GenericReplyValidate: corrected to compare the state with SUCCESS. As written, a 227 reply to PASV or a 200 reply to `TYPE I` reaches `__builtin_unreachable`.
- CmdSession.PasvSpec: uses the corrected `GenericReplyValidate`, as do `EnterPassiveByPasv`, `SetTransferSpec` and `SetTransferParameters`.
- CmdSession.GenericReplyValidate: returns -1 for a first code outside 1 to 5 (a reply such as `027` or `a27`). The code reaches `__builtin_unreachable` there (`src/cmd.c:330`), which is undefined behaviour; `ValidateOutsideClasses` states it.

## Findings

| source | as written | input that shows it | evidently intended | confidence | as-written member | corrected member |
|---|---|---|---|---|---|---|
| src/cmd.c:342 | `generic_reply_validate` compares the `enum State` with `POS_COM` (2), which is the value of `ERROR` | a 227 reply to PASV reaches `__builtin_unreachable`; a 150 or 331 reply is accepted | `next == SUCCESS`: 0 exactly for class 2; a class outside 1 to 5 also reaches `__builtin_unreachable`, and the corrected version rejects it with -1 | high; not executed | CmdSession.ValidateAsWrittenInverted | CmdSession.GenericReplyValidate |
| src/socket_util.c:12 | `n_written = send(...) <= 0` stores the comparison, so a send that takes bytes subtracts nothing and the same bytes are sent again | `USER a\r\n` with two sends taking 8 bytes each and then a failing one: the 8 bytes go out twice and the result is -1 | `(n_written = send(...)) <= 0`: every byte once, result `n` | high; not executed | SocketUtil.SendnAsWritten | SocketUtil.Sendn |
| src/socket_util.c:82 | the `return -1` after the branches ends the loop on every byte that is not LF, and a close returns `n - 1` | the stream `220 ok\r\n` gives -1; the line `\n` gives 0, which `get_reply` reads as a close | the line up to LF with its length, 0 on a close, -1 on an error, NUL inside the buffer | high; not executed | SocketUtil.RecvBuf.GetLineAsWritten | SocketUtil.RecvBuf.GetLine |
| src/telnet.h:39-40 | after IAC WONT/DONT the loop `continue`s with the cursor on the option byte, which then ends the scan as data | `IAC WONT 'A'` leaves the cursor on `'A'` | consume the three-byte sequence as for WILL and DO | high; not executed | Telnet.ScanLeavesOptionAsData | Telnet.ScanFromFixed |

=== FILE: cmd_reply.dfy ===
/**
 * Reading and sending on the control connection (src/cmd.c): the reply
 * code, the framing of multi-line replies (section 4.2 of RFC 959),
 * `get_reply` on top of the receive buffer, and `send_command`.
 *
 * `copy_from_telnet_line` is not part of this model: it is a parameter
 * that, given the reply text so far and a received line, yields the new
 * reply text and the short reply, or fails (a Telnet error).
 */
module CmdReply {
  import opened Common
  import opened SocketUtil

  /** enum GetReplyResult, plus the abort of the `assert` on a line without LF. */
  datatype GetReplyResult =
    | NetworkError
    | TelnetError
    | Closed
    | SyntaxError
    | ReplyOk
    | LineWithoutLf

  /** What copy_from_telnet_line leaves in `reply`/`len` and `short_reply`/`short_reply_len`. */
  datatype Copied = Copied(text: seq<char>, short: seq<char>)

  /** copy_from_telnet_line: the reply text so far and the line to the new text, or a failure. */
  type CopyLine = (seq<char>, seq<char>) -> Option<Copied>

  /** struct Reply: `reply_codes`, `reply`/`len` and `short_reply`/`short_reply_len`. */
  datatype Reply = Reply(codes: seq<int>, text: seq<char>, short: seq<char>)

  const UINT_MODULUS: int := 0x1_0000_0000

  /** A `char` of the reply text promoted to `int`; `char` is signed. */
  function SignedChar(c: char): int
  {
    if c as int < 128 then c as int else c as int - 256
  }

  /** `reply[i] - '0'` stored in an `unsigned int`. */
  function CodeOf(c: char): (code: int)
    ensures 0 <= code < UINT_MODULUS
    ensures IsDigit(c) ==> code == DigitValue(c)
  {
    (SignedChar(c) - '0' as int) % UINT_MODULUS
  }

  /**
   * No byte is checked, yet a code below 10 comes only from a digit, and a
   * digit gives its value.
   */
  lemma {:induction false} CodeOfDigit(c: char)
    requires c as int < 256
    ensures 0 <= CodeOf(c) < UINT_MODULUS
    ensures CodeOf(c) < 10 <==> IsDigit(c)
    ensures IsDigit(c) ==> CodeOf(c) == DigitValue(c)
  {
    var x := SignedChar(c) - '0' as int;
    assert -176 <= x < 80;
    if x < 0 {
      assert CodeOf(c) == x + UINT_MODULUS;
    }
  }

  /** The codes `get_reply` stores from a reply text: one per byte, up to three. */
  function ReplyCodes(text: seq<char>): (codes: seq<int>)
    ensures |codes| == Min(3, |text|)
  {
    seq(Min(3, |text|), i requires 0 <= i < Min(3, |text|) => CodeOf(text[i]))
  }

  /** is_reply_eq: the three codes equal the expected ones, compared one by one. */
  function IsReplyEq(codes: seq<int>, expected: seq<int>): (b: bool)
    requires |codes| == 3 && |expected| == 3
    ensures b <==> codes == expected
  {
    codes[0] == expected[0] && codes[1] == expected[1] && codes[2] == expected[2]
  }

  /** is_reply_multi_line: `xyz-`; a short reply of fewer than four bytes is never continued. */
  predicate IsReplyMultiLine(short: seq<char>): (b: bool)
    ensures b ==> 4 <= |short| && short[3] == '-'
    ensures 4 <= |short| && short[3] == '-' ==> b
  {
    if 4 > |short| then false else short[3] == '-'
  }

  /** is_reply_multi_line_last: `xyz `; never true of a line that IsReplyMultiLine continues. */
  predicate IsReplyMultiLineLast(short: seq<char>): (b: bool)
    ensures b ==> 4 <= |short| && !IsReplyMultiLine(short)
    ensures 4 <= |short| && short[3] == ' ' ==> b
  {
    if 4 > |short| then false else short[3] == ' '
  }

  // ---------------------------------------------------------------------
  // get_reply on the stream of received bytes

  /** One GET_LINE: the line's text and short reply and the stream after it, or the reason to stop. */
  datatype LineTake = Took(text: seq<char>, short: seq<char>, rest: seq<char>) | Stopped(result: GetReplyResult)

  /**
   * GET_LINE on the stream `s`: recv_buf_get_line, its -1 and 0 results,
   * the `assert` that the line ends in LF, then copy_from_telnet_line.
   */
  function NextLineSpec(s: seq<char>, fails: bool, text: seq<char>, copy: CopyLine): (t: LineTake)
    ensures t.Took? ==> |t.rest| < |s| && EndsWith(s, t.rest)
    ensures t.Stopped? ==> t.result in {NetworkError, Closed, LineWithoutLf, TelnetError}
  {
    var r := LineSpec(s, fails);
    LineSpecSplitsStream(s, fails);
    if r.n < 0 then Stopped(NetworkError)
    else if r.n == 0 then Stopped(Closed)
    else if r.bytes[|r.bytes| - 1] != '\n' then Stopped(LineWithoutLf)
    else
      match copy(text, r.bytes)
      case None => Stopped(TelnetError)
      case Some(c) =>
        assert s[|s| - |r.rest|..] == r.rest;
        Took(c.text, c.short, r.rest)
  }

  /** What get_reply decodes from the stream `s`, and the stream it leaves. */
  datatype ReplyRead = ReplyRead(result: GetReplyResult, reply: Reply, rest: seq<char>)

  /**
   * get_reply on the stream `s`: the first line gives the three codes (a
   * syntax error when the text is shorter), and a `xyz-` short reply
   * continues up to the first line whose short reply is `xyz `.
   */
  function GetReplySpec(s: seq<char>, fails: bool, copy: CopyLine): (r: ReplyRead)
    ensures r.result == ReplyOk ==> |r.reply.codes| == 3 && |r.rest| < |s|
  {
    match NextLineSpec(s, fails, [], copy)
    case Stopped(e) => ReplyRead(e, Reply([], [], []), s)
    case Took(text, short, rest) =>
      if |text| < 3 then ReplyRead(SyntaxError, Reply(ReplyCodes(text), text, short), rest)
      else if !IsReplyMultiLine(short) then ReplyRead(ReplyOk, Reply(ReplyCodes(text), text, short), rest)
      else ContinuationSpec(rest, fails, ReplyCodes(text), text, copy)
  }

  /** The lines after a `xyz-` one, up to a `xyz ` short reply; the codes stay those of the first line. */
  function ContinuationSpec(s: seq<char>, fails: bool, codes: seq<int>, text: seq<char>, copy: CopyLine): (r: ReplyRead)
    ensures r.result == ReplyOk ==> r.reply.codes == codes && |r.rest| < |s|
    ensures r.result != ReplyOk ==> r.result in {NetworkError, Closed, LineWithoutLf, TelnetError}
    decreases |s|
  {
    match NextLineSpec(s, fails, text, copy)
    case Stopped(e) => ReplyRead(e, Reply(codes, text, []), s)
    case Took(text', short', rest) =>
      if IsReplyMultiLineLast(short') then ReplyRead(ReplyOk, Reply(codes, text', short'), rest)
      else ContinuationSpec(rest, fails, codes, text', copy)
  }

  /** `a` ends with `b`. */
  predicate EndsWith(a: seq<char>, b: seq<char>)
  {
    |b| <= |a| && a[|a| - |b|..] == b
  }

  /** A suffix of a suffix of `s` is a suffix of `s`. */
  lemma {:induction false} SuffixOfSuffix(s: seq<char>, t: seq<char>, u: seq<char>)
    requires EndsWith(s, t) && EndsWith(t, u)
    ensures EndsWith(s, u)
  {
    assert forall i :: 0 <= i < |u| ==> u[i] == t[|t| - |u| + i] == s[|s| - |t| + |t| - |u| + i];
  }

  /** One step of ContinuationSpec: a `xyz ` line ends the reply, another line hands over to the rest. */
  lemma {:induction false} ContinuationStep(s: seq<char>, fails: bool, codes: seq<int>, text: seq<char>, copy: CopyLine)
    requires ContinuationSpec(s, fails, codes, text, copy).result == ReplyOk
    ensures var t := NextLineSpec(s, fails, text, copy);
      && t.Took? && EndsWith(s, t.rest)
      && var r := ContinuationSpec(s, fails, codes, text, copy);
      if IsReplyMultiLineLast(t.short) then r.rest == t.rest
      else r == ContinuationSpec(t.rest, fails, codes, t.text, copy)
  {
  }

  /** The lines of a multi-line reply are taken from the front of the stream: what is left is its suffix. */
  lemma {:induction false} ContinuationLeavesSuffix(s: seq<char>, fails: bool, codes: seq<int>, text: seq<char>, copy: CopyLine)
    requires ContinuationSpec(s, fails, codes, text, copy).result == ReplyOk
    ensures EndsWith(s, ContinuationSpec(s, fails, codes, text, copy).rest)
    decreases |s|
  {
    ContinuationStep(s, fails, codes, text, copy);
    var t := NextLineSpec(s, fails, text, copy);
    if !IsReplyMultiLineLast(t.short) {
      ContinuationLeavesSuffix(t.rest, fails, codes, t.text, copy);
      SuffixOfSuffix(s, t.rest, ContinuationSpec(t.rest, fails, codes, t.text, copy).rest);
    }
  }

  /** ContinuationSpec by the next line's outcome. */
  lemma {:induction false} ContinuationByFirstLine(s: seq<char>, fails: bool, codes: seq<int>, text: seq<char>, copy: CopyLine)
    ensures var t := NextLineSpec(s, fails, text, copy);
      ContinuationSpec(s, fails, codes, text, copy) ==
        if t.Stopped? then ReplyRead(t.result, Reply(codes, text, []), s)
        else if IsReplyMultiLineLast(t.short) then ReplyRead(ReplyOk, Reply(codes, t.text, t.short), t.rest)
        else ContinuationSpec(t.rest, fails, codes, t.text, copy)
  {
  }

  /** GetReplySpec by the first line's outcome. */
  lemma {:induction false} GetReplyByFirstLine(s: seq<char>, fails: bool, copy: CopyLine)
    ensures var t := NextLineSpec(s, fails, [], copy);
      GetReplySpec(s, fails, copy) ==
        if t.Stopped? then ReplyRead(t.result, Reply([], [], []), s)
        else if |t.text| < 3 then ReplyRead(SyntaxError, Reply(ReplyCodes(t.text), t.text, t.short), t.rest)
        else if !IsReplyMultiLine(t.short) then ReplyRead(ReplyOk, Reply(ReplyCodes(t.text), t.text, t.short), t.rest)
        else ContinuationSpec(t.rest, fails, ReplyCodes(t.text), t.text, copy)
  {
  }

  /** The first step of GetReplySpec on a reply that decodes: a `xyz-` line hands over to the continuation. */
  lemma {:induction false} GetReplyStep(s: seq<char>, fails: bool, copy: CopyLine)
    requires GetReplySpec(s, fails, copy).result == ReplyOk
    ensures var t := NextLineSpec(s, fails, [], copy);
      && t.Took? && EndsWith(s, t.rest)
      && var r := GetReplySpec(s, fails, copy);
      if IsReplyMultiLine(t.short) then r == ContinuationSpec(t.rest, fails, ReplyCodes(t.text), t.text, copy)
      else r.rest == t.rest
  {
  }

  /** get_reply consumes a reply from the front of the stream: what is left is its suffix. */
  lemma {:induction false} GetReplyLeavesSuffix(s: seq<char>, fails: bool, copy: CopyLine)
    requires GetReplySpec(s, fails, copy).result == ReplyOk
    ensures EndsWith(s, GetReplySpec(s, fails, copy).rest)
  {
    GetReplyStep(s, fails, copy);
    var t := NextLineSpec(s, fails, [], copy);
    if IsReplyMultiLine(t.short) {
      var codes := ReplyCodes(t.text);
      ContinuationLeavesSuffix(t.rest, fails, codes, t.text, copy);
      SuffixOfSuffix(s, t.rest, ContinuationSpec(t.rest, fails, codes, t.text, copy).rest);
    }
  }

  /**
   * The codes of a decoded reply are those of the first three bytes of
   * the first line's text, and a syntax error means that text was shorter
   * than three bytes.
   */
  lemma {:induction false} ReplyCodesFromFirstLine(s: seq<char>, fails: bool, copy: CopyLine)
    ensures var r := GetReplySpec(s, fails, copy);
      var t := NextLineSpec(s, fails, [], copy);
      && (r.result == ReplyOk ==> t.Took? && |t.text| >= 3 && r.reply.codes == ReplyCodes(t.text))
      && (r.result == SyntaxError <==> t.Took? && |t.text| < 3)
      && (t.Stopped? ==> r.result == t.result)
  {
    var t := NextLineSpec(s, fails, [], copy);
    if t.Took? && |t.text| >= 3 && IsReplyMultiLine(t.short) {
      var r := ContinuationSpec(t.rest, fails, ReplyCodes(t.text), t.text, copy);
      assert r.result != SyntaxError;
    }
  }

  /** A reply whose first line is not `xyz-` is that one line. */
  lemma {:induction false} SingleLineReply(s: seq<char>, fails: bool, copy: CopyLine)
    requires NextLineSpec(s, fails, [], copy).Took?
    requires var t := NextLineSpec(s, fails, [], copy); |t.text| >= 3 && !IsReplyMultiLine(t.short)
    ensures var t := NextLineSpec(s, fails, [], copy);
      GetReplySpec(s, fails, copy) == ReplyRead(ReplyOk, Reply(ReplyCodes(t.text), t.text, t.short), t.rest)
  {
  }

  /**
   * A multi-line reply ends at its first `xyz ` line whatever its code:
   * the closing line's code is never compared with the opening one.
   */
  lemma {:induction false} ContinuationStopsAtAnyLast(s: seq<char>, fails: bool, codes: seq<int>, text: seq<char>, copy: CopyLine)
    requires NextLineSpec(s, fails, text, copy).Took?
    requires IsReplyMultiLineLast(NextLineSpec(s, fails, text, copy).short)
    ensures var t := NextLineSpec(s, fails, text, copy);
      ContinuationSpec(s, fails, codes, text, copy) == ReplyRead(ReplyOk, Reply(codes, t.text, t.short), t.rest)
  {
  }

  /** A failing line aborts decoding with its own result. */
  lemma {:induction false} LineErrorAborts(s: seq<char>, fails: bool, codes: seq<int>, text: seq<char>, copy: CopyLine)
    requires NextLineSpec(s, fails, text, copy).Stopped?
    ensures ContinuationSpec(s, fails, codes, text, copy).result == NextLineSpec(s, fails, text, copy).result
  {
  }

  // ---------------------------------------------------------------------
  // get_reply on the receive buffer

  /**
   * A method returned what the decoder `r` computes: its result, and on
   * success its reply, with `left` (the bytes still to be read) being what
   * the decoder leaves and the stream's failure unchanged.
   */
  predicate Delivers(r: ReplyRead, result: GetReplyResult, reply: Reply, left: seq<char>, fails0: bool, fails1: bool)
  {
    && result == r.result
    && (result == ReplyOk ==> reply == r.reply && left == r.rest && fails1 == fails0)
  }

  /**
   * The GET_LINE macro of get_reply: read a line into `line`, stop on an
   * error, a close, a line without LF or a Telnet failure, else copy it.
   */
  method GetLineStep(rb: RecvBuf, sock: Socket, line: array<char>, text: seq<char>, copy: CopyLine)
    returns (stop: Option<GetReplyResult>, text': seq<char>, short: seq<char>)
    requires rb.Valid() && line.Length == LINE_MAX_LEN && line != rb.buf
    modifies rb, rb.buf, sock, line
    ensures rb.Valid()
    ensures var t := NextLineSpec(old(rb.Unread()) + old(StreamData(sock.incoming)), old(StreamFails(sock.incoming)), text, copy);
      && (stop.Some? <==> t.Stopped?)
      && (stop.Some? ==> stop.value == t.result)
      && (stop.None? ==> text' == t.text && short == t.short && rb.Unread() + StreamData(sock.incoming) == t.rest)
      && (stop.None? ==> StreamFails(sock.incoming) == old(StreamFails(sock.incoming)))
    ensures sock.sendScript == old(sock.sendScript) && sock.outgoing == old(sock.outgoing)
  {
    ghost var s := rb.Unread() + StreamData(sock.incoming);
    ghost var fails := StreamFails(sock.incoming);
    LineSpecSplitsStream(s, fails);
    text', short := text, [];
    var len := rb.GetLine(sock, line);
    if len < 0 {
      return Some(NetworkError), text', short;
    }
    if len == 0 {
      return Some(Closed), text', short;
    }
    if line[len - 1] != '\n' {
      return Some(LineWithoutLf), text', short;
    }
    var copied := copy(text, line[..len]);
    if copied.None? {
      return Some(TelnetError), text', short;
    }
    return None, copied.value.text, copied.value.short;
  }

  /**
   * get_reply: one line for the codes, then, for a `xyz-` reply, lines
   * up to a `xyz ` one; the result and the reply are those of
   * GetReplySpec on the bytes the buffer and the descriptor deliver.
   */
  method GetReply(rb: RecvBuf, sock: Socket, copy: CopyLine) returns (result: GetReplyResult, reply: Reply)
    requires rb.Valid()
    modifies rb, rb.buf, sock
    ensures rb.Valid()
    ensures Delivers(GetReplySpec(old(rb.Unread()) + old(StreamData(sock.incoming)), old(StreamFails(sock.incoming)), copy),
      result, reply, rb.Unread() + StreamData(sock.incoming), old(StreamFails(sock.incoming)), StreamFails(sock.incoming))
    ensures sock.sendScript == old(sock.sendScript) && sock.outgoing == old(sock.outgoing)
  {
    ghost var s := rb.Unread() + StreamData(sock.incoming);
    ghost var fails := StreamFails(sock.incoming);
    GetReplyByFirstLine(s, fails, copy);
    ghost var t := NextLineSpec(s, fails, [], copy);
    var line := new char[LINE_MAX_LEN];
    var stop, text, short := GetLineStep(rb, sock, line, [], copy);
    if stop.Some? {
      result, reply := stop.value, Reply([], [], []);
    } else {
      assert t.Took? && text == t.text && short == t.short;
      var ok, codes := DecodeCodes(text);
      if !ok {
        result, reply := SyntaxError, Reply(codes, text, short);
      } else if !IsReplyMultiLine(short) {
        result, reply := ReplyOk, Reply(codes, text, short);
      } else {
        assert GetReplySpec(s, fails, copy) == ContinuationSpec(t.rest, fails, codes, text, copy);
        result, reply := ReadContinuation(rb, sock, line, codes, text, copy);
      }
    }
  }

  /**
   * The code loop of get_reply: `reply[i] - '0'` for the first three bytes,
   * failing when the text ends first.
   */
  method DecodeCodes(text: seq<char>) returns (ok: bool, codes: seq<int>)
    ensures ok == (|text| >= 3)
    ensures codes == ReplyCodes(text)
  {
    codes := [];
    for i := 0 to 3
      invariant i <= |text| && codes == ReplyCodes(text)[..i]
    {
      if i + 1 > |text| {
        return false, codes;
      }
      codes := codes + [CodeOf(text[i])];
    }
    return true, codes;
  }

  /**
   * The `for (;;)` loop of get_reply: GET_LINE until a `xyz ` short reply;
   * the result is that of ContinuationSpec on the bytes still to come.
   */
  method ReadContinuation(rb: RecvBuf, sock: Socket, line: array<char>, codes: seq<int>, text: seq<char>, copy: CopyLine)
    returns (result: GetReplyResult, reply: Reply)
    requires rb.Valid() && line.Length == LINE_MAX_LEN && line != rb.buf
    modifies rb, rb.buf, sock, line
    ensures rb.Valid()
    ensures Delivers(ContinuationSpec(old(rb.Unread()) + old(StreamData(sock.incoming)), old(StreamFails(sock.incoming)), codes, text, copy),
      result, reply, rb.Unread() + StreamData(sock.incoming), old(StreamFails(sock.incoming)), StreamFails(sock.incoming))
    ensures sock.sendScript == old(sock.sendScript) && sock.outgoing == old(sock.outgoing)
  {
    ghost var s := rb.Unread() + StreamData(sock.incoming);
    ghost var fails := StreamFails(sock.incoming);
    var cur := text;
    while true
      invariant rb.Valid()
      invariant ContinuationSpec(rb.Unread() + StreamData(sock.incoming), fails, codes, cur, copy) == ContinuationSpec(s, fails, codes, text, copy)
      invariant StreamFails(sock.incoming) == fails
      invariant sock.sendScript == old(sock.sendScript) && sock.outgoing == old(sock.outgoing)
      decreases |rb.Unread() + StreamData(sock.incoming)|
    {
      ContinuationByFirstLine(rb.Unread() + StreamData(sock.incoming), fails, codes, cur, copy);
      var stop, text', short := GetLineStep(rb, sock, line, cur, copy);
      if stop.Some? {
        return stop.value, Reply(codes, cur, short);
      }
      if IsReplyMultiLineLast(short) {
        return ReplyOk, Reply(codes, text', short);
      }
      cur := text';
    }
  }

  // ---------------------------------------------------------------------
  // send_command

  /**
   * send_command with the command already formatted: it sends the command
   * and CRLF in full or fails; it then decodes one reply from a freshly
   * initialised buffer, so the reply is read from the descriptor alone,
   * and whatever that buffer holds past the reply is dropped with it.
   */
  method SendCommand(sock: Socket, cmd: seq<char>, copy: CopyLine) returns (ret: int, reply: Reply)
    modifies sock
    ensures var data := cmd + "\r\n";
      var d := DeliveredFrom(data, 0, old(sock.sendScript));
      && sock.outgoing == old(sock.outgoing) + data[..d]
      && sock.sendScript == ScriptLeft(data, 0, old(sock.sendScript))
      && (d < |data| ==> ret == -1 && sock.incoming == old(sock.incoming))
      && (d == |data| ==>
            var r := GetReplySpec(StreamData(old(sock.incoming)), StreamFails(old(sock.incoming)), copy);
            && (ret == 0 <==> r.result == ReplyOk)
            && (ret == 0 ==> reply == r.reply && EndsWith(r.rest, StreamData(sock.incoming))))
    ensures ret == 0 || ret == -1
  {
    var data := cmd + "\r\n";
    var n := Sendn(sock, data);
    if n != |data| {
      return -1, Reply([], [], []);
    }
    ghost var incoming := sock.incoming;
    var rb := new RecvBuf();
    rb.Init();
    assert rb.Unread() + StreamData(sock.incoming) == StreamData(incoming);
    var result;
    result, reply := GetReply(rb, sock, copy);
    if result != ReplyOk {
      return -1, reply;
    }
    return 0, reply;
  }

  // ---------------------------------------------------------------------
  // get_connection_greetings

  /** A decoder of one reply from a stream of received bytes. */
  type ReplyReader = seq<char> -> ReplyRead

  /** Every decoded reply carries three codes and consumes at least one byte. */
  ghost predicate Consumes(read: ReplyReader)
  {
    forall s :: read(s).result == ReplyOk ==> |read(s).reply.codes| == 3 && |read(s).rest| < |s|
  }

  /** get_reply as a decoder: it consumes what it decodes. */
  function Reader(fails: bool, copy: CopyLine): (read: ReplyReader)
    ensures Consumes(read)
  {
    s => GetReplySpec(s, fails, copy)
  }

  /**
   * get_connection_greetings on the stream `s`: replies of class 1 are
   * skipped, class 2 gives 0; any other class, or a reply that does not
   * decode, gives -1.
   */
  function GreetingsSpec(s: seq<char>, read: ReplyReader): (ret: int)
    requires Consumes(read)
    ensures ret == 0 || ret == -1
    decreases |s|
  {
    var r := read(s);
    if r.result != ReplyOk then -1
    else if r.reply.codes[0] == 1 then GreetingsSpec(r.rest, read)
    else if r.reply.codes[0] == 2 then 0
    else -1
  }

  /**
   * The stream holds `k` decodable replies of class 1 and then one of
   * class 2.
   */
  predicate GreetedAfter(s: seq<char>, read: ReplyReader, k: nat)
    requires Consumes(read)
    decreases k
  {
    var r := read(s);
    && r.result == ReplyOk
    && if k == 0 then r.reply.codes[0] == 2 else r.reply.codes[0] == 1 && GreetedAfter(r.rest, read, k - 1)
  }

  /** `k` class-1 replies followed by a class-2 one make the greetings succeed. */
  lemma {:induction false} GreetedSucceeds(s: seq<char>, read: ReplyReader, k: nat)
    requires Consumes(read) && GreetedAfter(s, read, k)
    ensures GreetingsSpec(s, read) == 0
    decreases k
  {
    if k > 0 {
      GreetedSucceeds(read(s).rest, read, k - 1);
    }
  }

  /** Successful greetings were `k` class-1 replies followed by a class-2 one, for some `k`. */
  lemma {:induction false} SucceedsGreeted(s: seq<char>, read: ReplyReader) returns (k: nat)
    requires Consumes(read) && GreetingsSpec(s, read) == 0
    ensures GreetedAfter(s, read, k)
    decreases |s|
  {
    var r := read(s);
    if r.reply.codes[0] == 1 {
      var k' := SucceedsGreeted(r.rest, read);
      k := k' + 1;
    } else {
      k := 0;
    }
  }

  /** get_connection_greetings: reads replies from `rb` until one is not of class 1. */
  method GetConnectionGreetings(rb: RecvBuf, sock: Socket, copy: CopyLine) returns (ret: int)
    requires rb.Valid()
    modifies rb, rb.buf, sock
    ensures rb.Valid()
    ensures ret == GreetingsSpec(old(rb.Unread()) + old(StreamData(sock.incoming)), Reader(old(StreamFails(sock.incoming)), copy))
    ensures sock.sendScript == old(sock.sendScript) && sock.outgoing == old(sock.outgoing)
  {
    ghost var s := rb.Unread() + StreamData(sock.incoming);
    ghost var fails := StreamFails(sock.incoming);
    ghost var read := Reader(fails, copy);
    while true
      invariant rb.Valid()
      invariant GreetingsSpec(rb.Unread() + StreamData(sock.incoming), read) == GreetingsSpec(s, read)
      invariant StreamFails(sock.incoming) == fails
      invariant sock.sendScript == old(sock.sendScript) && sock.outgoing == old(sock.outgoing)
      decreases |rb.Unread() + StreamData(sock.incoming)|
    {
      ghost var cur := rb.Unread() + StreamData(sock.incoming);
      var result, reply := GetReply(rb, sock, copy);
      assert read(cur) == GetReplySpec(cur, fails, copy);
      if result != ReplyOk {
        return -1;
      }
      var first := reply.codes[0];
      if first == 1 {
        continue;
      }
      if first == 2 {
        return 0;
      }
      if first == 4 {
        return -1;
      }
      return -1;
    }
  }
}

=== FILE: cmd_session.dfy ===
/**
 * The command sequences of src/cmd.c: the login sequence (the USER, PASS
 * and ACCT diagram of RFC 959, page 57), the generic reply validation,
 * entering passive mode (EPSV, RFC 2428, then PASV) and setting the
 * transfer parameters.
 *
 * Each sequence is specified by a function of the answers it received:
 * one `Answer` per command sent, the reply `send_command` decoded, or
 * `None` when `send_command` returned -1.
 */
module CmdSession {
  import opened Common
  import opened SocketUtil
  import opened ParsePassive
  import opened CmdReply

  // enum ReplyCode1: the first digit of a reply code
  const POS_PRE: int := 1
  const POS_COM: int := 2
  const POS_INT: int := 3
  const NEG_TRAN_COM: int := 4
  const NEG_PERM_COM: int := 5

  /** What send_command gives its caller: the decoded reply, or None for its -1. */
  type Answer = Option<Reply>

  /** Every reply received carries its three codes. */
  predicate Decoded(answers: seq<Answer>)
  {
    forall i :: 0 <= i < |answers| && answers[i].Some? ==> |answers[i].value.codes| == 3
  }

  /** The bytes on the control connection after `out`, once each command of `cmds` went out in full with its CRLF. */
  function Transmitted(out: seq<char>, cmds: seq<seq<char>>): seq<char>
    decreases |cmds|
  {
    if cmds == [] then out else Transmitted(out + cmds[0] + "\r\n", cmds[1..])
  }

  /** The answers were all replies. */
  predicate AllAnswered(answers: seq<Answer>)
  {
    None !in answers
  }

  /** What the control connection holds: the receive script still to come, the send script still to come, the bytes sent. */
  datatype Wire = Wire(incoming: seq<RecvEvent>, sendScript: seq<SendEvent>, outgoing: seq<char>)

  /** The control connection of a socket. */
  function WireOf(sock: Socket): Wire
    reads sock
  {
    Wire(sock.incoming, sock.sendScript, sock.outgoing)
  }

  /**
   * One send_command from `w` to `w2`: the command and its CRLF go out as
   * far as the send script lets them; the answer is None exactly when they
   * did not all go out or no reply decodes from the stream, and otherwise
   * it is the reply decoded from the stream, whose rest stays unread.
   */
  predicate Exchanged(w: Wire, cmd: seq<char>, copy: CopyLine, answer: Answer, w2: Wire)
  {
    var data := cmd + "\r\n";
    var d := DeliveredFrom(data, 0, w.sendScript);
    var r := GetReplySpec(StreamData(w.incoming), StreamFails(w.incoming), copy);
    && w2.outgoing == w.outgoing + data[..d]
    && w2.sendScript == ScriptLeft(data, 0, w.sendScript)
    && (answer.None? <==> d < |data| || r.result != ReplyOk)
    && (answer.Some? ==> answer.value == r.reply && EndsWith(r.rest, StreamData(w2.incoming)))
    && (d < |data| ==> w2.incoming == w.incoming)
  }

  /** The `i`-th call of a series: `cmds[i]` took the connection from `trace[i]` to `trace[i + 1]` and got `answers[i]`. */
  predicate CallAt(trace: seq<Wire>, cmds: seq<seq<char>>, copy: CopyLine, answers: seq<Answer>, i: nat)
  {
    i < |answers| && i + 1 < |trace| && i < |cmds| && Exchanged(trace[i], cmds[i], copy, answers[i], trace[i + 1])
  }

  /** A series of send_command calls, one `CallAt` each. */
  predicate Dialogue(trace: seq<Wire>, cmds: seq<seq<char>>, copy: CopyLine, answers: seq<Answer>)
  {
    && |trace| == |answers| + 1 && |cmds| == |answers|
    && forall i: nat :: i < |answers| ==> CallAt(trace, cmds, copy, answers, i)
  }

  /** An exchange followed by a dialogue is a dialogue. */
  lemma {:induction false} DialogueCons(w: Wire, cmd: seq<char>, copy: CopyLine, a: Answer,
                                        trace: seq<Wire>, cmds: seq<seq<char>>, answers: seq<Answer>)
    requires Dialogue(trace, cmds, copy, answers) && Exchanged(w, cmd, copy, a, trace[0])
    ensures Dialogue([w] + trace, [cmd] + cmds, copy, [a] + answers)
  {
    CallAtFirst(w, cmd, copy, a, trace, cmds, answers);
    forall i: nat | 1 <= i < |answers| + 1
      ensures CallAt([w] + trace, [cmd] + cmds, copy, [a] + answers, i)
    {
      CallAtShifted(w, cmd, copy, a, trace, cmds, answers, i - 1);
    }
  }

  /** The first call of a series that starts with `cmd`. */
  lemma CallAtFirst(w: Wire, cmd: seq<char>, copy: CopyLine, a: Answer, trace: seq<Wire>, cmds: seq<seq<char>>, answers: seq<Answer>)
    requires |trace| >= 1 && Exchanged(w, cmd, copy, a, trace[0])
    ensures CallAt([w] + trace, [cmd] + cmds, copy, [a] + answers, 0)
  {
    assert ([w] + trace)[1] == trace[0];
  }

  /** A call of a series keeps its place, one further on, behind an earlier call. */
  lemma CallAtShifted(w: Wire, cmd: seq<char>, copy: CopyLine, a: Answer, trace: seq<Wire>, cmds: seq<seq<char>>, answers: seq<Answer>, i: nat)
    requires CallAt(trace, cmds, copy, answers, i)
    ensures CallAt([w] + trace, [cmd] + cmds, copy, [a] + answers, i + 1)
  {
    assert ([w] + trace)[i + 1] == trace[i] && ([w] + trace)[i + 2] == trace[i + 1];
    assert ([cmd] + cmds)[i + 1] == cmds[i] && ([a] + answers)[i + 1] == answers[i];
  }

  /** A dialogue followed by an exchange is a dialogue. */
  lemma {:induction false} DialogueSnoc(trace: seq<Wire>, cmds: seq<seq<char>>, copy: CopyLine, answers: seq<Answer>,
                                        cmd: seq<char>, a: Answer, w: Wire)
    requires Dialogue(trace, cmds, copy, answers) && Exchanged(trace[|trace| - 1], cmd, copy, a, w)
    ensures Dialogue(trace + [w], cmds + [cmd], copy, answers + [a])
  {
    forall i: nat | i < |answers| + 1
      ensures CallAt(trace + [w], cmds + [cmd], copy, answers + [a], i)
    {
      if i < |answers| {
        CallAtKept(trace, cmds, copy, answers, cmd, a, w, i);
      } else {
        CallAtLast(trace, cmds, copy, answers, cmd, a, w);
      }
    }
  }

  /** Appending an exchange keeps the calls before it. */
  lemma {:induction false} CallAtKept(trace: seq<Wire>, cmds: seq<seq<char>>, copy: CopyLine, answers: seq<Answer>,
                                      cmd: seq<char>, a: Answer, w: Wire, i: nat)
    requires CallAt(trace, cmds, copy, answers, i)
    ensures CallAt(trace + [w], cmds + [cmd], copy, answers + [a], i)
  {
    var t, c, an := trace + [w], cmds + [cmd], answers + [a];
    assert t[i] == trace[i] && t[i + 1] == trace[i + 1] && c[i] == cmds[i] && an[i] == answers[i];
  }

  /** The appended exchange is the last call. */
  lemma {:induction false} CallAtLast(trace: seq<Wire>, cmds: seq<seq<char>>, copy: CopyLine, answers: seq<Answer>,
                                      cmd: seq<char>, a: Answer, w: Wire)
    requires |trace| == |answers| + 1 && |cmds| == |answers| && Exchanged(trace[|trace| - 1], cmd, copy, a, w)
    ensures CallAt(trace + [w], cmds + [cmd], copy, answers + [a], |answers|)
  {
    var t, c, an, i := trace + [w], cmds + [cmd], answers + [a], |answers|;
    assert t[i] == trace[|trace| - 1] && t[i + 1] == w && c[i] == cmd && an[i] == a;
  }

  /** One exchange is a dialogue. */
  lemma {:induction false} DialogueOne(w: Wire, cmd: seq<char>, copy: CopyLine, a: Answer, w2: Wire)
    requires Exchanged(w, cmd, copy, a, w2)
    ensures Dialogue([w, w2], [cmd], copy, [a])
    ensures AllAnswered([a]) ==> w2.outgoing == Transmitted(w.outgoing, [cmd])
  {
    assert CallAt([w, w2], [cmd], copy, [a], 0);
    if AllAnswered([a]) {
      DialogueTransmitted([w, w2], [cmd], copy, [a]);
    }
  }

  /** Two exchanges in a row are a dialogue. */
  lemma {:induction false} DialogueTwo(w: Wire, c: seq<char>, a: Answer, w1: Wire, c1: seq<char>, a1: Answer, w2: Wire, copy: CopyLine)
    requires Exchanged(w, c, copy, a, w1) && Exchanged(w1, c1, copy, a1, w2)
    ensures Dialogue([w, w1, w2], [c, c1], copy, [a, a1])
    ensures AllAnswered([a, a1]) ==> w2.outgoing == Transmitted(w.outgoing, [c, c1])
  {
    assert CallAt([w, w1, w2], [c, c1], copy, [a, a1], 0);
    assert CallAt([w, w1, w2], [c, c1], copy, [a, a1], 1);
    if AllAnswered([a, a1]) {
      DialogueTransmitted([w, w1, w2], [c, c1], copy, [a, a1]);
    }
  }

  /** A reply came back only after the whole command and its CRLF went out. */
  lemma {:induction false} ExchangedSent(w: Wire, cmd: seq<char>, copy: CopyLine, answer: Answer, w2: Wire)
    requires Exchanged(w, cmd, copy, answer, w2) && answer.Some?
    ensures w2.outgoing == w.outgoing + cmd + "\r\n"
  {
    var data := cmd + "\r\n";
    assert data[..|data|] == data;
  }

  /** A dialogue whose commands were all answered transmitted every command in full, in order. */
  lemma {:induction false} DialogueTransmitted(trace: seq<Wire>, cmds: seq<seq<char>>, copy: CopyLine, answers: seq<Answer>)
    requires Dialogue(trace, cmds, copy, answers) && AllAnswered(answers)
    ensures trace[|trace| - 1].outgoing == Transmitted(trace[0].outgoing, cmds)
    decreases |answers|
  {
    if answers != [] {
      assert CallAt(trace, cmds, copy, answers, 0);
      ExchangedSent(trace[0], cmds[0], copy, answers[0], trace[1]);
      assert Dialogue(trace[1..], cmds[1..], copy, answers[1..]) by {
        forall i: nat | i < |answers| - 1
          ensures CallAt(trace[1..], cmds[1..], copy, answers[1..], i)
        {
          assert CallAt(trace, cmds, copy, answers, i + 1);
        }
      }
      assert AllAnswered(answers[1..]) by {
        assert forall a :: a in answers[1..] ==> a in answers;
      }
      DialogueTransmitted(trace[1..], cmds[1..], copy, answers[1..]);
    }
  }

  /**
   * send_command for a formatted command, its result seen as an Answer:
   * the exchange on the control connection is `Exchanged`.
   */
  method Ask(sock: Socket, cmd: seq<char>, copy: CopyLine) returns (answer: Answer)
    modifies sock
    ensures Exchanged(old(WireOf(sock)), cmd, copy, answer, WireOf(sock))
    ensures answer.Some? ==> |answer.value.codes| == 3
    ensures answer.Some? ==> sock.outgoing == old(sock.outgoing) + cmd + "\r\n"
  {
    ghost var w := WireOf(sock);
    var ret, reply := SendCommand(sock, cmd, copy);
    if ret < 0 {
      answer := None;
    } else {
      answer := Some(reply);
      ExchangedSent(w, cmd, copy, answer, WireOf(sock));
    }
  }

  // ---------------------------------------------------------------------
  // perform_login_sequence

  /** The username, password and account information; None is a NULL pointer. */
  datatype LoginInfo = LoginInfo(username: Option<seq<char>>, password: Option<seq<char>>, accountInfo: Option<seq<char>>)

  /** Where a reply sends the login: `succeed`, the next command, `error` (a reply the server should not send) or `fail`. */
  datatype Step = Succeed | Continue | Unexpected | Fail

  /** The reply to USER or PASS: class 2 logs in, class 3 asks for the next command. */
  function UserPassStep(first: int): (st: Step)
    ensures st == Succeed <==> first == POS_COM
    ensures st == Continue <==> first == POS_INT
    ensures st == Unexpected <==> first == POS_PRE
    ensures st == Fail <==> first != POS_PRE && first != POS_COM && first != POS_INT
  {
    if first == POS_COM then Succeed
    else if first == POS_PRE then Unexpected
    else if first == NEG_TRAN_COM || first == NEG_PERM_COM then Fail
    else if first != POS_INT then Fail
    else Continue
  }

  /**
   * The reply to ACCT: class 2 logs in, classes 1 and 3 are replies the
   * server should not send, 4 and 5 fail, and a first digit outside 1 to 5
   * falls through to `return 0` and logs in as well.
   */
  function AcctStep(first: int): (st: Step)
    ensures st == Succeed <==> first == POS_COM || !(POS_PRE <= first <= NEG_PERM_COM)
    ensures st == Unexpected <==> first == POS_PRE || first == POS_INT
    ensures st == Fail <==> first == NEG_TRAN_COM || first == NEG_PERM_COM
  {
    if first == POS_COM then Succeed
    else if first == POS_PRE || first == POS_INT then Unexpected
    else if first == NEG_TRAN_COM || first == NEG_PERM_COM then Fail
    else Succeed
  }

  /** Whether the reply to the command of `stage` ends the login successfully. */
  predicate Accepted(stage: nat, first: int)
  {
    first == POS_COM || (stage == 2 && !(POS_PRE <= first <= NEG_PERM_COM))
  }

  /** The credential the login sends at a stage: 0 USER, 1 PASS, 2 ACCT. */
  function Credential(login: LoginInfo, stage: nat): Option<seq<char>>
    requires stage < 3
  {
    if stage == 0 then login.username else if stage == 1 then login.password else login.accountInfo
  }

  /** The command word of a stage. */
  function Verb(stage: nat): seq<char>
    requires stage < 3
  {
    if stage == 0 then "USER" else if stage == 1 then "PASS" else "ACCT"
  }

  /** The command that sends a credential, as `"USER %s"` formats it. */
  function LoginCommand(stage: nat, arg: seq<char>): seq<char>
    requires stage < 3
  {
    Verb(stage) + " " + arg
  }

  /** The result of a command sequence and the commands it sent, in order. */
  datatype LoginRun = LoginRun(ret: int, sent: seq<seq<char>>)

  /**
   * perform_login_sequence from `stage` on (stage 0 is the whole
   * sequence), given the answers to the commands it sends.
   */
  function LoginFrom(login: LoginInfo, stage: nat, answers: seq<Answer>): (run: LoginRun)
    requires stage < 3 && Decoded(answers)
    ensures |run.sent| <= 3 - stage
    ensures run.ret == 0 || run.ret == -1
    decreases 3 - stage
  {
    match Credential(login, stage)
    case None => LoginRun(-1, [])
    case Some(arg) =>
      var cmd := LoginCommand(stage, arg);
      if answers == [] || answers[0].None? then LoginRun(-1, [cmd])
      else
        var first := answers[0].value.codes[0];
        var step := if stage < 2 then UserPassStep(first) else AcctStep(first);
        if step == Succeed then LoginRun(0, [cmd])
        else if step == Continue then
          assert stage < 2;
          var run := LoginFrom(login, stage + 1, answers[1..]);
          LoginRun(run.ret, [cmd] + run.sent)
        else LoginRun(-1, [cmd])
  }

  /**
   * From `stage` on, the login sends the credentials in order, each at
   * most once, and never one that is missing.
   */
  lemma {:induction false} LoginFromSendsInOrder(login: LoginInfo, stage: nat, answers: seq<Answer>)
    requires stage < 3 && Decoded(answers)
    ensures var run := LoginFrom(login, stage, answers);
      forall i :: 0 <= i < |run.sent| ==>
        Credential(login, stage + i).Some? && run.sent[i] == LoginCommand(stage + i, Credential(login, stage + i).value)
    decreases 3 - stage
  {
    var run := LoginFrom(login, stage, answers);
    if Credential(login, stage).Some? && answers != [] && answers[0].Some? {
      var first := answers[0].value.codes[0];
      var step := if stage < 2 then UserPassStep(first) else AcctStep(first);
      if step == Continue {
        LoginFromSendsInOrder(login, stage + 1, answers[1..]);
        var rest := LoginFrom(login, stage + 1, answers[1..]);
        assert run.sent == [LoginCommand(stage, Credential(login, stage).value)] + rest.sent;
        forall i | 1 <= i < |run.sent|
          ensures run.sent[i] == rest.sent[i - 1]
        {
        }
      }
    }
  }

  /** Every answer before position `n` is a reply of class 3. */
  predicate IntermediateBefore(answers: seq<Answer>, n: nat)
    requires Decoded(answers) && n <= |answers|
  {
    forall i :: 0 <= i < n ==> answers[i].Some? && answers[i].value.codes[0] == POS_INT
  }

  /**
   * From `stage` on, the login succeeds exactly when its last command got
   * a reply that accepts it and every earlier one a reply of class 3.
   */
  lemma {:induction false} LoginFromSucceedsIff(login: LoginInfo, stage: nat, answers: seq<Answer>)
    requires stage < 3 && Decoded(answers)
    ensures var run := LoginFrom(login, stage, answers);
      var n := |run.sent|;
      run.ret == 0 <==>
        0 < n <= |answers| && IntermediateBefore(answers, n - 1)
        && answers[n - 1].Some? && Accepted(stage + n - 1, answers[n - 1].value.codes[0])
    decreases 3 - stage
  {
    var run := LoginFrom(login, stage, answers);
    if Credential(login, stage).Some? && answers != [] && answers[0].Some? {
      var first := answers[0].value.codes[0];
      var step := if stage < 2 then UserPassStep(first) else AcctStep(first);
      if step == Continue {
        LoginFromSucceedsIff(login, stage + 1, answers[1..]);
        var rest := LoginFrom(login, stage + 1, answers[1..]);
        var n := |run.sent|;
        assert n == |rest.sent| + 1;
        if rest.ret == 0 {
          assert IntermediateBefore(answers, n - 1) by {
            forall i | 0 <= i < n - 1
              ensures answers[i].Some? && answers[i].value.codes[0] == POS_INT
            {
              if i > 0 {
                assert answers[i] == answers[1..][i - 1];
              }
            }
          }
        }
        if 0 < n <= |answers| && IntermediateBefore(answers, n - 1) && answers[n - 1].Some? && Accepted(stage + n - 1, answers[n - 1].value.codes[0]) {
          assert n >= 2;
          assert IntermediateBefore(answers[1..], n - 2) by {
            forall i | 0 <= i < n - 2
              ensures answers[1..][i].Some? && answers[1..][i].value.codes[0] == POS_INT
            {
              assert answers[1..][i] == answers[i + 1];
            }
          }
          assert answers[1..][n - 2] == answers[n - 1];
        }
      }
    }
  }

  /** One step of the login: the answer to `cmd` and where its reply leads. */
  method LoginStage(sock: Socket, stage: nat, arg: seq<char>, copy: CopyLine) returns (answer: Answer, step: Step)
    requires stage < 3
    modifies sock
    ensures Exchanged(old(WireOf(sock)), LoginCommand(stage, arg), copy, answer, WireOf(sock))
    ensures answer.Some? ==> |answer.value.codes| == 3 && sock.outgoing == old(sock.outgoing) + LoginCommand(stage, arg) + "\r\n"
    ensures answer.Some? ==> step == if stage < 2 then UserPassStep(answer.value.codes[0]) else AcctStep(answer.value.codes[0])
  {
    step := Fail;
    answer := Ask(sock, LoginCommand(stage, arg), copy);
    if answer.Some? {
      var first := answer.value.codes[0];
      step := if stage < 2 then UserPassStep(first) else AcctStep(first);
    }
  }

  /** The ACCT block of perform_login_sequence. */
  method LoginAcct(login: LoginInfo, sock: Socket, copy: CopyLine) returns (ret: int, ghost answers: seq<Answer>, ghost trace: seq<Wire>)
    modifies sock
    ensures Decoded(answers)
    ensures ret == LoginFrom(login, 2, answers).ret && |answers| == |LoginFrom(login, 2, answers).sent|
    ensures Dialogue(trace, LoginFrom(login, 2, answers).sent, copy, answers)
    ensures trace[0] == old(WireOf(sock)) && trace[|trace| - 1] == WireOf(sock)
    ensures AllAnswered(answers) ==> sock.outgoing == Transmitted(old(sock.outgoing), LoginFrom(login, 2, answers).sent)
  {
    answers, trace := [], [WireOf(sock)];
    if login.accountInfo.None? {
      return -1, answers, trace;
    }
    ghost var w := WireOf(sock);
    var a, step := LoginStage(sock, 2, login.accountInfo.value, copy);
    answers, trace := [a], [w, WireOf(sock)];
    LoginStops(login, 2, copy, w, a, step, WireOf(sock));
    if a.Some? && step == Succeed {
      return 0, answers, trace;
    }
    return -1, answers, trace;
  }

  /** The PASS block of perform_login_sequence, and the ACCT block when the server asks for it. */
  method LoginPass(login: LoginInfo, sock: Socket, copy: CopyLine) returns (ret: int, ghost answers: seq<Answer>, ghost trace: seq<Wire>)
    modifies sock
    ensures Decoded(answers)
    ensures ret == LoginFrom(login, 1, answers).ret && |answers| == |LoginFrom(login, 1, answers).sent|
    ensures Dialogue(trace, LoginFrom(login, 1, answers).sent, copy, answers)
    ensures trace[0] == old(WireOf(sock)) && trace[|trace| - 1] == WireOf(sock)
    ensures AllAnswered(answers) ==> sock.outgoing == Transmitted(old(sock.outgoing), LoginFrom(login, 1, answers).sent)
  {
    answers, trace := [], [WireOf(sock)];
    if login.password.None? {
      return -1, answers, trace;
    }
    ghost var w := WireOf(sock);
    var a, step := LoginStage(sock, 1, login.password.value, copy);
    if a.None? || step != Continue {
      answers, trace := [a], [w, WireOf(sock)];
      LoginStops(login, 1, copy, w, a, step, WireOf(sock));
      return if a.Some? && step == Succeed then 0 else -1, answers, trace;
    }
    ghost var more, tail;
    ret, more, tail := LoginAcct(login, sock, copy);
    answers, trace := [a] + more, [w] + tail;
    LoginContinues(login, 1, copy, w, a, tail, more);
  }

  /** The wire of a login whose command at `stage` is the last one it sends. */
  lemma {:induction false} LoginStops(login: LoginInfo, stage: nat, copy: CopyLine, w: Wire, a: Answer, step: Step, w1: Wire)
    requires stage < 3 && Credential(login, stage).Some? && (a.Some? ==> |a.value.codes| == 3)
    requires Exchanged(w, LoginCommand(stage, Credential(login, stage).value), copy, a, w1)
    requires a.Some? ==> step == if stage < 2 then UserPassStep(a.value.codes[0]) else AcctStep(a.value.codes[0])
    requires a.None? || step != Continue
    ensures Decoded([a]) && LoginFrom(login, stage, [a]).sent == [LoginCommand(stage, Credential(login, stage).value)]
    ensures LoginFrom(login, stage, [a]).ret == if a.Some? && step == Succeed then 0 else -1
    ensures Dialogue([w, w1], LoginFrom(login, stage, [a]).sent, copy, [a])
    ensures AllAnswered([a]) ==> w1.outgoing == Transmitted(w.outgoing, LoginFrom(login, stage, [a]).sent)
  {
    DialogueOne(w, LoginCommand(stage, Credential(login, stage).value), copy, a, w1);
  }

  /** The wire of a login that goes on after a class-3 reply at `stage`. */
  lemma {:induction false} LoginContinues(login: LoginInfo, stage: nat, copy: CopyLine, w: Wire, a: Answer,
                                          tail: seq<Wire>, more: seq<Answer>)
    requires stage < 2 && Credential(login, stage).Some? && a.Some? && |a.value.codes| == 3 && Decoded(more)
    requires UserPassStep(a.value.codes[0]) == Continue
    requires |more| == |LoginFrom(login, stage + 1, more).sent| && Dialogue(tail, LoginFrom(login, stage + 1, more).sent, copy, more)
    requires Exchanged(w, LoginCommand(stage, Credential(login, stage).value), copy, a, tail[0])
    ensures Decoded([a] + more) && LoginFrom(login, stage, [a] + more).ret == LoginFrom(login, stage + 1, more).ret
    ensures |[a] + more| == |LoginFrom(login, stage, [a] + more).sent|
    ensures Dialogue([w] + tail, LoginFrom(login, stage, [a] + more).sent, copy, [a] + more)
    ensures AllAnswered([a] + more) ==> tail[|tail| - 1].outgoing == Transmitted(w.outgoing, LoginFrom(login, stage, [a] + more).sent)
  {
    LoginFromContinue(login, stage, a, more);
    var rest := LoginFrom(login, stage + 1, more);
    DialogueCons(w, LoginCommand(stage, Credential(login, stage).value), copy, a, tail, rest.sent, more);
    if AllAnswered([a] + more) {
      DialogueTransmitted([w] + tail, LoginFrom(login, stage, [a] + more).sent, copy, [a] + more);
      assert ([w] + tail)[|tail|] == tail[|tail| - 1];
    }
  }

  /** A class-3 reply to USER or PASS puts its command before the rest of the login. */
  lemma {:induction false} LoginFromContinue(login: LoginInfo, stage: nat, a: Answer, more: seq<Answer>)
    requires stage < 2 && Credential(login, stage).Some? && a.Some? && |a.value.codes| == 3 && Decoded(more)
    requires UserPassStep(a.value.codes[0]) == Continue
    ensures var rest := LoginFrom(login, stage + 1, more);
      LoginFrom(login, stage, [a] + more) == LoginRun(rest.ret, [LoginCommand(stage, Credential(login, stage).value)] + rest.sent)
  {
    assert ([a] + more)[1..] == more;
  }

  /**
   * perform_login_sequence: USER, then PASS and ACCT while the server
   * asks for them. The result is LoginFrom stage 0 of the answers
   * received, one per command sent, and commands that were answered went
   * out in full.
   */
  method PerformLoginSequence(login: LoginInfo, sock: Socket, copy: CopyLine) returns (ret: int, ghost answers: seq<Answer>, ghost trace: seq<Wire>)
    modifies sock
    ensures Decoded(answers)
    ensures ret == LoginFrom(login, 0, answers).ret && |answers| == |LoginFrom(login, 0, answers).sent|
    ensures Dialogue(trace, LoginFrom(login, 0, answers).sent, copy, answers)
    ensures trace[0] == old(WireOf(sock)) && trace[|trace| - 1] == WireOf(sock)
    ensures AllAnswered(answers) ==> sock.outgoing == Transmitted(old(sock.outgoing), LoginFrom(login, 0, answers).sent)
  {
    answers, trace := [], [WireOf(sock)];
    if login.username.None? {
      return -1, answers, trace;
    }
    ghost var w := WireOf(sock);
    var a, step := LoginStage(sock, 0, login.username.value, copy);
    if a.None? || step != Continue {
      answers, trace := [a], [w, WireOf(sock)];
      LoginStops(login, 0, copy, w, a, step, WireOf(sock));
      return if a.Some? && step == Succeed then 0 else -1, answers, trace;
    }
    ghost var more, tail;
    ret, more, tail := LoginPass(login, sock, copy);
    answers, trace := [a] + more, [w] + tail;
    LoginContinues(login, 0, copy, w, a, tail, more);
  }

  // ---------------------------------------------------------------------
  // generic_reply_next_state and generic_reply_validate

  /** enum State, in declaration order. */
  datatype State = Success | Failure | Error

  /** The value of an enum State constant. */
  function StateValue(st: State): int
  {
    match st
    case Success => 0
    case Failure => 1
    case Error => 2
  }

  /** A value, or a `__builtin_unreachable` reached (undefined behaviour). */
  datatype Reached<T> = Value(value: T) | Unreachable

  /**
   * generic_reply_next_state: completion, an error by the server for a
   * preliminary or intermediate reply, failure for a negative one; any
   * other class is undefined.
   */
  function GenericReplyNextState(first: int): (n: Reached<State>)
    ensures n.Value? <==> POS_PRE <= first <= NEG_PERM_COM
    ensures n == Value(Success) <==> first == POS_COM
  {
    if first == POS_COM then Value(Success)
    else if first == POS_PRE || first == POS_INT then Value(Error)
    else if first == NEG_TRAN_COM || first == NEG_PERM_COM then Value(Failure)
    else Unreachable
  }

  /** generic_reply_validate as written: the state is compared with POS_COM, whose value is that of ERROR. */
  function GenericReplyValidateAsWritten(first: int): (r: Reached<int>)
    ensures r == Unreachable <==> first == POS_COM || first < POS_PRE || first > NEG_PERM_COM
    ensures r.Value? ==> r.value == 0 || r.value == -1
  {
    match GenericReplyNextState(first)
    case Unreachable => Unreachable
    case Value(next) =>
      if StateValue(next) == POS_COM then Value(0)
      else if next == Error then Value(-1)
      else if next == Failure then Value(-1)
      else Unreachable
  }

  /**
   * As written, validation accepts the replies it should reject as
   * errors, and a positive completion reply reaches the unreachable end.
   */
  lemma {:induction false} ValidateAsWrittenInverted(first: int)
    ensures GenericReplyValidateAsWritten(first) == Value(0) <==> first == POS_PRE || first == POS_INT
    ensures GenericReplyValidateAsWritten(first) == Value(-1) <==> first == NEG_TRAN_COM || first == NEG_PERM_COM
    ensures GenericReplyValidateAsWritten(POS_COM) == Unreachable
  {
  }

  /** generic_reply_validate: 0 for a positive completion reply, -1 for every other. */
  function GenericReplyValidate(first: int): (ret: int)
    ensures ret == 0 <==> first == POS_COM
    ensures ret == 0 || ret == -1
  {
    match GenericReplyNextState(first)
    case Value(Success) => 0
    case _ => -1
  }

  /**
   * A first code outside 1 to 5 (a reply such as `027` or `a27`) reaches
   * `__builtin_unreachable` in generic_reply_next_state, and so in both
   * versions of the validation; the corrected one rejects it with -1.
   */
  lemma {:induction false} ValidateOutsideClasses(first: int)
    requires !(POS_PRE <= first <= NEG_PERM_COM)
    ensures GenericReplyNextState(first) == Unreachable
    ensures GenericReplyValidateAsWritten(first) == Unreachable
    ensures GenericReplyValidate(first) == -1
  {
  }

  /** The corrected validation keeps the as-written verdict on negative replies. */
  lemma {:induction false} ValidateKeepsFailures(first: int)
    requires first == NEG_TRAN_COM || first == NEG_PERM_COM
    ensures GenericReplyValidateAsWritten(first) == Value(GenericReplyValidate(first))
  {
  }

  // ---------------------------------------------------------------------
  // enter_passive_mode and set_transfer_parameters

  /** The result of a negotiation, the host name and service it gives, and the commands it sent. */
  datatype Passive = Passive(ret: int, name: seq<char>, service: seq<char>, sent: seq<seq<char>>)

  /** The codes of the EPSV reply, 229. */
  const EPSV_CODES: seq<int> := [2, 2, 9]

  /** EPSV was answered with a reply other than 229. */
  predicate EpsvRefused(answers: seq<Answer>)
    requires Decoded(answers)
  {
    answers != [] && answers[0].Some? && !IsReplyEq(answers[0].value.codes, EPSV_CODES)
  }

  /** The PASV half of enter_passive_mode: the reply must be of class 2 and hold the host and port. */
  function PasvSpec(b: Answer): (p: Passive)
    requires b.Some? ==> |b.value.codes| == 3
    ensures p.ret == 0 || p.ret == -1
    ensures p.sent == ["EPSV", "PASV"]
    ensures p.ret == 0 ==> b.Some? && b.value.codes[0] == POS_COM && 7 <= |p.name| <= 15 && DigitsOrDots(p.name)
  {
    if b.None? then Passive(-1, [], [], ["EPSV", "PASV"])
    else if GenericReplyValidate(b.value.codes[0]) < 0 then Passive(-1, [], [], ["EPSV", "PASV"])
    else
      match ParsePasvSpec(b.value.short)
      case None => Passive(-1, [], [], ["EPSV", "PASV"])
      case Some(addr) => Passive(0, addr.name, PortText(addr.port), ["EPSV", "PASV"])
  }

  /**
   * The EPSV half of enter_passive_mode: a 229 reply gives the port of its
   * body and an empty host name, and fails outright when it does not
   * parse; None is any other reply, which leads to PASV.
   */
  function EpsvSpec(a: Answer): (p: Option<Passive>)
    requires a.Some? ==> |a.value.codes| == 3
    ensures p.None? <==> a.Some? && !IsReplyEq(a.value.codes, EPSV_CODES)
    ensures p.Some? ==> p.value.sent == ["EPSV"] && (p.value.ret == 0 || p.value.ret == -1)
    ensures p.Some? && p.value.ret == 0 ==> p.value.name == [] && a.Some? && ParseEpsvSpec(a.value.short) == Some(p.value.service)
  {
    if a.None? then Some(Passive(-1, [], [], ["EPSV"]))
    else if IsReplyEq(a.value.codes, EPSV_CODES) then
      match ParseEpsvSpec(a.value.short)
      case None => Some(Passive(-1, [], [], ["EPSV"]))
      case Some(port) => Some(Passive(0, [], port, ["EPSV"]))
    else None
  }

  /**
   * enter_passive_mode, given the answers to the commands it sends: EPSV
   * first, and PASV only after a reply to EPSV other than 229.
   */
  function EnterPassiveSpec(answers: seq<Answer>): (p: Passive)
    requires Decoded(answers)
    ensures p.ret == 0 || p.ret == -1
    ensures |p.sent| == if EpsvRefused(answers) then 2 else 1
  {
    if answers == [] then Passive(-1, [], [], ["EPSV"])
    else
      match EpsvSpec(answers[0])
      case Some(p) => p
      case None => if |answers| < 2 then Passive(-1, [], [], ["EPSV", "PASV"]) else PasvSpec(answers[1])
  }

  /**
   * Passive mode is entered exactly when EPSV gets a 229 reply whose body
   * parses, or any other reply followed by a class-2 reply to PASV whose
   * body parses.
   */
  lemma {:induction false} EnterPassiveSucceedsIff(answers: seq<Answer>)
    requires Decoded(answers)
    ensures EnterPassiveSpec(answers).ret == 0 <==>
      || (answers != [] && answers[0].Some? && IsReplyEq(answers[0].value.codes, EPSV_CODES)
          && ParseEpsvSpec(answers[0].value.short).Some?)
      || (EpsvRefused(answers) && |answers| >= 2 && answers[1].Some? && answers[1].value.codes[0] == POS_COM
          && ParsePasvSpec(answers[1].value.short).Some?)
  {
  }

  /** Answers past those the negotiation used do not change it. */
  lemma {:induction false} EnterPassiveUsesItsAnswers(answers: seq<Answer>, more: seq<Answer>)
    requires Decoded(answers) && Decoded(answers + more)
    requires |answers| == |EnterPassiveSpec(answers).sent|
    ensures EnterPassiveSpec(answers + more) == EnterPassiveSpec(answers)
  {
    assert (answers + more)[0] == answers[0];
    if |answers| == 2 {
      assert (answers + more)[1] == answers[1];
    }
  }

  /** The PASV half of enter_passive_mode, after a reply other than 229 to EPSV. */
  method EnterPassiveByPasv(sock: Socket, copy: CopyLine) returns (ret: int, name: seq<char>, service: seq<char>, ghost b: Answer)
    modifies sock
    ensures b.Some? ==> |b.value.codes| == 3
    ensures ret == PasvSpec(b).ret
    ensures ret == 0 ==> name == PasvSpec(b).name && service == PasvSpec(b).service
    ensures Exchanged(old(WireOf(sock)), "PASV", copy, b, WireOf(sock))
  {
    name, service := [], [];
    var reply := Ask(sock, "PASV", copy);
    b := reply;
    if reply.None? {
      return -1, name, service, b;
    }
    if GenericReplyValidate(reply.value.codes[0]) < 0 {
      return -1, name, service, b;
    }
    var r;
    r, name, service := ParsePasvReply(reply.value.short);
    if r < 0 {
      return -1, name, service, b;
    }
    return 0, name, service, b;
  }

  /** The EPSV half of enter_passive_mode; `done` is false when PASV is to follow. */
  method EnterPassiveByEpsv(sock: Socket, copy: CopyLine) returns (done: bool, ret: int, service: seq<char>, ghost a: Answer)
    modifies sock
    ensures a.Some? ==> |a.value.codes| == 3
    ensures done <==> EpsvSpec(a).Some?
    ensures done ==> ret == EpsvSpec(a).value.ret && (ret == 0 ==> service == EpsvSpec(a).value.service)
    ensures Exchanged(old(WireOf(sock)), "EPSV", copy, a, WireOf(sock))
  {
    service := [];
    var reply := Ask(sock, "EPSV", copy);
    a := reply;
    if reply.None? {
      return true, -1, service, a;
    }
    if IsReplyEq(reply.value.codes, EPSV_CODES) {
      var r, port := ParseEpsvReply(reply.value.short);
      if r < 0 {
        return true, -1, service, a;
      }
      return true, 0, port, a;
    }
    return false, 0, service, a;
  }

  /**
   * enter_passive_mode: the result, host name and service are those of
   * EnterPassiveSpec on the answers received, one per command sent.
   */
  method EnterPassiveMode(sock: Socket, copy: CopyLine)
    returns (ret: int, name: seq<char>, service: seq<char>, ghost answers: seq<Answer>, ghost trace: seq<Wire>)
    modifies sock
    ensures Decoded(answers) && |answers| == |EnterPassiveSpec(answers).sent|
    ensures Dialogue(trace, EnterPassiveSpec(answers).sent, copy, answers)
    ensures trace[0] == old(WireOf(sock)) && trace[|trace| - 1] == WireOf(sock)
    ensures ret == EnterPassiveSpec(answers).ret
    ensures ret == 0 ==> name == EnterPassiveSpec(answers).name && service == EnterPassiveSpec(answers).service
    ensures AllAnswered(answers) ==> sock.outgoing == Transmitted(old(sock.outgoing), EnterPassiveSpec(answers).sent)
  {
    var done;
    ghost var a, b;
    ghost var w := WireOf(sock);
    done, ret, service, a := EnterPassiveByEpsv(sock, copy);
    ghost var w1 := WireOf(sock);
    answers, trace := [a], [w, w1];
    if done {
      DialogueOne(w, "EPSV", copy, a, w1);
      assert EnterPassiveSpec(answers).sent == ["EPSV"];
      // `*name = '\0'` on success
      return ret, [], service, answers, trace;
    }
    ret, name, service, b := EnterPassiveByPasv(sock, copy);
    DialogueTwo(w, "EPSV", a, w1, "PASV", b, WireOf(sock), copy);
    answers, trace := [a, b], [w, w1, WireOf(sock)];
    PassiveSentBoth(a, b);
  }

  /** After a refused EPSV, enter_passive_mode sends EPSV and PASV. */
  lemma {:induction false} PassiveSentBoth(a: Answer, b: Answer)
    requires (a.Some? ==> |a.value.codes| == 3) && (b.Some? ==> |b.value.codes| == 3) && EpsvSpec(a).None?
    ensures Decoded([a, b]) && EnterPassiveSpec([a, b]).sent == ["EPSV", "PASV"]
  {
    assert [a, b][0] == a && [a, b][1] == b;
  }

  /**
   * set_transfer_parameters, given the answers to the commands it sends:
   * passive mode, then `TYPE I`, whose reply must be of class 2.
   */
  function SetTransferSpec(answers: seq<Answer>): (p: Passive)
    requires Decoded(answers)
    ensures p.ret == 0 || p.ret == -1
    ensures p.ret == 0 ==>
      var pm := EnterPassiveSpec(answers);
      && pm.ret == 0 && p.name == pm.name && p.service == pm.service && p.sent == pm.sent + ["TYPE I"]
      && |answers| > |pm.sent| && answers[|pm.sent|].Some? && answers[|pm.sent|].value.codes[0] == POS_COM
  {
    var pm := EnterPassiveSpec(answers);
    if pm.ret < 0 then pm
    else
      var k := |pm.sent|;
      var ret := if |answers| <= k || answers[k].None? then -1 else GenericReplyValidate(answers[k].value.codes[0]);
      Passive(ret, pm.name, pm.service, pm.sent + ["TYPE I"])
  }

  /**
   * set_transfer_parameters succeeds exactly when passive mode was entered
   * and `TYPE I`, the next command, got a class-2 reply.
   */
  lemma {:induction false} SetTransferSucceedsIff(answers: seq<Answer>)
    requires Decoded(answers)
    ensures var k := |EnterPassiveSpec(answers).sent|;
      SetTransferSpec(answers).ret == 0 <==>
        EnterPassiveSpec(answers).ret == 0 && k < |answers| && answers[k].Some? && answers[k].value.codes[0] == POS_COM
  {
  }

  /**
   * set_transfer_parameters: the result, host name and service are those
   * of SetTransferSpec on the answers received, one per command sent.
   */
  method SetTransferParameters(sock: Socket, copy: CopyLine)
    returns (ret: int, name: seq<char>, service: seq<char>, ghost answers: seq<Answer>, ghost trace: seq<Wire>)
    modifies sock
    ensures Decoded(answers) && |answers| == |SetTransferSpec(answers).sent|
    ensures Dialogue(trace, SetTransferSpec(answers).sent, copy, answers)
    ensures trace[0] == old(WireOf(sock)) && trace[|trace| - 1] == WireOf(sock)
    ensures ret == SetTransferSpec(answers).ret
    ensures ret == 0 ==> name == SetTransferSpec(answers).name && service == SetTransferSpec(answers).service
    ensures AllAnswered(answers) ==> sock.outgoing == Transmitted(old(sock.outgoing), SetTransferSpec(answers).sent)
  {
    ghost var pm, pt;
    ret, name, service, pm, pt := EnterPassiveMode(sock, copy);
    answers, trace := pm, pt;
    if ret < 0 {
      return;
    }
    var t := Ask(sock, "TYPE I", copy);
    answers, trace := pm + [t], pt + [WireOf(sock)];
    EnterPassiveUsesItsAnswers(pm, [t]);
    DialogueSnoc(pt, EnterPassiveSpec(pm).sent, copy, pm, "TYPE I", t, WireOf(sock));
    assert answers[|pm|] == t;
    if AllAnswered(answers) {
      DialogueTransmitted(trace, SetTransferSpec(answers).sent, copy, answers);
    }
    if t.None? {
      return -1, name, service, answers, trace;
    }
    if GenericReplyValidate(t.value.codes[0]) < 0 {
      return -1, name, service, answers, trace;
    }
    return 0, name, service, answers, trace;
  }
}

=== FILE: common.dfy ===
/**
 * Shared vocabulary of the FTP client model: optional values, the C-string
 * reading convention, C-locale character classes and decimal numerals.
 *
 * Text is `seq<char>` with one char per octet (values 0..255). A C string
 * whose bytes before the terminating NUL are `s` is read with `At(s, i)`:
 * every index at or past `|s|` reads the terminator.
 */
module Common {

  datatype Option<T> = None | Some(value: T)

  const NUL: char := '\0'

  /** The byte at index `i` of the NUL-terminated string `s`. */
  function At(s: seq<char>, i: int): char
  {
    if 0 <= i < |s| then s[i] else NUL
  }

  /** `isdigit` in the C locale. */
  predicate IsDigit(c: char)
  {
    '0' <= c <= '9'
  }

  /** `isspace` in the C locale: space, \t, \n, \v, \f, \r. */
  predicate IsSpace(c: char)
  {
    c == ' ' || c == '\t' || c == '\n' || c == '\U{B}' || c == '\U{C}' || c == '\r'
  }

  predicate AllDigits(ds: seq<char>)
  {
    forall k :: 0 <= k < |ds| ==> IsDigit(ds[k])
  }

  function DigitValue(c: char): nat
    requires IsDigit(c)
  {
    c as int - '0' as int
  }

  function DigitChar(d: nat): (c: char)
    requires d < 10
    ensures IsDigit(c) && DigitValue(c) == d
  {
    (d + '0' as int) as char
  }

  /** The value of a run of decimal digits, most significant first. */
  function DecimalValue(ds: seq<char>): nat
    requires AllDigits(ds)
  {
    if ds == [] then 0 else DecimalValue(ds[..|ds| - 1]) * 10 + DigitValue(ds[|ds| - 1])
  }

  /** The shortest decimal numeral of `n` (what `%d` prints for n >= 0). */
  function NatToDecimal(n: nat): (ds: seq<char>)
    ensures 1 <= |ds| && AllDigits(ds)
    ensures DecimalValue(ds) == n
    ensures ds[0] == '0' ==> n == 0
  {
    if n < 10 then [DigitChar(n)]
    else
      var hi := NatToDecimal(n / 10);
      var ds := hi + [DigitChar(n % 10)];
      assert ds[..|ds| - 1] == hi;
      ds
  }

  /** What `sprintf("%d", n)` writes for a signed integer. */
  function IntToDecimal(n: int): seq<char>
  {
    if n < 0 then "-" + NatToDecimal(-n) else NatToDecimal(n)
  }

  lemma {:induction false} NatToDecimalLength(n: nat)
    ensures n < 10 ==> |NatToDecimal(n)| == 1
    ensures n < 100 ==> |NatToDecimal(n)| <= 2
    ensures n < 1000 ==> |NatToDecimal(n)| <= 3
    ensures n < 10000 ==> |NatToDecimal(n)| <= 4
    ensures n < 100000 ==> |NatToDecimal(n)| <= 5
  {
    if n >= 10 {
      NatToDecimalLength(n / 10);
    }
  }

  /** First index at or after `i` that does not hold a digit (the NUL stops every run). */
  function DigitRunEnd(s: seq<char>, i: nat): (e: nat)
    ensures i <= e
    ensures i <= |s| ==> e <= |s|
    ensures !IsDigit(At(s, e))
    ensures forall k :: i <= k < e ==> IsDigit(At(s, k))
    decreases |s| - i
  {
    if i < |s| && IsDigit(s[i]) then DigitRunEnd(s, i + 1) else i
  }

  /** First index at or after `i` whose byte is not C-locale whitespace. */
  function SkipSpaces(s: seq<char>, i: nat): (e: nat)
    ensures i <= e
    ensures i <= |s| ==> e <= |s|
    ensures !IsSpace(At(s, e))
    ensures forall k :: i <= k < e ==> IsSpace(At(s, k))
    decreases |s| - i
  {
    if i < |s| && IsSpace(s[i]) then SkipSpaces(s, i + 1) else i
  }

  /** First index at or after `i` holding `c`, or `|s|` when there is none. */
  function FindFrom(s: seq<char>, i: nat, c: char): (e: nat)
    ensures i <= e
    ensures i <= |s| ==> e <= |s|
    ensures e < |s| ==> s[e] == c
    ensures forall k :: i <= k < e && k < |s| ==> s[k] != c
    decreases |s| - i
  {
    if i < |s| && s[i] != c then FindFrom(s, i + 1, c) else i
  }

  lemma {:induction false} FindFromAt(s: seq<char>, i: nat, e: nat, c: char)
    requires i <= e < |s| && s[e] == c
    requires forall k :: i <= k < e ==> s[k] != c
    ensures FindFrom(s, i, c) == e
    decreases e - i
  {
    if i < e {
      FindFromAt(s, i + 1, e, c);
    }
  }

  /** Looking at index `e`, not past the first `c`, decides whether it is the first `c`. */
  lemma {:induction false} FindFromStep(s: seq<char>, i: nat, e: nat, c: char)
    requires i <= e < |s| && e <= FindFrom(s, i, c)
    ensures s[e] == c ==> FindFrom(s, i, c) == e
    ensures s[e] != c ==> e < FindFrom(s, i, c)
  {
  }

  /**
   * The byte `j` places after `p`. `Matches` quantifies over this term, so
   * that its facts are used only where a proof names an offset.
   */
  function Offset(s: seq<char>, p: int, j: int): char
  {
    At(s, p + j)
  }

  /** `t` occurs in `s` at index `p`. */
  predicate Matches(s: seq<char>, p: nat, t: seq<char>)
  {
    p + |t| <= |s| && forall j {:trigger Offset(s, p, j)} :: 0 <= j < |t| ==> Offset(s, p, j) == t[j]
  }

  lemma {:induction false} MatchesSplit(s: seq<char>, p: nat, a: seq<char>, b: seq<char>)
    requires Matches(s, p, a + b)
    ensures Matches(s, p, a) && Matches(s, p + |a|, b)
  {
    forall j | 0 <= j < |a|
      ensures Offset(s, p, j) == a[j]
    {
      assert Offset(s, p, j) == (a + b)[j];
    }
    forall j | 0 <= j < |b|
      ensures Offset(s, p + |a|, j) == b[j]
    {
      assert Offset(s, p, |a| + j) == (a + b)[|a| + j];
    }
  }

  function Min(a: int, b: int): int
  {
    if a <= b then a else b
  }
}

=== FILE: parse_listing.dfy ===
/**
 * `parse_line_list_gnu` (src/parse.c): one line of an `ls -l` style LIST
 * reply becomes a `Fact`. The parser is a cursor that moves through the
 * columns type+permissions, link count, owner, group, size, month, day,
 * year-or-time and name, then to the end of the line.
 *
 * The specification is a chain of stage functions, one per column group;
 * the methods follow the source step by step and are proved equal to them.
 * `time(NULL)` is the parameter `now` and the calendar routines are the
 * `Calendar` parameter.
 */
module ParseListing {
  import opened Common
  import opened ParseScan

  /** Capacity of `Fact.perm`, NUL included. */
  const FACT_PERM_MAX_LEN: nat := 64

  /** Capacity of the month buffer `mon_str`, NUL included. */
  const MON_STR_LEN: nat := 4

  /** `struct Fact`. */
  datatype Fact = Fact(name: seq<char>, isDir: bool, size: int, perm: seq<char>, modifyTime: int)

  /**
   * What a call ends in: a fact with `*ignore` and `*end`, the `-1` return,
   * or the failed `assert` at src/parse.c:311 (the process aborts).
   */
  datatype ListOutcome = Listed(fact: Fact, ignore: bool, end: nat) | Rejected | AssertFails

  /** The type byte, the permissions and the cursor after the spaces that follow them. */
  datatype Head = Head(isDir: bool, isLink: bool, perm: seq<char>, next: nat)

  /** The year-or-time column: `tm_year`, hour, minute and the cursor after the token. */
  datatype TimeOutcome = Time(year: int, hour: int, min: int, next: nat) | TimeRejected | TimeAssertFails

  /** `t` occurs in `s` at index `p`, and `c` follows it. */
  predicate Delimited(s: seq<char>, p: nat, t: seq<char>, c: char)
  {
    Matches(s, p, t) && At(s, p + |t|) == c
  }

  /** A line of `s` ends just before index `e`: the byte there is an LF. */
  predicate EndsLine(s: seq<char>, e: int)
  {
    0 < e <= |s| && s[e - 1] == '\n'
  }

  // ---------------------------------------------------------------------
  // Stages

  /**
   * Type byte and permissions: the first byte must not be the terminator;
   * `d` marks a directory and `l` a link; `copy_until` then takes the
   * permissions up to a space (at most 63 bytes), and the spaces are skipped.
   */
  function HeadSpec(s: seq<char>): (h: Option<Head>)
    ensures h.Some? ==> (h.value.isDir <==> At(s, 0) == 'd') && (h.value.isLink <==> At(s, 0) == 'l')
    ensures h.Some? ==> 1 <= |h.value.perm| < FACT_PERM_MAX_LEN && Delimited(s, 1, h.value.perm, ' ')
    ensures h.Some? ==> 1 + |h.value.perm| < h.value.next <= |s|
    ensures h.Some? ==> forall k :: 1 <= k < |h.value.perm| ==> h.value.perm[k] != ' ' && h.value.perm[k] != NUL
  {
    if At(s, 0) == NUL then None
    else
      match CopyUntilSpec(s, 1, ' ', FACT_PERM_MAX_LEN)
      case None => None
      case Some(pe) =>
        match SkipAtLeastOneSpec(s, pe, NotEq(' '))
        case None => None
        case Some(p) =>
          var perm := s[1..pe];
          assert Matches(s, 1, perm) by {
            forall j | 0 <= j < |perm|
              ensures Offset(s, 1, j) == perm[j]
            {
            }
          }
          assert forall k :: 1 <= k < |perm| ==> perm[k] == At(s, 1 + k);
          Some(Head(s[0] == 'd', s[0] == 'l', perm, p))
  }

  /**
   * Link count, owner and group: `n` rounds of "skip a run of non-spaces,
   * then a run of spaces", each skip taking its first byte untested.
   */
  function ColumnsSpec(s: seq<char>, p: nat, n: nat): (r: Option<nat>)
    ensures r.Some? ==> p + 2 * n <= r.value && (n > 0 ==> r.value <= |s|)
    decreases n
  {
    if n == 0 then Some(p)
    else
      match SkipAtLeastOneSpec(s, p, Eq(' '))
      case None => None
      case Some(q) =>
        match SkipAtLeastOneSpec(s, q, NotEq(' '))
        case None => None
        case Some(e) => ColumnsSpec(s, e, n - 1)
  }

  /**
   * Size: a `parse_ssize_t` number in `[-1, SSIZE_MAX]`, then the spaces;
   * a link's size is forced to -1.
   */
  function SizeSpec(s: seq<char>, p: nat, isLink: bool): (r: Option<(int, nat)>)
    ensures r.Some? ==> -1 <= r.value.0 <= SSIZE_MAX && p < r.value.1 <= |s|
    ensures r.Some? && isLink ==> r.value.0 == -1
  {
    match ParseSsize(s, p)
    case None => None
    case Some(c) =>
      match SkipAtLeastOneSpec(s, c.end, NotEq(' '))
      case None => None
      case Some(q) => Some((if isLink then -1 else c.value, q))
  }

  /**
   * Month: `copy_until` into a 4-byte buffer takes one to three bytes up to
   * a space; they must spell a month of the table exactly; then the spaces.
   */
  function MonthSpec(s: seq<char>, p: nat): (r: Option<(int, nat)>)
    ensures r.Some? ==> 0 <= r.value.0 < 12 && Matches(s, p, Months[r.value.0])
    ensures r.Some? ==> At(s, p + 3) == ' ' && p + 3 < r.value.1 <= |s|
  {
    match CopyUntilSpec(s, p, ' ', MON_STR_LEN)
    case None => None
    case Some(me) =>
      var mon := MonthIndex(s[p..me]);
      if mon < 0 then None
      else
        match SkipAtLeastOneSpec(s, me, NotEq(' '))
        case None => None
        case Some(q) =>
          assert Matches(s, p, Months[mon]) by {
            forall j | 0 <= j < |Months[mon]|
              ensures Offset(s, p, j) == Months[mon][j]
            {
              assert Months[mon] == s[p..me];
            }
          }
          assert |s[p..me]| == 3;
          Some((mon, q))
  }

  /** Day of month: a `parse_int` number, then the spaces. */
  function DaySpec(s: seq<char>, p: nat): (r: Option<(int, nat)>)
    ensures r.Some? ==> INT_MIN <= r.value.0 <= INT_MAX && p < r.value.1 <= |s|
  {
    match ParseInt(s, p)
    case None => None
    case Some(c) =>
      match SkipAtLeastOneSpec(s, c.end, NotEq(' '))
      case None => None
      case Some(q) => Some((c.value, q))
  }

  /** `struct tm` counts years from 1900. */
  function TmYear(yearAbs: int): int
  {
    yearAbs - 1900
  }

  /**
   * Year or time: the token needs three bytes before the terminator. When
   * the third is not `:` it is a year, stored as `year - 1900` with hour and
   * minute 0; otherwise it is `HH:MM`, the hour must stop at the `:` (the
   * source asserts this), and the year comes from `guess_year`.
   */
  function TimeSpec(s: seq<char>, p: nat, cal: Calendar, now: int, mon: int, mday: int): (t: TimeOutcome)
    ensures t.Time? ==> p < t.next <= |s|
    ensures t.Time? && At(s, p + 2) != ':' ==> t.hour == 0 && t.min == 0
    ensures t.Time? && At(s, p + 2) == ':' ==>
              t.year == GuessYear(cal, now, mon, mday, t.hour, t.min) && INT_MIN <= t.hour <= INT_MAX
    ensures t.TimeAssertFails? ==> At(s, p + 2) == ':'
  {
    if At(s, p) == NUL || At(s, p + 1) == NUL || At(s, p + 2) == NUL then TimeRejected
    else if At(s, p + 2) != ':' then
      match ParseInt(s, p)
      case None => TimeRejected
      case Some(y) => Time(TmYear(y.value), 0, 0, y.end)
    else
      match ParseInt(s, p)
      case None => TimeRejected
      case Some(h) =>
        if At(s, h.end) != ':' then TimeAssertFails
        else
          match ParseInt(s, h.end + 1)
          case None => TimeRejected
          case Some(m) => Time(GuessYear(cal, now, mon, mday, h.value, m.value), h.value, m.value, m.end)
  }

  /**
   * Name and line end: the spaces before the name, then the name as a run
   * ended by whitespace or the terminator (its first byte untested); the
   * scan for LF starts one byte past the name and must find an LF before
   * the terminator; the line ends just past that LF.
   */
  function NameSpec(s: seq<char>, p: nat): (r: Option<(seq<char>, nat)>)
    ensures r.Some? ==> 1 <= |r.value.0| && EndsLine(s, r.value.1)
    ensures r.Some? ==> forall k :: 1 <= k < |r.value.0| ==> !IsSpace(r.value.0[k]) && r.value.0[k] != NUL
  {
    match SkipAtLeastOneSpec(s, p, NotEq(' '))
    case None => None
    case Some(ns) =>
      match SkipAtLeastOneSpec(s, ns, IsSpace)
      case None => None
      case Some(ne) =>
        if At(s, ne) == NUL then None
        else
          var le := SkipEnd(s, ne + 1, Eq('\n'));
          if At(s, le) == NUL then None
          else
            var name := s[ns..ne];
            assert forall k :: 1 <= k < |name| ==> name[k] == At(s, ns + k);
            Some((name, le + 1))
  }

  /**
   * parse_line_list_gnu, stage by stage. An accepted line never sets
   * `*ignore`; `d` as first byte makes a directory, `l` a link of size -1;
   * the permissions follow the type byte up to a space; the name is not
   * empty and the line ends just past an LF.
   */
  function ListGnuSpec(s: seq<char>, cal: Calendar, now: int): (r: ListOutcome)
  {
    match HeadSpec(s)
    case None => Rejected
    case Some(h) =>
      match ColumnsSpec(s, h.next, 3)
      case None => Rejected
      case Some(p1) =>
        match SizeSpec(s, p1, h.isLink)
        case None => Rejected
        case Some((size, p2)) =>
          match MonthSpec(s, p2)
          case None => Rejected
          case Some((mon, p3)) =>
            match DaySpec(s, p3)
            case None => Rejected
            case Some((mday, p4)) =>
              match TimeSpec(s, p4, cal, now, mon, mday)
              case TimeRejected => Rejected
              case TimeAssertFails => AssertFails
              case Time(year, hour, min, p5) =>
                match NameSpec(s, p5)
                case None => Rejected
                case Some((name, end)) =>
                  var modifyTime := cal.timegm(Tm(year, mon, mday, hour, min, 0));
                  Listed(Fact(name, h.isDir, size, h.perm, modifyTime), false, end)
  }

  /** parse_line_mlsd is a stub that refuses every line. */
  function ParseLineMlsd(s: seq<char>): (r: ListOutcome)
    ensures r.Rejected?
  {
    Rejected
  }

  // ---------------------------------------------------------------------
  // The parser

  method ParseHead(s: seq<char>) returns (h: Option<Head>)
    ensures h == HeadSpec(s)
  {
    if At(s, 0) == NUL {
      return None;
    }
    var isDir := s[0] == 'd';
    var isLink := s[0] == 'l';
    var ok, perm, pe := CopyUntil(s, 1, ' ', FACT_PERM_MAX_LEN);
    if !ok {
      return None;
    }
    var p;
    ok, p := SkipAtLeastOne(s, pe, NotEq(' '));
    if !ok {
      return None;
    }
    return Some(Head(isDir, isLink, perm, p));
  }

  /** One round of the link count, owner and group loop. */
  method SkipColumn(s: seq<char>, p: nat) returns (r: Option<nat>)
    ensures r.None? <==> ColumnsSpec(s, p, 1).None?
    ensures r.Some? ==> ColumnsSpec(s, p, 1) == Some(r.value)
    ensures r.Some? ==> forall n: nat :: ColumnsSpec(s, p, n + 1) == ColumnsSpec(s, r.value, n)
  {
    var ok, q := SkipAtLeastOne(s, p, Eq(' '));
    if !ok {
      return None;
    }
    var e;
    ok, e := SkipAtLeastOne(s, q, NotEq(' '));
    if !ok {
      return None;
    }
    return Some(e);
  }

  /** The `for (i = 0; i < 3; i++)` loop over link count, owner and group. */
  method SkipColumns(s: seq<char>, p: nat) returns (r: Option<nat>)
    ensures r == ColumnsSpec(s, p, 3)
  {
    var ptr := p;
    for i := 0 to 3
      invariant ColumnsSpec(s, ptr, 3 - i) == ColumnsSpec(s, p, 3)
    {
      var next := SkipColumn(s, ptr);
      if next.None? {
        assert ColumnsSpec(s, ptr, 3 - i) == None;
        return None;
      }
      assert ColumnsSpec(s, ptr, (3 - i - 1) + 1) == ColumnsSpec(s, next.value, 3 - i - 1);
      ptr := next.value;
    }
    return Some(ptr);
  }

  method ParseTime(s: seq<char>, p: nat, cal: Calendar, now: int, mon: int, mday: int) returns (t: TimeOutcome)
    ensures t == TimeSpec(s, p, cal, now, mon, mday)
  {
    for i := 0 to 3
      invariant forall k :: 0 <= k < i ==> Offset(s, p, k) != NUL
    {
      if Offset(s, p, i) == NUL {
        return TimeRejected;
      }
    }
    assert Offset(s, p, 0) != NUL && Offset(s, p, 1) != NUL && Offset(s, p, 2) != NUL;
    var isYear := At(s, p + 2) != ':';
    if isYear {
      var y := ParseInt(s, p);
      if y.None? {
        return TimeRejected;
      }
      return Time(TmYear(y.value.value), 0, 0, y.value.end);
    }
    var h := ParseInt(s, p);
    if h.None? {
      return TimeRejected;
    }
    var ptr := h.value.end;
    if At(s, ptr) != ':' {
      return TimeAssertFails;
    }
    ptr := ptr + 1;
    var m := ParseInt(s, ptr);
    if m.None? {
      return TimeRejected;
    }
    return Time(GuessYear(cal, now, mon, mday, h.value.value, m.value.value), h.value.value, m.value.value, m.value.end);
  }

  /** The byte-by-byte copy of the name into its fresh buffer. */
  method CopyName(s: seq<char>, b: nat, e: nat) returns (name: seq<char>)
    requires b <= e <= |s|
    ensures name == s[b..e]
  {
    name := [];
    for i := 0 to e - b
      invariant name == s[b..b + i]
    {
      name := name + [s[b + i]];
    }
  }

  method ParseName(s: seq<char>, p: nat) returns (r: Option<(seq<char>, nat)>)
    ensures r == NameSpec(s, p)
  {
    var ok, ns := SkipAtLeastOne(s, p, NotEq(' '));
    if !ok {
      return None;
    }
    var ne;
    ok, ne := SkipAtLeastOne(s, ns, IsSpace);
    if !ok {
      return None;
    }
    var name := CopyName(s, ns, ne);
    // the result of this skip is not checked: on failure the cursor stays put
    var ptr;
    ok, ptr := SkipAtLeastOne(s, ne, Eq('\n'));
    if !ok {
      ptr := ne;
    }
    if At(s, ptr) == NUL {
      return None;
    }
    return Some((name, ptr + 1));
  }

  method ParseSize(s: seq<char>, p: nat, isLink: bool) returns (r: Option<(int, nat)>)
    ensures r == SizeSpec(s, p, isLink)
  {
    var size := ParseSsize(s, p);
    if size.None? {
      return None;
    }
    var ok, q := SkipAtLeastOne(s, size.value.end, NotEq(' '));
    if !ok {
      return None;
    }
    var factSize := if isLink then -1 else size.value.value;
    return Some((factSize, q));
  }

  method ParseMonth(s: seq<char>, p: nat) returns (r: Option<(int, nat)>)
    ensures r == MonthSpec(s, p)
  {
    var ok, monStr, me := CopyUntil(s, p, ' ', MON_STR_LEN);
    if !ok {
      return None;
    }
    var mon := GetMon(monStr);
    if mon < 0 {
      return None;
    }
    var q;
    ok, q := SkipAtLeastOne(s, me, NotEq(' '));
    if !ok {
      return None;
    }
    return Some((mon, q));
  }

  method ParseDay(s: seq<char>, p: nat) returns (r: Option<(int, nat)>)
    ensures r == DaySpec(s, p)
  {
    var mday := ParseInt(s, p);
    if mday.None? {
      return None;
    }
    var ok, q := SkipAtLeastOne(s, mday.value.end, NotEq(' '));
    if !ok {
      return None;
    }
    return Some((mday.value.value, q));
  }

  /**
   * parse_line_list_gnu: the line at the start of `s` becomes a fact and the
   * index just past its LF, or the line is refused, or the source's
   * assertion on the time column fails. An accepted line never sets
   * `*ignore`; `d` as first byte makes a directory, `l` a link of size -1;
   * the permissions follow the type byte up to a space; the name is not
   * empty and the line ends just past an LF.
   */
  method ParseLineListGnu(s: seq<char>, cal: Calendar, now: int) returns (r: ListOutcome)
    ensures r == ListGnuSpec(s, cal, now)
    ensures r.Listed? ==> !r.ignore && EndsLine(s, r.end)
    ensures r.Listed? ==> (r.fact.isDir <==> At(s, 0) == 'd')
    ensures r.Listed? ==> -1 <= r.fact.size <= SSIZE_MAX && (At(s, 0) == 'l' ==> r.fact.size == -1)
    ensures r.Listed? ==> 1 <= |r.fact.perm| < FACT_PERM_MAX_LEN && Delimited(s, 1, r.fact.perm, ' ')
    ensures r.Listed? ==> 1 <= |r.fact.name|
  {
    var h := ParseHead(s);
    if h.None? {
      return Rejected;
    }
    var p1 := SkipColumns(s, h.value.next);
    if p1.None? {
      return Rejected;
    }
    var size := ParseSize(s, p1.value, h.value.isLink);
    if size.None? {
      return Rejected;
    }
    var month := ParseMonth(s, size.value.1);
    if month.None? {
      return Rejected;
    }
    var day := ParseDay(s, month.value.1);
    if day.None? {
      return Rejected;
    }
    var mon, mday := month.value.0, day.value.0;
    var t := ParseTime(s, day.value.1, cal, now, mon, mday);
    if t.TimeRejected? {
      return Rejected;
    } else if t.TimeAssertFails? {
      return AssertFails;
    }
    var modifyTime := cal.timegm(Tm(t.year, mon, mday, t.hour, t.min, 0));
    var n := ParseName(s, t.next);
    if n.None? {
      return Rejected;
    }
    return Listed(Fact(n.value.0, h.value.isDir, size.value.0, h.value.perm, modifyTime), false, n.value.1);
  }

  // ---------------------------------------------------------------------
  // What each stage reads

  /** A type byte, then permissions free of spaces and a space, are read back. */
  lemma {:induction false} HeadReads(s: seq<char>, perm: seq<char>)
    requires At(s, 0) != NUL && 1 <= |perm| < FACT_PERM_MAX_LEN && Matches(s, 1, perm)
    requires forall k :: 0 <= k < |perm| ==> perm[k] != ' ' && perm[k] != NUL
    requires At(s, 1 + |perm|) == ' '
    ensures HeadSpec(s) == Some(Head(s[0] == 'd', s[0] == 'l', perm, SkipEnd(s, 2 + |perm|, NotEq(' '))))
  {
    CopyUntilReads(s, 1, perm, ' ', FACT_PERM_MAX_LEN);
    assert s[1..1 + |perm|] == perm by {
      forall j | 0 <= j < |perm|
        ensures s[1 + j] == perm[j]
      {
        assert Offset(s, 1, j) == perm[j];
      }
    }
  }

  /** `copy_until` stops on the first `c` after a run free of `c` and NUL. */
  lemma {:induction false} CopyUntilReads(s: seq<char>, b: nat, t: seq<char>, c: char, len: nat)
    requires 1 <= |t| < len && Matches(s, b, t) && At(s, b + |t|) == c
    requires forall k :: 0 <= k < |t| ==> t[k] != c && t[k] != NUL
    ensures CopyUntilSpec(s, b, c, len) == Some(b + |t|)
  {
    var i := |t| - 1;
    assert Offset(s, b, i) == t[i];
    assert CopyUntilFrom(s, b, c, len, i) == Some(b + |t|);
    while i > 0
      invariant 0 <= i < |t|
      invariant CopyUntilFrom(s, b, c, len, i) == Some(b + |t|)
    {
      i := i - 1;
      assert Offset(s, b, i) == t[i] && Offset(s, b, i + 1) == t[i + 1];
    }
  }

  /** A month abbreviation followed by a space is read back as its index. */
  lemma {:induction false} MonthReads(s: seq<char>, p: nat, i: nat)
    requires i < 12 && Matches(s, p, Months[i]) && At(s, p + 3) == ' '
    ensures MonthSpec(s, p) == Some((i, SkipEnd(s, p + 4, NotEq(' '))))
  {
    var m := Months[i];
    assert |m| == 3 && forall k :: 0 <= k < 3 ==> m[k] != ' ' && m[k] != NUL;
    CopyUntilReads(s, p, m, ' ', MON_STR_LEN);
    assert s[p..p + 3] == m by {
      forall j | 0 <= j < 3
        ensures s[p + j] == m[j]
      {
        assert Offset(s, p, j) == m[j];
      }
    }
    MonthsDistinct();
  }

  /** A size in digits followed by a space is read back, or -1 for a link. */
  lemma {:induction false} SizeReads(s: seq<char>, p: nat, ds: seq<char>, isLink: bool)
    requires |ds| > 0 && AllDigits(ds) && DecimalValue(ds) <= SSIZE_MAX
    requires Matches(s, p, ds) && At(s, p + |ds|) == ' '
    ensures SizeSpec(s, p, isLink) == Some((if isLink then -1 else DecimalValue(ds), SkipEnd(s, p + |ds| + 1, NotEq(' '))))
  {
    ParseNumberReadsDigits(s, p, ds, -1, SSIZE_MAX);
  }

  /** A day in digits followed by a space is read back. */
  lemma {:induction false} DayReads(s: seq<char>, p: nat, ds: seq<char>)
    requires |ds| > 0 && AllDigits(ds) && DecimalValue(ds) <= INT_MAX
    requires Matches(s, p, ds) && At(s, p + |ds|) == ' '
    ensures DaySpec(s, p) == Some((DecimalValue(ds), SkipEnd(s, p + |ds| + 1, NotEq(' '))))
  {
    ParseNumberReadsDigits(s, p, ds, INT_MIN, INT_MAX);
  }

  /** A year of three or more digits is stored as `year - 1900`, at midnight. */
  lemma {:induction false} TimeReadsYear(s: seq<char>, p: nat, ds: seq<char>, cal: Calendar, now: int, mon: int, mday: int)
    requires |ds| >= 3 && AllDigits(ds) && DecimalValue(ds) <= INT_MAX
    requires Matches(s, p, ds) && !IsDigit(At(s, p + |ds|))
    ensures TimeSpec(s, p, cal, now, mon, mday) == Time(TmYear(DecimalValue(ds)), 0, 0, p + |ds|)
  {
    ParseNumberReadsDigits(s, p, ds, INT_MIN, INT_MAX);
    assert Offset(s, p, 0) == ds[0] && Offset(s, p, 1) == ds[1] && Offset(s, p, 2) == ds[2];
  }

  /** Two decimal digits are worth less than 100. */
  lemma {:induction false} TwoDigitsBelow100(hh: seq<char>)
    requires |hh| == 2 && AllDigits(hh)
    ensures DecimalValue(hh) < 100
  {
    var h1 := hh[..1];
    assert h1[..0] == [] && h1[0] == hh[0];
    assert DecimalValue(h1) == DigitValue(hh[0]);
    assert DecimalValue(hh) == DecimalValue(h1) * 10 + DigitValue(hh[1]);
  }

  /** `HH:MM` is read as hour and minute, with the year from `guess_year`. */
  lemma {:induction false} TimeReadsClock(s: seq<char>, p: nat, hh: seq<char>, mm: seq<char>, cal: Calendar, now: int, mon: int, mday: int)
    requires |hh| == 2 && AllDigits(hh) && |mm| > 0 && AllDigits(mm) && DecimalValue(mm) <= INT_MAX
    requires Matches(s, p, hh) && At(s, p + 2) == ':' && Matches(s, p + 3, mm) && !IsDigit(At(s, p + 3 + |mm|))
    ensures var h, m := DecimalValue(hh), DecimalValue(mm);
      TimeSpec(s, p, cal, now, mon, mday) == Time(GuessYear(cal, now, mon, mday, h, m), h, m, p + 3 + |mm|)
  {
    TwoDigitsBelow100(hh);
    ParseNumberReadsDigits(s, p, hh, INT_MIN, INT_MAX);
    ParseNumberReadsDigits(s, p + 3, mm, INT_MIN, INT_MAX);
    assert Offset(s, p, 0) == hh[0] && Offset(s, p, 1) == hh[1];
  }

  /**
   * A time column whose hour is not followed by `:`, such as `1x:30`,
   * reaches the failed assertion instead of being refused.
   */
  lemma {:induction false} TimeAssertFailsOnBadHour(s: seq<char>, p: nat, cal: Calendar, now: int, mon: int, mday: int)
    requires IsDigit(At(s, p)) && !IsDigit(At(s, p + 1)) && At(s, p + 1) !in {NUL, ':'} && At(s, p + 2) == ':'
    ensures TimeSpec(s, p, cal, now, mon, mday) == TimeAssertFails
  {
    var ds := [s[p]];
    assert Offset(s, p, 0) == ds[0];
    ParseNumberReadsDigits(s, p, ds, INT_MIN, INT_MAX);
  }

  /** A name free of whitespace after one space, ended by CR LF, is read back. */
  lemma {:induction false} NameReads(s: seq<char>, p: nat, name: seq<char>)
    requires |name| > 0 && forall k :: 0 <= k < |name| ==> !IsSpace(name[k]) && name[k] != NUL
    requires At(s, p) == ' ' && Matches(s, p + 1, name)
    requires At(s, p + 1 + |name|) == '\r' && At(s, p + 2 + |name|) == '\n'
    ensures NameSpec(s, p) == Some((name, p + |name| + 3))
  {
    assert Offset(s, p + 1, 0) == name[0];
    var ne := p + 1 + |name|;
    assert SkipEnd(s, p + 2, IsSpace) == ne by {
      SkipEndAt(s, p + 2, ne, IsSpace) by {
        forall k | p + 2 <= k < ne
          ensures At(s, k) != NUL && !IsSpace(At(s, k))
        {
          assert Offset(s, p + 1, k - (p + 1)) == name[k - (p + 1)];
        }
      }
    }
    assert s[p + 1..ne] == name by {
      forall j | 0 <= j < |name|
        ensures s[p + 1 + j] == name[j]
      {
        assert Offset(s, p + 1, j) == name[j];
      }
    }
  }

  /** `SkipEnd` finds the first stop byte of a run. */
  lemma {:induction false} SkipEndAt(s: seq<char>, i: nat, e: nat, stop: char -> bool)
    requires i <= e <= |s| && (At(s, e) == NUL || stop(At(s, e)))
    requires forall k :: i <= k < e ==> At(s, k) != NUL && !stop(At(s, k))
    ensures SkipEnd(s, i, stop) == e
    decreases e - i
  {
    if i < e {
      SkipEndAt(s, i + 1, e, stop);
    }
  }

  /**
   * With a bare LF right after the name, that LF is taken untested by the
   * scan for the line end, which runs on to the next LF.
   */
  lemma {:induction false} NameSkipsBareLf(s: seq<char>, p: nat, name: seq<char>)
    requires |name| > 0 && forall k :: 0 <= k < |name| ==> !IsSpace(name[k]) && name[k] != NUL
    requires At(s, p) == ' ' && Matches(s, p + 1, name) && At(s, p + 1 + |name|) == '\n'
    ensures NameSpec(s, p).Some? ==> NameSpec(s, p).value.1 > p + |name| + 2
  {
    assert Offset(s, p + 1, 0) == name[0];
    var ne := p + 1 + |name|;
    SkipEndAt(s, p + 2, ne, IsSpace) by {
      forall k | p + 2 <= k < ne
        ensures At(s, k) != NUL && !IsSpace(At(s, k))
      {
        assert Offset(s, p + 1, k - (p + 1)) == name[k - (p + 1)];
      }
    }
  }

  /** The last line of a listing ended by a bare LF is refused. */
  lemma {:induction false} NameRefusesLastBareLf()
    ensures NameSpec(" a\n", 0) == None
  {
    NameSkipsBareLf(" a\n", 0, "a");
  }

  lemma {:induction false} ListGnuRefusesEmpty(cal: Calendar, now: int)
    ensures ListGnuSpec("", cal, now) == Rejected
  {
  }

  // ---------------------------------------------------------------------
  // What a whole line reads

  /** A column's text: not empty, no space and no terminator. */
  predicate Token(t: seq<char>)
  {
    1 <= |t| && forall k :: 0 <= k < |t| ==> t[k] != ' ' && t[k] != NUL
  }

  /** A run of spaces from `i` up to `q`, followed by a byte that is not a space. */
  predicate Spaces(s: seq<char>, i: nat, q: nat)
  {
    i < q <= |s| && At(s, i) == ' ' && (forall j :: 0 <= j < q - i ==> Offset(s, i, j) == ' ') && At(s, q) != ' '
  }

  /** The column `t` at `p`, then spaces up to `q`, where the next column starts. */
  predicate Column(s: seq<char>, p: nat, t: seq<char>, q: nat)
  {
    Token(t) && Matches(s, p, t) && Spaces(s, p + |t|, q)
  }

  /** Decimal digits of value at most `max`. */
  predicate Number(ds: seq<char>, max: int)
  {
    |ds| > 0 && AllDigits(ds) && DecimalValue(ds) <= max
  }

  /** The spaces after a column end where the next column starts. */
  lemma {:induction false} SpacesEnd(s: seq<char>, i: nat, q: nat)
    requires Spaces(s, i, q)
    ensures SkipAtLeastOneSpec(s, i, NotEq(' ')) == Some(q)
  {
    forall k | i + 1 <= k < q
      ensures At(s, k) != NUL && !NotEq(' ')(At(s, k))
    {
      assert Offset(s, i, k - i) == ' ';
    }
    SkipEndAt(s, i + 1, q, NotEq(' '));
  }

  /** A column's text ends at its last byte. */
  lemma {:induction false} TokenEnd(s: seq<char>, p: nat, t: seq<char>)
    requires Token(t) && Matches(s, p, t) && At(s, p + |t|) == ' '
    ensures SkipAtLeastOneSpec(s, p, Eq(' ')) == Some(p + |t|)
  {
    assert Offset(s, p, 0) == t[0];
    forall k | p + 1 <= k < p + |t|
      ensures At(s, k) != NUL && !Eq(' ')(At(s, k))
    {
      assert Offset(s, p, k - p) == t[k - p];
    }
    SkipEndAt(s, p + 1, p + |t|, Eq(' '));
  }

  /** One round of the column loop reads a column and the spaces after it. */
  lemma {:induction false} ColumnStep(s: seq<char>, p: nat, t: seq<char>, q: nat, n: nat)
    requires n > 0 && Column(s, p, t, q)
    ensures ColumnsSpec(s, p, n) == ColumnsSpec(s, q, n - 1)
  {
    TokenEnd(s, p, t);
    SpacesEnd(s, p + |t|, q);
    ColumnsSpecStep(s, p, p + |t|, q, n);
  }

  /** One round of the column loop, from where its two skips stop. */
  lemma {:induction false} ColumnsSpecStep(s: seq<char>, p: nat, e: nat, q: nat, n: nat)
    requires n > 0 && SkipAtLeastOneSpec(s, p, Eq(' ')) == Some(e) && SkipAtLeastOneSpec(s, e, NotEq(' ')) == Some(q)
    ensures ColumnsSpec(s, p, n) == ColumnsSpec(s, q, n - 1)
  {
  }

  /** Link count, owner and group, each followed by spaces, are skipped as three columns. */
  lemma {:induction false} ColumnsReads(s: seq<char>, p: nat, links: seq<char>, p1: nat, owner: seq<char>, p2: nat, group: seq<char>, q: nat)
    requires Column(s, p, links, p1) && Column(s, p1, owner, p2) && Column(s, p2, group, q)
    ensures ColumnsSpec(s, p, 3) == Some(q)
  {
    ColumnStep(s, p, links, p1, 3);
    ColumnStep(s, p1, owner, p2, 2);
    ColumnStep(s, p2, group, q, 1);
  }

  /**
   * The columns of an `ls -l` line before the year-or-time column: type
   * byte, permissions, link count, owner, group, size, month and day, each
   * followed by spaces; `p6` is where the year or time starts.
   */
  predicate DateLine(s: seq<char>, perm: seq<char>, p0: nat, links: seq<char>, p1: nat, owner: seq<char>, p2: nat,
                     group: seq<char>, p3: nat, size: seq<char>, p4: nat, mon: nat, p5: nat, day: seq<char>, p6: nat)
  {
    && At(s, 0) != NUL && |perm| < FACT_PERM_MAX_LEN && Column(s, 1, perm, p0)
    && Column(s, p0, links, p1) && Column(s, p1, owner, p2) && Column(s, p2, group, p3)
    && Number(size, SSIZE_MAX) && Column(s, p3, size, p4)
    && mon < 12 && Column(s, p4, Months[mon], p5)
    && Number(day, INT_MAX) && Column(s, p5, day, p6)
  }

  /** The head stage on the first columns of a `DateLine`. */
  lemma {:induction false} HeadAt(s: seq<char>, perm: seq<char>, p0: nat)
    requires At(s, 0) != NUL && |perm| < FACT_PERM_MAX_LEN && Column(s, 1, perm, p0)
    ensures HeadSpec(s) == Some(Head(s[0] == 'd', s[0] == 'l', perm, p0))
  {
    SpacesEnd(s, 1 + |perm|, p0);
    HeadReads(s, perm);
  }

  /** The size stage on the size column of a `DateLine`. */
  lemma {:induction false} SizeAt(s: seq<char>, p3: nat, size: seq<char>, p4: nat)
    requires Number(size, SSIZE_MAX) && Column(s, p3, size, p4)
    ensures SizeSpec(s, p3, s[0] == 'l') == Some((if s[0] == 'l' then -1 else DecimalValue(size), p4))
  {
    SpacesEnd(s, p3 + |size|, p4);
    SizeReads(s, p3, size, s[0] == 'l');
  }

  /** The month stage on the month column of a `DateLine`. */
  lemma {:induction false} MonthAt(s: seq<char>, p4: nat, mon: nat, p5: nat)
    requires mon < 12 && Column(s, p4, Months[mon], p5)
    ensures MonthSpec(s, p4) == Some((mon, p5))
  {
    SpacesEnd(s, p4 + 3, p5);
    MonthReads(s, p4, mon);
  }

  /** The day stage on the day column of a `DateLine`. */
  lemma {:induction false} DayAt(s: seq<char>, p5: nat, day: seq<char>, p6: nat)
    requires Number(day, INT_MAX) && Column(s, p5, day, p6)
    ensures DaySpec(s, p5) == Some((DecimalValue(day), p6))
  {
    SpacesEnd(s, p5 + |day|, p6);
    DayReads(s, p5, day);
  }

  /** The stages up to the day read back the columns of a `DateLine`. */
  lemma {:induction false} DateLineReads(s: seq<char>, perm: seq<char>, p0: nat, links: seq<char>, p1: nat, owner: seq<char>, p2: nat,
                                         group: seq<char>, p3: nat, size: seq<char>, p4: nat, mon: nat, p5: nat, day: seq<char>, p6: nat)
    requires DateLine(s, perm, p0, links, p1, owner, p2, group, p3, size, p4, mon, p5, day, p6)
    ensures DateStages(s, Head(s[0] == 'd', s[0] == 'l', perm, p0), p3, if s[0] == 'l' then -1 else DecimalValue(size), p4,
                       mon, p5, DecimalValue(day), p6)
  {
    HeadAt(s, perm, p0);
    ColumnsReads(s, p0, links, p1, owner, p2, group, p3);
    SizeAt(s, p3, size, p4);
    MonthAt(s, p4, mon, p5);
    DayAt(s, p5, day, p6);
  }

  /** A name for the last column: not empty, no whitespace and no terminator. */
  predicate NameText(name: seq<char>)
  {
    |name| > 0 && forall k :: 0 <= k < |name| ==> !IsSpace(name[k]) && name[k] != NUL
  }

  /** One space at `q`, then `name`, then CR LF; the line ends at `end`, just past the LF. */
  predicate NameLine(s: seq<char>, q: nat, name: seq<char>, end: nat)
  {
    && NameText(name) && At(s, q) == ' ' && Matches(s, q + 1, name)
    && At(s, q + 1 + |name|) == '\r' && At(s, q + 2 + |name|) == '\n' && end == q + |name| + 3
  }

  /** A year of three or more digits from `p` up to `q`. */
  predicate YearColumn(s: seq<char>, p: nat, year: seq<char>, q: nat)
  {
    |year| >= 3 && Number(year, INT_MAX) && Matches(s, p, year) && q == p + |year|
  }

  /** `HH:MM` from `p` up to `q`. */
  predicate ClockColumn(s: seq<char>, p: nat, hh: seq<char>, mm: seq<char>, q: nat)
  {
    && |hh| == 2 && AllDigits(hh) && Number(mm, INT_MAX)
    && Matches(s, p, hh) && At(s, p + 2) == ':' && Matches(s, p + 3, mm) && q == p + 3 + |mm|
  }

  /** The time and name stages on a year column and a `NameLine`. */
  lemma {:induction false} YearNameReads(s: seq<char>, p: nat, year: seq<char>, q: nat, name: seq<char>, end: nat,
                                         cal: Calendar, now: int, mon: int, mday: int)
    requires YearColumn(s, p, year, q) && NameLine(s, q, name, end)
    ensures TimeSpec(s, p, cal, now, mon, mday) == Time(TmYear(DecimalValue(year)), 0, 0, q)
    ensures NameSpec(s, q) == Some((name, end))
  {
    TimeReadsYear(s, p, year, cal, now, mon, mday);
    NameReads(s, q, name);
  }

  /** The time and name stages on a clock column and a `NameLine`. */
  lemma {:induction false} ClockNameReads(s: seq<char>, p: nat, hh: seq<char>, mm: seq<char>, q: nat, name: seq<char>, end: nat,
                                          cal: Calendar, now: int, mon: int, mday: int)
    requires ClockColumn(s, p, hh, mm, q) && NameLine(s, q, name, end)
    ensures var h, m := DecimalValue(hh), DecimalValue(mm);
      TimeSpec(s, p, cal, now, mon, mday) == Time(GuessYear(cal, now, mon, mday, h, m), h, m, q)
    ensures NameSpec(s, q) == Some((name, end))
  {
    TimeReadsClock(s, p, hh, mm, cal, now, mon, mday);
    NameReads(s, q, name);
  }

  /** The stages before the year-or-time column: type byte and permissions, three columns, size, month and day. */
  predicate DateStages(s: seq<char>, h: Head, p3: nat, size: int, p4: nat, mon: int, p5: nat, mday: int, p6: nat)
  {
    && HeadSpec(s) == Some(h) && ColumnsSpec(s, h.next, 3) == Some(p3) && SizeSpec(s, p3, h.isLink) == Some((size, p4))
    && MonthSpec(s, p4) == Some((mon, p5)) && DaySpec(s, p5) == Some((mday, p6))
  }

  /** `ListGnuSpec` from the results of its stages. */
  lemma {:induction false} ListGnuStages(s: seq<char>, cal: Calendar, now: int, h: Head, p3: nat, size: int, p4: nat,
                                         mon: int, p5: nat, mday: int, p6: nat, year: int, hour: int, min: int, q: nat,
                                         name: seq<char>, end: nat, fact: Fact)
    requires DateStages(s, h, p3, size, p4, mon, p5, mday, p6)
    requires TimeSpec(s, p6, cal, now, mon, mday) == Time(year, hour, min, q) && NameSpec(s, q) == Some((name, end))
    requires fact == Fact(name, h.isDir, size, h.perm, cal.timegm(Tm(year, mon, mday, hour, min, 0)))
    ensures ListGnuSpec(s, cal, now) == Listed(fact, false, end)
  {
  }

  /** `ListGnuSpec` on a `DateLine` whose time and name stages succeed. */
  lemma {:induction false} ListGnuDateLine(s: seq<char>, cal: Calendar, now: int, perm: seq<char>, p0: nat, links: seq<char>, p1: nat,
                                           owner: seq<char>, p2: nat, group: seq<char>, p3: nat, size: seq<char>, p4: nat,
                                           mon: nat, p5: nat, day: seq<char>, p6: nat, year: int, hour: int, min: int, q: nat,
                                           name: seq<char>, end: nat)
    requires DateLine(s, perm, p0, links, p1, owner, p2, group, p3, size, p4, mon, p5, day, p6)
    requires TimeSpec(s, p6, cal, now, mon, DecimalValue(day)) == Time(year, hour, min, q) && NameSpec(s, q) == Some((name, end))
    ensures ListGnuSpec(s, cal, now) ==
      Listed(Fact(name, s[0] == 'd', if s[0] == 'l' then -1 else DecimalValue(size), perm,
                  cal.timegm(Tm(year, mon, DecimalValue(day), hour, min, 0))), false, end)
  {
    DateLineReads(s, perm, p0, links, p1, owner, p2, group, p3, size, p4, mon, p5, day, p6);
    ListGnuStages(s, cal, now, Head(s[0] == 'd', s[0] == 'l', perm, p0), p3, if s[0] == 'l' then -1 else DecimalValue(size), p4,
                  mon, p5, DecimalValue(day), p6, year, hour, min, q, name, end,
                  Fact(name, s[0] == 'd', if s[0] == 'l' then -1 else DecimalValue(size), perm,
                       cal.timegm(Tm(year, mon, DecimalValue(day), hour, min, 0))));
  }

  /**
   * Read-back of a whole line with a year: the columns of a `DateLine`, a
   * year of three or more digits up to `q`, one space, the name and CR LF.
   * The fact has that name, the directory flag of the type byte, the size
   * (-1 for a link), the permissions and the modification time of the date
   * at midnight; the line ends at `end`, just past the LF.
   */
  lemma {:induction false} ListGnuReadsYear(s: seq<char>, cal: Calendar, now: int, perm: seq<char>, p0: nat, links: seq<char>, p1: nat,
                                            owner: seq<char>, p2: nat, group: seq<char>, p3: nat, size: seq<char>, p4: nat,
                                            mon: nat, p5: nat, day: seq<char>, p6: nat, year: seq<char>, q: nat, name: seq<char>, end: nat)
    requires DateLine(s, perm, p0, links, p1, owner, p2, group, p3, size, p4, mon, p5, day, p6)
    requires YearColumn(s, p6, year, q) && NameLine(s, q, name, end)
    ensures ListGnuSpec(s, cal, now) ==
      Listed(Fact(name, s[0] == 'd', if s[0] == 'l' then -1 else DecimalValue(size), perm,
                  cal.timegm(Tm(TmYear(DecimalValue(year)), mon, DecimalValue(day), 0, 0, 0))), false, end)
  {
    YearNameReads(s, p6, year, q, name, end, cal, now, mon, DecimalValue(day));
    var y := TmYear(DecimalValue(year));
    ListGnuDateLine(s, cal, now, perm, p0, links, p1, owner, p2, group, p3, size, p4, mon, p5, day, p6,
                    y, 0, 0, q, name, end);
  }

  /**
   * Read-back of a whole line with a time: the columns of a `DateLine`,
   * `HH:MM` up to `q`, one space, the name and CR LF. The modification time
   * is that of the date and time in the year `guess_year` picks.
   */
  lemma {:induction false} ListGnuReadsClock(s: seq<char>, cal: Calendar, now: int, perm: seq<char>, p0: nat, links: seq<char>, p1: nat,
                                             owner: seq<char>, p2: nat, group: seq<char>, p3: nat, size: seq<char>, p4: nat,
                                             mon: nat, p5: nat, day: seq<char>, p6: nat, hh: seq<char>, mm: seq<char>, q: nat,
                                             name: seq<char>, end: nat)
    requires DateLine(s, perm, p0, links, p1, owner, p2, group, p3, size, p4, mon, p5, day, p6)
    requires ClockColumn(s, p6, hh, mm, q) && NameLine(s, q, name, end)
    ensures var h, m, mday := DecimalValue(hh), DecimalValue(mm), DecimalValue(day);
      ListGnuSpec(s, cal, now) ==
      Listed(Fact(name, s[0] == 'd', if s[0] == 'l' then -1 else DecimalValue(size), perm,
                  cal.timegm(Tm(GuessYear(cal, now, mon, mday, h, m), mon, mday, h, m, 0))), false, end)
  {
    ClockNameReads(s, p6, hh, mm, q, name, end, cal, now, mon, DecimalValue(day));
    var h, m := DecimalValue(hh), DecimalValue(mm);
    ListGnuDateLine(s, cal, now, perm, p0, links, p1, owner, p2, group, p3, size, p4, mon, p5, day, p6,
                    GuessYear(cal, now, mon, DecimalValue(day), h, m), h, m, q, name, end);
  }
}

=== FILE: parse_passive.dfy ===
/**
 * The passive-mode reply parsers of src/parse.c: `parse_pasv_reply` reads
 * the `227 ... (h1,h2,h3,h4,p1,p2)` body (RFC 959, section 4.1.2) and
 * `parse_epsv_reply` the `229 ... (<d><d><d>port<d>)` body (RFC 2428,
 * section 3). Both scan a reply of known length; `At` reads the NUL that
 * follows the reply where the source reads past its length (`strtol`).
 */
module ParsePassive {
  import opened Common
  import opened ParseScan

  const UINT8_MAX: int := 255

  /** The host name written to `name` and the `uint32_t` port whose `%d` text goes to `service`. */
  datatype PasvAddress = PasvAddress(name: seq<char>, port: int)

  /** First index at or after `p` holding a digit, or `|s|`. */
  function SkipToDigit(s: seq<char>, p: nat): (e: nat)
    ensures p <= e
    ensures p <= |s| ==> e <= |s|
    ensures e < |s| ==> IsDigit(s[e])
    ensures forall k :: p <= k < e && k < |s| ==> !IsDigit(s[k])
    decreases |s| - p
  {
    if p < |s| && !IsDigit(s[p]) then SkipToDigit(s, p + 1) else p
  }

  /** A host field as the server writes it: one to three digits. */
  predicate HostField(f: seq<char>)
  {
    1 <= |f| <= 3 && AllDigits(f)
  }

  /** How many digits, at most three, start at `p`. */
  function FieldDigits(s: seq<char>, p: nat): (n: nat)
    ensures n <= 3 && (n > 0 ==> p + n <= |s|)
    ensures forall k :: p <= k < p + n ==> IsDigit(s[k])
    ensures n < 3 ==> p + n >= |s| || !IsDigit(s[p + n])
  {
    if !(p < |s| && IsDigit(s[p])) then 0
    else if !(p + 1 < |s| && IsDigit(s[p + 1])) then 1
    else if !(p + 2 < |s| && IsDigit(s[p + 2])) then 2
    else 3
  }

  /** A host field at `p`: one to three digits, then `,`; the index of that comma. */
  function HostFieldEnd(s: seq<char>, p: nat): (r: Option<nat>)
    ensures r.Some? ==> p < r.value < |s| && s[r.value] == ','
    ensures r.Some? ==> HostField(s[p..r.value])
  {
    var n := FieldDigits(s, p);
    if n == 0 || p + n >= |s| || s[p + n] != ',' then None else Some(p + n)
  }

  /**
   * Host fields `k..3` from `p`: the fields read, verbatim, and the index
   * after the last comma.
   */
  function HostFields(s: seq<char>, p: nat, k: nat): (r: Option<(seq<seq<char>>, nat)>)
    requires k <= 4
    ensures r.Some? ==> |r.value.0| == 4 - k && p <= r.value.1
    ensures r.Some? && k < 4 ==> r.value.1 <= |s|
    ensures r.Some? ==> forall i :: 0 <= i < |r.value.0| ==> HostField(r.value.0[i])
    decreases 4 - k
  {
    if k == 4 then Some(([], p))
    else
      match HostFieldEnd(s, p)
      case None => None
      case Some(e) =>
        match HostFields(s, e + 1, k + 1)
        case None => None
        case Some(rest) => Some(([s[p..e]] + rest.0, rest.1))
  }

  predicate DigitsOrDots(t: seq<char>)
  {
    forall i :: 0 <= i < |t| ==> IsDigit(t[i]) || t[i] == '.'
  }

  lemma {:induction false} DigitsOrDotsAppend(a: seq<char>, b: seq<char>)
    requires DigitsOrDots(a) && DigitsOrDots(b)
    ensures DigitsOrDots(a + b)
  {
    forall i | 0 <= i < |a + b|
      ensures IsDigit((a + b)[i]) || (a + b)[i] == '.'
    {
      if i < |a| {
        assert (a + b)[i] == a[i];
      } else {
        assert (a + b)[i] == b[i - |a|];
      }
    }
  }

  /** `f1.f2.f3.f4`, the host name parse_pasv_reply writes. */
  function DottedQuad(fs: seq<seq<char>>): (name: seq<char>)
    requires |fs| == 4 && forall i :: 0 <= i < 4 ==> HostField(fs[i])
    ensures 7 <= |name| <= 15
    ensures DigitsOrDots(name)
  {
    var name := fs[0] + "." + fs[1] + "." + fs[2] + "." + fs[3];
    forall i | 0 <= i < 4
      ensures DigitsOrDots(fs[i]) && 1 <= |fs[i]| <= 3
    {
      assert HostField(fs[i]);
    }
    assert DigitsOrDots(name) by {
      DigitsOrDotsAppend(fs[0], ".");
      DigitsOrDotsAppend(fs[0] + ".", fs[1]);
      DigitsOrDotsAppend(fs[0] + "." + fs[1], ".");
      DigitsOrDotsAppend(fs[0] + "." + fs[1] + ".", fs[2]);
      DigitsOrDotsAppend(fs[0] + "." + fs[1] + "." + fs[2], ".");
      DigitsOrDotsAppend(fs[0] + "." + fs[1] + "." + fs[2] + ".", fs[3]);
    }
    name
  }

  /** The C conversion of a `long` to `uint32_t`. */
  function Uint32(x: int): int
  {
    x % 0x1_0000_0000
  }

  /** The `int` that `%d` reads from a `uint32_t` argument. */
  function Int32(u: int): int
  {
    if u >= 0x8000_0000 then u - 0x1_0000_0000 else u
  }

  /**
   * The `uint32_t` value of `(p1 << 8) + p2` for the `long`s `p1`, `p2`,
   * taken as two's complement: C leaves the shift of a negative `p1` undefined.
   */
  function PortNumber(p1: int, p2: int): (port: int)
    ensures 0 <= port < 0x1_0000_0000
    ensures 0 <= p1 <= UINT8_MAX && 0 <= p2 <= UINT8_MAX ==> port == p1 * 256 + p2
  {
    Uint32(p1 * 256 + p2)
  }

  /** What `sprintf(service, "%d", port)` writes for a `uint32_t` port. */
  function PortText(port: int): (t: seq<char>)
    ensures 0 <= port < 0x8000_0000 ==> AllDigits(t) && DecimalValue(t) == port
    ensures 0x8000_0000 <= port < 0x1_0000_0000 ==>
      2 <= |t| && t[0] == '-' && AllDigits(t[1..]) && DecimalValue(t[1..]) == 0x1_0000_0000 - port
  {
    IntToDecimal(Int32(port))
  }

  function ParsePasvSpec(s: seq<char>): (r: Option<PasvAddress>)
    ensures r.Some? ==> 7 <= |r.value.name| <= 15 && DigitsOrDots(r.value.name)
  {
    if |s| < 5 then None
    else
      match HostFields(s, SkipToDigit(s, 4), 0)
      case None => None
      case Some(host) => PortPart(s, DottedQuad(host.0), host.1)
  }

  /** The `p1,p2` tail of a PASV reply at `p`, after the host `name`. */
  function PortPart(s: seq<char>, name: seq<char>, p: nat): (r: Option<PasvAddress>)
    ensures r.Some? ==> r.value.name == name
  {
    if p >= |s| then None
    else
      var c1 := Strtol(s, p);
      if c1.end == p || c1.value > UINT8_MAX || At(s, c1.end) != ',' then None
      else
        var c2 := Strtol(s, c1.end + 1);
        if c2.end == c1.end + 1 || c2.value > UINT8_MAX then None
        else Some(PasvAddress(name, PortNumber(c1.value, c2.value)))
  }

  /** `f.` for every host field `f`: what the host loop has appended to `name`. */
  function DotsText(fs: seq<seq<char>>): seq<char>
  {
    if fs == [] then [] else DotsText(fs[..|fs| - 1]) + fs[|fs| - 1] + "."
  }

  lemma {:induction false} DotsTextSnoc(fs: seq<seq<char>>, f: seq<char>)
    ensures DotsText(fs + [f]) == DotsText(fs) + f + "."
  {
    assert (fs + [f])[..|fs|] == fs;
  }

  /** Fields `got` already read, in front of what the remaining loop passes read. */
  function Prepend(got: seq<seq<char>>, r: Option<(seq<seq<char>>, nat)>): Option<(seq<seq<char>>, nat)>
  {
    match r
    case None => None
    case Some(rest) => Some((got + rest.0, rest.1))
  }

  lemma {:induction false} PrependNothing(r: Option<(seq<seq<char>>, nat)>)
    ensures Prepend([], r) == r
  {
    if r.Some? {
      assert [] + r.value.0 == r.value.0;
    }
  }

  /**
   * After `k` passes of the host-field loop from `start`: the fields `got`
   * read so far, in front of what the passes from `p` read, are what
   * `HostFields` reads from `start`.
   */
  predicate ReadSoFar(s: seq<char>, start: nat, got: seq<seq<char>>, p: nat, k: nat)
    requires k <= 4
  {
    Prepend(got, HostFields(s, p, k)) == HostFields(s, start, 0)
  }

  /** `HostFields` once unfolded at a field that ends at `e`. */
  lemma {:induction false} HostFieldsUnfold(s: seq<char>, p: nat, e: nat, k: nat)
    requires k < 4 && HostFieldEnd(s, p) == Some(e)
    ensures var r := HostFields(s, e + 1, k + 1);
      HostFields(s, p, k) == if r.None? then None else Some(([s[p..e]] + r.value.0, r.value.1))
  {
  }

  /** One pass of the host-field loop keeps `ReadSoFar`. */
  lemma {:induction false} HostFieldsStep(s: seq<char>, start: nat, got: seq<seq<char>>, p: nat, e: nat, q: nat, k: nat)
    requires k < 4 && HostFieldEnd(s, p) == Some(e) && q == e + 1 && ReadSoFar(s, start, got, p, k)
    ensures ReadSoFar(s, start, got + [s[p..e]], q, k + 1)
  {
    var f, r := s[p..e], HostFields(s, e + 1, k + 1);
    HostFieldsUnfold(s, p, e, k);
    if r.Some? {
      assert got + ([f] + r.value.0) == (got + [f]) + r.value.0;
    }
  }

  /**
   * The invariant of the host-field loop after `k` passes: the fields `got`
   * read so far, `name` holding each of them followed by a dot.
   */
  predicate HostLoop(s: seq<char>, start: nat, got: seq<seq<char>>, p: nat, name: seq<char>, k: nat)
  {
    k <= 4 && |got| == k && p <= |s| && name == DotsText(got) && ReadSoFar(s, start, got, p, k)
  }

  /** A field that does not end in a comma leaves the host unread. */
  lemma {:induction false} HostFieldsStop(s: seq<char>, start: nat, got: seq<seq<char>>, p: nat, name: seq<char>, k: nat)
    requires k < 4 && HostFieldEnd(s, p).None? && HostLoop(s, start, got, p, name, k)
    ensures HostFields(s, start, 0).None?
  {
  }

  /** After four passes the fields read are the whole host, and `name` its dotted quad and a dot. */
  lemma {:induction false} HostFieldsDone(s: seq<char>, start: nat, got: seq<seq<char>>, p: nat, name: seq<char>)
    requires HostLoop(s, start, got, p, name, 4)
    ensures HostFields(s, start, 0) == Some((got, p)) && name == DottedQuad(got) + "."
  {
    assert got + [] == got;
    DotsTextQuad(got);
  }

  /** One pass of the host-field loop keeps its invariant. */
  lemma {:induction false} HostFieldRead(s: seq<char>, start: nat, got: seq<seq<char>>, p: nat, e: nat, q: nat, k: nat,
                                         name0: seq<char>, name: seq<char>)
    requires k < 4 && HostFieldEnd(s, p) == Some(e) && q == e + 1 && HostLoop(s, start, got, p, name0, k)
    requires name == name0 + s[p..e] + "."
    ensures HostLoop(s, start, got + [s[p..e]], q, name, k + 1)
  {
    HostFieldsStep(s, start, got, p, e, q, k);
    DotsTextSnoc(got, s[p..e]);
  }

  /**
   * One pass of the host-field loop of parse_pasv_reply: a digit, up to two
   * more, then `,`; the field and a `.` are appended to `name`.
   */
  method ReadHostField(reply: seq<char>, f: nat, name0: seq<char>) returns (ok: bool, ptr: nat, name: seq<char>)
    requires f <= |reply|
    ensures ok == HostFieldEnd(reply, f).Some?
    ensures ok ==> var e := HostFieldEnd(reply, f).value;
      ptr == e + 1 <= |reply| && name == name0 + reply[f..e] + "."
  {
    var end := |reply|;
    ptr, name := f, name0;
    if ptr >= end || !IsDigit(reply[ptr]) {
      return false, ptr, name;
    }
    name := name + [reply[ptr]];
    ptr := ptr + 1;
    var j := 0;
    while j < 2
      invariant 0 <= j <= 2
      invariant ptr == f + 1 + j && ptr <= end
      invariant name == name0 + reply[f..ptr]
      invariant forall k :: f <= k < ptr ==> IsDigit(reply[k])
    {
      if ptr >= end {
        return false, ptr, name;
      }
      if !IsDigit(reply[ptr]) {
        break;
      }
      name := name + [reply[ptr]];
      ptr := ptr + 1;
      j := j + 1;
    }
    assert FieldDigits(reply, f) == ptr - f;
    if ptr >= end || reply[ptr] != ',' {
      return false, ptr, name;
    }
    name := name + ['.'];
    ptr := ptr + 1;
    return true, ptr, name;
  }

  lemma {:induction false} DotsTextQuad(fs: seq<seq<char>>)
    requires |fs| == 4 && forall i :: 0 <= i < 4 ==> HostField(fs[i])
    ensures DotsText(fs) == DottedQuad(fs) + "."
  {
    assert fs[..3][..2][..1][..0] == [];
    assert DotsText(fs[..1]) == fs[0] + "." by {
      assert fs[..1][..0] == [];
    }
    assert DotsText(fs[..2]) == DotsText(fs[..1]) + fs[1] + "." by {
      assert fs[..2][..1] == fs[..1];
    }
    assert DotsText(fs[..3]) == DotsText(fs[..2]) + fs[2] + "." by {
      assert fs[..3][..2] == fs[..2];
    }
    assert DotsText(fs) == DotsText(fs[..3]) + fs[3] + ".";
  }

  /**
   * parse_pasv_reply: from offset 4, skip to the first digit; read four
   * host fields of one to three digits, each followed by `,`, copying them
   * as `h1.h2.h3.h4`; then `p1,p2` as two `strtol` numbers of at most 255,
   * printing `(p1 << 8) + p2` as the service.
   */
  method ParsePasvReply(reply: seq<char>) returns (ret: int, name: seq<char>, service: seq<char>)
    ensures ret == 0 || ret == -1
    ensures ret == 0 <==> ParsePasvSpec(reply).Some?
    ensures ret == 0 ==> name == ParsePasvSpec(reply).value.name
    ensures ret == 0 ==> service == PortText(ParsePasvSpec(reply).value.port)
  {
    name, service := [], [];
    var end := |reply|;
    if end < 5 {
      return -1, name, service;
    }
    var ptr: nat := 4;
    while ptr < end
      invariant 4 <= ptr <= end
      invariant SkipToDigit(reply, ptr) == SkipToDigit(reply, 4)
    {
      if IsDigit(reply[ptr]) {
        break;
      }
      ptr := ptr + 1;
    }
    var ok, q;
    ok, q, name := ReadHostFields(reply, ptr);
    if !ok {
      return -1, name, service;
    }
    name := name[..|name| - 1];
    ret, name, service := ReadPort(reply, name, q);
  }

  /**
   * The host-field loop of parse_pasv_reply: four passes of
   * ReadHostField from `start`; `name` ends with the `.` of the last pass.
   */
  method ReadHostFields(reply: seq<char>, start: nat) returns (ok: bool, ptr: nat, name: seq<char>)
    requires start <= |reply|
    ensures ok == HostFields(reply, start, 0).Some?
    ensures ok ==> var h := HostFields(reply, start, 0).value; ptr == h.1 && name == DottedQuad(h.0) + "."
  {
    name, ptr := [], start;
    ghost var got: seq<seq<char>> := [];
    PrependNothing(HostFields(reply, start, 0));
    for i := 0 to 4
      invariant HostLoop(reply, start, got, ptr, name, i)
    {
      ghost var f, name0 := ptr, name;
      ok, ptr, name := ReadHostField(reply, ptr, name);
      if !ok {
        HostFieldsStop(reply, start, got, f, name0, i);
        return;
      }
      ghost var e := HostFieldEnd(reply, f).value;
      HostFieldRead(reply, start, got, f, e, ptr, i, name0, name);
      got := got + [reply[f..e]];
    }
    HostFieldsDone(reply, start, got, ptr, name);
    ok := true;
  }

  /** The tail of parse_pasv_reply after the fourth host field. */
  method ReadPort(reply: seq<char>, name: seq<char>, p: nat) returns (ret: int, name': seq<char>, service: seq<char>)
    ensures ret == 0 || ret == -1
    ensures ret == 0 <==> PortPart(reply, name, p).Some?
    ensures ret == 0 ==> name' == PortPart(reply, name, p).value.name
    ensures ret == 0 ==> service == PortText(PortPart(reply, name, p).value.port)
  {
    var end := |reply|;
    name', service := name, [];
    var ptr := p;
    if ptr >= end {
      return -1, name', service;
    }
    var c1 := Strtol(reply, ptr);
    if c1.end == ptr {
      return -1, name', service;
    }
    if c1.value > UINT8_MAX {
      return -1, name', service;
    }
    ptr := c1.end;
    if At(reply, ptr) != ',' {
      return -1, name', service;
    }
    ptr := ptr + 1;
    var c2 := Strtol(reply, ptr);
    if c2.end == ptr {
      return -1, name', service;
    }
    if c2.value > UINT8_MAX {
      return -1, name', service;
    }
    service := PortText(PortNumber(c1.value, c2.value));
    return 0, name', service;
  }

  // ---------------------------------------------------------------------
  // What a well-formed PASV reply yields

  lemma {:induction false} SkipToDigitAt(s: seq<char>, p: nat, e: nat)
    requires p <= e < |s| && IsDigit(s[e])
    requires forall k :: p <= k < e ==> !IsDigit(s[k])
    ensures SkipToDigit(s, p) == e
    decreases e - p
  {
    if p < e {
      SkipToDigitAt(s, p + 1, e);
    }
  }

  /** `f` occurs in `s` at `p`, followed by a comma. */
  predicate CommaAfter(s: seq<char>, p: nat, f: seq<char>)
  {
    Matches(s, p, f) && p + |f| < |s| && s[p + |f|] == ','
  }

  /** `HostFieldEnd` reads `f` at `p`, verbatim. */
  predicate FieldRead(s: seq<char>, p: nat, f: seq<char>)
  {
    HostFieldEnd(s, p) == Some(p + |f|) && s[p..p + |f|] == f
  }

  lemma {:induction false} HostFieldReads(s: seq<char>, p: nat, f: seq<char>)
    requires HostField(f) && CommaAfter(s, p, f)
    ensures FieldRead(s, p, f)
  {
    var e := p + |f|;
    forall k | p <= k < e
      ensures IsDigit(s[k])
    {
      assert Offset(s, p, k - p) == f[k - p];
    }
    assert FieldDigits(s, p) == |f|;
    forall j | 0 <= j < |f|
      ensures s[p..e][j] == f[j]
    {
      assert Offset(s, p, j) == f[j];
    }
  }

  /** One pass of the host-field loop: the field at `p` in front of those from `next`. */
  lemma {:induction false} HostFieldsCons(s: seq<char>, p: nat, k: nat, f: seq<char>, next: nat, rest: seq<seq<char>>, q: nat)
    requires k < 4 && FieldRead(s, p, f) && next == p + |f| + 1
    requires HostFields(s, next, k + 1) == Some((rest, q))
    ensures HostFields(s, p, k) == Some(([f] + rest, q))
  {
  }

  /** A host field and its comma at `p`, in front of the fields read from `next`. */
  lemma {:induction false} HostFieldsBack(s: seq<char>, p: nat, f: seq<char>, next: nat, k: nat, rest: seq<seq<char>>, q: nat,
                                          fs: seq<seq<char>>)
    requires k < 4 && HostField(f) && CommaAfter(s, p, f) && next == p + |f| + 1
    requires HostFields(s, next, k + 1) == Some((rest, q)) && fs == [f] + rest
    ensures HostFields(s, p, k) == Some((fs, q))
  {
    HostFieldReads(s, p, f);
    HostFieldsCons(s, p, k, f, next, rest, q);
  }

  /** Four host fields at `p`, one after another, each followed by a comma. */
  predicate FourFields(s: seq<char>, p: nat, f0: seq<char>, f1: seq<char>, f2: seq<char>, f3: seq<char>)
  {
    && HostField(f0) && HostField(f1) && HostField(f2) && HostField(f3)
    && CommaAfter(s, p, f0)
    && CommaAfter(s, p + |f0| + 1, f1)
    && CommaAfter(s, p + |f0| + |f1| + 2, f2)
    && CommaAfter(s, p + |f0| + |f1| + |f2| + 3, f3)
  }

  /** Four host fields at `p0`, each followed by a comma, are read back verbatim. */
  lemma {:induction false} HostFieldsAt(s: seq<char>, p0: nat, f0: seq<char>, f1: seq<char>, f2: seq<char>, f3: seq<char>, q: nat)
    requires FourFields(s, p0, f0, f1, f2, f3) && q == p0 + |f0| + |f1| + |f2| + |f3| + 4
    ensures HostFields(s, p0, 0) == Some(([f0, f1, f2, f3], q))
  {
    var p1, p2, p3 := p0 + |f0| + 1, p0 + |f0| + |f1| + 2, p0 + |f0| + |f1| + |f2| + 3;
    assert HostFields(s, q, 4) == Some(([], q));
    HostFieldsBack(s, p3, f3, q, 3, [], q, [f3]);
    HostFieldsBack(s, p2, f2, p3, 2, [f3], q, [f2, f3]);
    HostFieldsBack(s, p1, f1, p2, 1, [f2, f3], q, [f1, f2, f3]);
    HostFieldsBack(s, p0, f0, p1, 0, [f1, f2, f3], q, [f0, f1, f2, f3]);
  }

  /**
   * For octets of at most 255 the port is `p1 * 256 + p2` and its text is
   * that number in decimal, five digits at most: it fits `service[6]`.
   */
  lemma {:induction false} PortOfOctets(p1: nat, p2: nat)
    requires p1 <= 255 && p2 <= 255
    ensures PortNumber(p1, p2) == p1 * 256 + p2 <= 65535
    ensures PortText(PortNumber(p1, p2)) == NatToDecimal(p1 * 256 + p2)
    ensures |PortText(PortNumber(p1, p2))| <= 5
  {
    var v := p1 * 256 + p2;
    assert Uint32(v) == v;
    NatToDecimalLength(v);
  }

  /** A port octet as the server writes it: digits of value at most 255. */
  predicate PortOctet(n: seq<char>)
  {
    |n| > 0 && AllDigits(n) && DecimalValue(n) <= UINT8_MAX
  }

  /** The port a server means by the octets `n1,n2`: `n1 * 256 + n2`. */
  function OctetsPort(n1: seq<char>, n2: seq<char>): int
    requires PortOctet(n1) && PortOctet(n2)
  {
    DecimalValue(n1) * 256 + DecimalValue(n2)
  }

  /** `n1,n2` at `q`, then a non-digit, yields the port of those octets. */
  lemma {:induction false} PortPartReads(s: seq<char>, name: seq<char>, q: nat, n1: seq<char>, n2: seq<char>) returns (port: int)
    requires PortOctet(n1) && PortOctet(n2)
    requires CommaAfter(s, q, n1)
    requires Matches(s, q + |n1| + 1, n2)
    requires !IsDigit(At(s, q + |n1| + 1 + |n2|))
    ensures port == OctetsPort(n1, n2)
    ensures PortPart(s, name, q) == Some(PasvAddress(name, port))
  {
    port := OctetsPort(n1, n2);
    StrtolReadsDigits(s, q, n1);
    StrtolReadsDigits(s, q + |n1| + 1, n2);
    PortOfOctets(DecimalValue(n1), DecimalValue(n2));
  }

  /** `ParsePasvSpec` from the results of its three stages. */
  lemma {:induction false} PasvStages(s: seq<char>, start: nat, f0: seq<char>, f1: seq<char>, f2: seq<char>, f3: seq<char>, q: nat, port: int)
    requires HostField(f0) && HostField(f1) && HostField(f2) && HostField(f3)
    requires |s| >= 5 && SkipToDigit(s, 4) == start
    requires HostFields(s, start, 0) == Some(([f0, f1, f2, f3], q))
    requires PortPart(s, DottedQuad([f0, f1, f2, f3]), q) == Some(PasvAddress(DottedQuad([f0, f1, f2, f3]), port))
    ensures ParsePasvSpec(s) == Some(PasvAddress(f0 + "." + f1 + "." + f2 + "." + f3, port))
  {
  }

  /**
   * `s` is a reply whose text from offset 4 holds no digit before
   * `f0,f1,f2,f3,n1,n2` (host fields of one to three digits, port octets
   * of value at most 255), followed by a non-digit.
   */
  predicate PasvText(s: seq<char>, head: seq<char>, f0: seq<char>, f1: seq<char>, f2: seq<char>, f3: seq<char>,
                     n1: seq<char>, n2: seq<char>, tail: seq<char>)
  {
    && |head| >= 4 && (forall k :: 4 <= k < |head| ==> !IsDigit(head[k]))
    && HostField(f0) && HostField(f1) && HostField(f2) && HostField(f3)
    && PortOctet(n1) && PortOctet(n2) && !IsDigit(At(tail, 0))
    && s == head + f0 + "," + f1 + "," + f2 + "," + f3 + "," + n1 + "," + n2 + tail
  }

  /** Where the pieces of a `PasvText` reply sit in `s`. */
  lemma {:induction false} PasvLayout(s: seq<char>, head: seq<char>, f0: seq<char>, f1: seq<char>, f2: seq<char>, f3: seq<char>,
                   n1: seq<char>, n2: seq<char>, tail: seq<char>)
    requires s == head + f0 + "," + f1 + "," + f2 + "," + f3 + "," + n1 + "," + n2 + tail
    ensures forall k :: 0 <= k < |head| ==> s[k] == head[k]
    ensures CommaAfter(s, |head|, f0)
    ensures CommaAfter(s, |head| + |f0| + 1, f1)
    ensures CommaAfter(s, |head| + |f0| + |f1| + 2, f2)
    ensures CommaAfter(s, |head| + |f0| + |f1| + |f2| + 3, f3)
    ensures CommaAfter(s, |head| + |f0| + |f1| + |f2| + |f3| + 4, n1)
    ensures Matches(s, |head| + |f0| + |f1| + |f2| + |f3| + 5 + |n1|, n2)
    ensures At(s, |head| + |f0| + |f1| + |f2| + |f3| + 5 + |n1| + |n2|) == At(tail, 0)
  {
    var q := |head| + |f0| + |f1| + |f2| + |f3| + 4;
    forall j | 0 <= j < |f0|
      ensures Offset(s, |head|, j) == f0[j]
    {
    }
    forall j | 0 <= j < |f1|
      ensures Offset(s, |head| + |f0| + 1, j) == f1[j]
    {
    }
    forall j | 0 <= j < |f2|
      ensures Offset(s, |head| + |f0| + |f1| + 2, j) == f2[j]
    {
    }
    forall j | 0 <= j < |f3|
      ensures Offset(s, |head| + |f0| + |f1| + |f2| + 3, j) == f3[j]
    {
    }
    forall j | 0 <= j < |n1|
      ensures Offset(s, q, j) == n1[j]
    {
    }
    forall j | 0 <= j < |n2|
      ensures Offset(s, q + |n1| + 1, j) == n2[j]
    {
    }
  }

  /** `ParsePasvSpec` fails when its last stage does. */
  lemma {:induction false} PasvStagesNone(s: seq<char>, start: nat, fs: seq<seq<char>>, q: nat)
    requires |fs| == 4 && forall i :: 0 <= i < 4 ==> HostField(fs[i])
    requires |s| >= 5 && SkipToDigit(s, 4) == start
    requires HostFields(s, start, 0) == Some((fs, q))
    requires PortPart(s, DottedQuad(fs), q) == None
    ensures ParsePasvSpec(s) == None
  {
  }

  /**
   * Round trip of the PASV reply, by position: no digit from offset 4 up to
   * `start`, then `f0,f1,f2,f3,n1,n2` and a non-digit. The four host fields
   * come back joined by dots, and the port is `n1 * 256 + n2`.
   */
  lemma {:induction false} PasvReadsAt(s: seq<char>, start: nat, f0: seq<char>, f1: seq<char>, f2: seq<char>, f3: seq<char>,
                                       n1: seq<char>, n2: seq<char>)
    requires 4 <= start < |s| && forall k :: 4 <= k < start ==> !IsDigit(s[k])
    requires FourFields(s, start, f0, f1, f2, f3) && PortOctet(n1) && PortOctet(n2)
    requires CommaAfter(s, start + |f0| + |f1| + |f2| + |f3| + 4, n1)
    requires Matches(s, start + |f0| + |f1| + |f2| + |f3| + 5 + |n1|, n2)
    requires !IsDigit(At(s, start + |f0| + |f1| + |f2| + |f3| + 5 + |n1| + |n2|))
    ensures ParsePasvSpec(s) == Some(PasvAddress(f0 + "." + f1 + "." + f2 + "." + f3, OctetsPort(n1, n2)))
  {
    var q := start + |f0| + |f1| + |f2| + |f3| + 4;
    var port := PortPartReads(s, DottedQuad([f0, f1, f2, f3]), q, n1, n2);
    HostFieldsAt(s, start, f0, f1, f2, f3, q);
    assert Offset(s, start, 0) == f0[0];
    SkipToDigitAt(s, 4, start);
    PasvStages(s, start, f0, f1, f2, f3, q, port);
  }

  /**
   * Round trip of the PASV reply as text: `head` (no digit from offset 4),
   * the fields and octets separated by commas, then a `tail` that does not
   * start with a digit.
   */
  lemma {:induction false} PasvReadsFields(s: seq<char>, head: seq<char>, f0: seq<char>, f1: seq<char>, f2: seq<char>, f3: seq<char>,
                                           n1: seq<char>, n2: seq<char>, tail: seq<char>)
    requires PasvText(s, head, f0, f1, f2, f3, n1, n2, tail)
    ensures ParsePasvSpec(s) == Some(PasvAddress(f0 + "." + f1 + "." + f2 + "." + f3, OctetsPort(n1, n2)))
  {
    PasvLayout(s, head, f0, f1, f2, f3, n1, n2, tail);
    PasvReadsAt(s, |head|, f0, f1, f2, f3, n1, n2);
  }

  /** The host fields `f0..f3` of a PASV reply, from its first digit at `start`. */
  predicate PasvHostAt(s: seq<char>, start: nat, f0: seq<char>, f1: seq<char>, f2: seq<char>, f3: seq<char>)
  {
    && 4 <= start && FourFields(s, start, f0, f1, f2, f3)
    && (forall k :: 4 <= k < start ==> !IsDigit(s[k]))
  }

  /** The first host field `HostFields` reads at `p`, and the position after its comma. */
  lemma {:induction false} HostFieldsFirst(s: seq<char>, p: nat, k: nat)
      returns (f: seq<char>, next: nat, rest: seq<seq<char>>, q: nat)
    requires k < 4 && HostFields(s, p, k).Some?
    ensures HostField(f) && CommaAfter(s, p, f) && next == p + |f| + 1
    ensures HostFields(s, next, k + 1) == Some((rest, q))
    ensures HostFields(s, p, k) == Some(([f] + rest, q))
  {
    var e := HostFieldEnd(s, p).value;
    f, next := s[p..e], e + 1;
    rest, q := HostFields(s, next, k + 1).value.0, HostFields(s, next, k + 1).value.1;
    forall j | 0 <= j < |f|
      ensures Offset(s, p, j) == f[j]
    {
    }
  }

  /** The fields `fs` lie at `p` one after another, each a host field followed by a comma. */
  predicate FieldsAt(s: seq<char>, p: nat, fs: seq<seq<char>>)
    decreases |fs|
  {
    |fs| == 0 || (HostField(fs[0]) && CommaAfter(s, p, fs[0]) && FieldsAt(s, p + |fs[0]| + 1, fs[1..]))
  }

  /** What `HostFields` accepts: its fields lie at `p`, each followed by a comma. */
  lemma {:induction false} HostFieldsLaidOut(s: seq<char>, p: nat, k: nat)
    requires k <= 4 && HostFields(s, p, k).Some?
    ensures FieldsAt(s, p, HostFields(s, p, k).value.0)
    decreases 4 - k
  {
    if k < 4 {
      var f, next, rest, q := HostFieldsFirst(s, p, k);
      HostFieldsLaidOut(s, next, k + 1);
      assert ([f] + rest)[1..] == rest;
    }
  }

  /** The first of the fields `fs` at `p`, and the rest after its comma. */
  lemma {:induction false} FieldsAtFirst(s: seq<char>, p: nat, fs: seq<seq<char>>)
    requires |fs| > 0 && FieldsAt(s, p, fs)
    ensures HostField(fs[0]) && CommaAfter(s, p, fs[0]) && FieldsAt(s, p + |fs[0]| + 1, fs[1..])
  {
  }

  /** Four fields laid out from `p` are `FourFields`. */
  lemma {:induction false} FieldsAtFour(s: seq<char>, p: nat, fs: seq<seq<char>>)
    requires |fs| == 4 && FieldsAt(s, p, fs)
    ensures FourFields(s, p, fs[0], fs[1], fs[2], fs[3])
  {
    var e0, t1 := p + |fs[0]| + 1, fs[1..];
    FieldsAtFirst(s, p, fs);
    var e1, t2 := e0 + |t1[0]| + 1, t1[1..];
    FieldsAtFirst(s, e0, t1);
    var e2, t3 := e1 + |t2[0]| + 1, t2[1..];
    FieldsAtFirst(s, e1, t2);
    FieldsAtFirst(s, e2, t3);
    assert t1[0] == fs[1] && t2[0] == fs[2] && t3[0] == fs[3];
    CommaAfterAt(s, e1, p + |fs[0]| + |fs[1]| + 2, fs[2]);
    CommaAfterAt(s, e2, p + |fs[0]| + |fs[1]| + |fs[2]| + 3, fs[3]);
  }

  /** What `HostFields` accepts: four host fields, each followed by a comma. */
  lemma {:induction false} HostFieldsLayout(s: seq<char>, p: nat) returns (f0: seq<char>, f1: seq<char>, f2: seq<char>, f3: seq<char>)
    requires HostFields(s, p, 0).Some?
    ensures HostFields(s, p, 0).value.0 == [f0, f1, f2, f3]
    ensures FourFields(s, p, f0, f1, f2, f3)
  {
    var fs := HostFields(s, p, 0).value.0;
    HostFieldsLaidOut(s, p, 0);
    FieldsAtFour(s, p, fs);
    f0, f1, f2, f3 := fs[0], fs[1], fs[2], fs[3];
    assert fs == [f0, f1, f2, f3];
  }

  lemma {:induction false} CommaAfterAt(s: seq<char>, p: nat, p': nat, f: seq<char>)
    requires p == p' && CommaAfter(s, p, f)
    ensures CommaAfter(s, p', f)
  {
  }

  /**
   * The converse of the round trip for the host: an accepted reply has four
   * host fields from its first digit, and the name is those fields joined
   * by dots.
   */
  lemma {:induction false} PasvAcceptsOnlyFields(s: seq<char>)
    requires ParsePasvSpec(s).Some?
    ensures exists start: nat, f0, f1, f2, f3 ::
      && PasvHostAt(s, start, f0, f1, f2, f3)
      && ParsePasvSpec(s).value.name == f0 + "." + f1 + "." + f2 + "." + f3
  {
    var start := SkipToDigit(s, 4);
    var f0, f1, f2, f3 := HostFieldsLayout(s, start);
    assert PasvHostAt(s, start, f0, f1, f2, f3);
  }

  // ---------------------------------------------------------------------
  // What a PASV reply is refused for

  /** Too short to reach offset 4, or no digit from offset 4 on. */
  lemma {:induction false} PasvRejectsWithoutDigits(s: seq<char>)
    requires |s| < 5 || forall k :: 4 <= k < |s| ==> !IsDigit(s[k])
    ensures ParsePasvSpec(s) == None
  {
    if |s| >= 5 {
      assert SkipToDigit(s, 4) == |s|;
    }
  }

  /** The first digit of the reply from offset 4 is at `start`. */
  predicate FirstDigitAt(s: seq<char>, start: nat)
  {
    4 <= start < |s| && IsDigit(s[start]) && forall k :: 4 <= k < start ==> !IsDigit(s[k])
  }

  /** A first host field not ended by a comma: a `.` in its place, or a fourth digit. */
  lemma {:induction false} PasvRejectsFieldEnd(s: seq<char>, start: nat, f0: seq<char>)
    requires FirstDigitAt(s, start) && HostField(f0) && Matches(s, start, f0)
    requires start + |f0| < |s| && s[start + |f0|] != ','
    requires |f0| == 3 || !IsDigit(s[start + |f0|])
    ensures ParsePasvSpec(s) == None
  {
    SkipToDigitAt(s, 4, start);
    forall k | start <= k < start + |f0|
      ensures IsDigit(s[k])
    {
      assert Offset(s, start, k - start) == f0[k - start];
    }
    assert FieldDigits(s, start) == |f0|;
    assert HostFieldEnd(s, start) == None;
    assert HostFields(s, start, 0) == None;
  }

  /** An empty second host field, as in `255,,255`. */
  lemma {:induction false} PasvRejectsEmptyField(s: seq<char>, start: nat, f0: seq<char>)
    requires FirstDigitAt(s, start) && HostField(f0) && CommaAfter(s, start, f0)
    requires start + |f0| + 1 < |s| && s[start + |f0| + 1] == ','
    ensures ParsePasvSpec(s) == None
  {
    SkipToDigitAt(s, 4, start);
    HostFieldReads(s, start, f0);
    assert HostFieldEnd(s, start + |f0| + 1) == None;
  }

  /** A failing port part after four good host fields fails the reply. */
  lemma {:induction false} PasvRejectsPort(s: seq<char>, start: nat, f0: seq<char>, f1: seq<char>, f2: seq<char>, f3: seq<char>, q: nat)
    requires FirstDigitAt(s, start)
    requires FourFields(s, start, f0, f1, f2, f3)
    requires q == start + |f0| + |f1| + |f2| + |f3| + 4 && PortPart(s, DottedQuad([f0, f1, f2, f3]), q) == None
    ensures ParsePasvSpec(s) == None
  {
    SkipToDigitAt(s, 4, start);
    HostFieldsAt(s, start, f0, f1, f2, f3, q);
    PasvStagesNone(s, start, [f0, f1, f2, f3], q);
  }

  /** A first port octet above 255 (a `long` still) fails the port part. */
  lemma {:induction false} PortRejectsHighFirst(s: seq<char>, name: seq<char>, q: nat, n1: seq<char>)
    requires |n1| > 0 && AllDigits(n1) && UINT8_MAX < DecimalValue(n1) <= LONG_MAX
    requires Matches(s, q, n1) && !IsDigit(At(s, q + |n1|))
    ensures PortPart(s, name, q) == None
  {
    StrtolReadsDigits(s, q, n1);
  }

  /** A second port octet above 255 fails the port part. */
  lemma {:induction false} PortRejectsHighSecond(s: seq<char>, name: seq<char>, q: nat, n1: seq<char>, n2: seq<char>)
    requires PortOctet(n1) && CommaAfter(s, q, n1)
    requires |n2| > 0 && AllDigits(n2) && UINT8_MAX < DecimalValue(n2) <= LONG_MAX
    requires Matches(s, q + |n1| + 1, n2) && !IsDigit(At(s, q + |n1| + 1 + |n2|))
    ensures PortPart(s, name, q) == None
  {
    StrtolReadsDigits(s, q, n1);
    StrtolReadsDigits(s, q + |n1| + 1, n2);
  }

  /**
   * The octets are `strtol` numbers, so a sign is accepted: `-1,0` gives the
   * `uint32_t` port 2^32 - 256, printed by `%d` as `-256`.
   */
  lemma {:induction false} PortAcceptsNegativeOctet(s: seq<char>, name: seq<char>, q: nat)
    requires Matches(s, q, "-1,0") && !IsDigit(At(s, q + 4))
    ensures PortPart(s, name, q) == Some(PasvAddress(name, 0x1_0000_0000 - 256))
    ensures PortText(PortPart(s, name, q).value.port) == "-256"
  {
    assert Offset(s, q, 0) == '-' && Offset(s, q, 1) == '1' && Offset(s, q, 2) == ',' && Offset(s, q, 3) == '0';
    assert SkipSpaces(s, q) == q;
    assert DigitRunEnd(s, q + 1) == q + 2;
    assert DigitsValue(s, q + 1, q + 2) == 1;
    assert Strtol(s, q) == Conversion(-1, q + 2);
    StrtolReadsDigits(s, q + 3, "0");
    assert NatToDecimal(256) == "256";
  }

  /**
   * The converse for the port: an accepted port part has two octets of at
   * most 255, read by `strtol` at `p` and after the comma that ends the
   * first, and its port is built from them.
   */
  lemma {:induction false} PortPartAcceptsOnlyOctets(s: seq<char>, name: seq<char>, p: nat) returns (v1: int, e: nat, v2: int)
    requires PortPart(s, name, p).Some?
    ensures LONG_MIN <= v1 <= UINT8_MAX && LONG_MIN <= v2 <= UINT8_MAX
    ensures p < e < |s| && s[e] == ',' && Strtol(s, p) == Conversion(v1, e)
    ensures Strtol(s, e + 1).value == v2 && Strtol(s, e + 1).end > e + 1
    ensures PortPart(s, name, p).value.port == PortNumber(v1, v2)
  {
    var c1 := Strtol(s, p);
    v1, e := c1.value, c1.end;
    assert e > p;
    v2 := Strtol(s, e + 1).value;
  }

  // ---------------------------------------------------------------------
  // EPSV

  function ParseEpsvSpec(s: seq<char>): Option<seq<char>>
  {
    var open := FindFrom(s, 4, '(');
    if open + 3 >= |s| then None
    else
      var d := s[open + 1];
      if s[open + 2] != d || s[open + 3] != d then None
      else
        var close := FindFrom(s, open + 4, d);
        if close >= |s| then None else Some(s[open + 4..close])
  }

  /**
   * An EPSV body at `open`: the first `(` from offset 4, a delimiter three
   * times, `port` free of the delimiter, then the delimiter once more.
   */
  predicate EpsvBodyAt(s: seq<char>, open: nat, port: seq<char>)
  {
    && 4 <= open && open + 4 + |port| < |s|
    && s[open] == '(' && (forall k :: 4 <= k < open ==> s[k] != '(')
    && s[open + 2] == s[open + 1] && s[open + 3] == s[open + 1]
    && Matches(s, open + 4, port) && (forall i :: 0 <= i < |port| ==> port[i] != s[open + 1])
    && s[open + 4 + |port|] == s[open + 1]
  }

  /** Round trip of the EPSV reply: the port between the delimiters comes back verbatim. */
  lemma {:induction false} EpsvReadsPort(s: seq<char>, open: nat, port: seq<char>)
    requires EpsvBodyAt(s, open, port)
    ensures ParseEpsvSpec(s) == Some(port)
  {
    var d, close := s[open + 1], open + 4 + |port|;
    FindFromAt(s, 4, open, '(');
    forall k | open + 4 <= k < close
      ensures s[k] == port[k - open - 4] && s[k] != d
    {
      assert Offset(s, open + 4, k - open - 4) == port[k - open - 4];
    }
    FindFromAt(s, open + 4, close, d);
    assert s[open + 4..close] == port;
  }

  /** Only such a body is accepted: what `ParseEpsvSpec` returns sits in an EPSV body. */
  lemma {:induction false} EpsvAcceptsOnlyBody(s: seq<char>)
    requires ParseEpsvSpec(s).Some?
    ensures exists open :: EpsvBodyAt(s, open, ParseEpsvSpec(s).value)
  {
    var open := FindFrom(s, 4, '(');
    var d := s[open + 1];
    var close := FindFrom(s, open + 4, d);
    var port := s[open + 4..close];
    forall j | 0 <= j < |port|
      ensures Offset(s, open + 4, j) == port[j] && port[j] != d
    {
    }
    assert EpsvBodyAt(s, open, port);
  }

  /**
   * parse_epsv_reply: find `(` at or after offset 4; the next byte is the
   * delimiter and must appear twice more; the port is every byte up to the
   * next delimiter, which must be present.
   */
  method ParseEpsvReply(reply: seq<char>) returns (ret: int, port: seq<char>)
    ensures ret == 0 || ret == -1
    ensures ret == 0 <==> ParseEpsvSpec(reply).Some?
    ensures ret == 0 ==> port == ParseEpsvSpec(reply).value
  {
    port := [];
    var end := |reply|;
    var ptr := 4;
    while true
      invariant 4 <= ptr
      invariant ptr > 4 ==> ptr <= end
      invariant FindFrom(reply, ptr, '(') == FindFrom(reply, 4, '(')
      decreases end - ptr
    {
      if ptr >= end {
        return -1, port;
      }
      if reply[ptr] == '(' {
        break;
      }
      ptr := ptr + 1;
    }
    ghost var open := ptr;
    ptr := ptr + 1;
    if ptr >= end {
      return -1, port;
    }
    var delimiter := reply[ptr];
    var i := 0;
    while i < 2
      invariant 0 <= i <= 2
      invariant ptr == open + 1 + i && ptr < end
      invariant forall k :: open + 1 <= k <= ptr ==> reply[k] == delimiter
    {
      ptr := ptr + 1;
      if ptr >= end {
        return -1, port;
      }
      if reply[ptr] != delimiter {
        return -1, port;
      }
      i := i + 1;
    }
    ret, port := ReadEpsvPort(reply, ptr, delimiter);
  }

  /**
   * The last loop of parse_epsv_reply: the bytes after `last` up to the
   * next `delimiter` are the port; -1 when no delimiter follows.
   */
  method ReadEpsvPort(reply: seq<char>, last: nat, delimiter: char) returns (ret: int, port: seq<char>)
    requires last < |reply|
    ensures ret == 0 || ret == -1
    ensures ret == 0 <==> FindFrom(reply, last + 1, delimiter) < |reply|
    ensures ret == 0 ==> port == reply[last + 1..FindFrom(reply, last + 1, delimiter)]
  {
    var end := |reply|;
    var ptr := last;
    port := [];
    while true
      invariant last <= ptr < end
      invariant port == reply[last + 1..ptr + 1]
      invariant FindFrom(reply, ptr + 1, delimiter) == FindFrom(reply, last + 1, delimiter)
      decreases end - ptr
    {
      ptr := ptr + 1;
      if ptr >= end {
        return -1, port;
      }
      if reply[ptr] == delimiter {
        break;
      }
      port := port + [reply[ptr]];
    }
    return 0, port;
  }

  // ---------------------------------------------------------------------
  // The replies of tests/check_parse.c, after any text without digits
  // (PASV) or without `(` (EPSV) from offset 4

  /** The decimal values, host names and port texts of the PASV examples. */
  lemma {:induction false} PasvExampleValues()
    ensures DecimalValue("0") == 0 && DecimalValue("1") == 1 && DecimalValue("12") == 12 && DecimalValue("123") == 123
    ensures "192" + "." + "168" + "." + "1" + "." + "1" == "192.168.1.1"
    ensures "1" + "." + "1" + "." + "1" + "." + "1" == "1.1.1.1"
    ensures "255" + "." + "255" + "." + "255" + "." + "255" == "255.255.255.255"
    ensures PortText(123) == "123" && PortText(3195) == "3195" && PortText(256) == "256"
  {
    assert "12"[..1] == "1";
    assert "123"[..2] == "12";
    assert NatToDecimal(12) == "12";
    assert NatToDecimal(25) == "25";
    assert NatToDecimal(319) == "319";
  }

  lemma {:induction false} PasvExampleTextLocal(head: seq<char>)
    ensures head + "192,168,1,1,0,123)" == head + "192" + "," + "168" + "," + "1" + "," + "1" + "," + "0" + "," + "123" + ")"
  {
  }

  lemma {:induction false} PasvExampleLocal(head: seq<char>)
    requires |head| >= 4 && forall k :: 4 <= k < |head| ==> !IsDigit(head[k])
    ensures ParsePasvSpec(head + "192,168,1,1,0,123)") == Some(PasvAddress("192.168.1.1", 123))
    ensures PortText(123) == "123"
  {
    var s := head + "192,168,1,1,0,123)";
    PasvExampleTextLocal(head);
    PasvExampleValues();
    PasvReadsFields(s, head, "192", "168", "1", "1", "0", "123", ")");
  }

  lemma {:induction false} PasvExampleTextOnes(head: seq<char>)
    ensures head + "1,1,1,1,12,123)" == head + "1" + "," + "1" + "," + "1" + "," + "1" + "," + "12" + "," + "123" + ")"
  {
  }

  lemma {:induction false} PasvExampleOnes(head: seq<char>)
    requires |head| >= 4 && forall k :: 4 <= k < |head| ==> !IsDigit(head[k])
    ensures ParsePasvSpec(head + "1,1,1,1,12,123)") == Some(PasvAddress("1.1.1.1", 3195))
    ensures PortText(3195) == "3195"
  {
    var s := head + "1,1,1,1,12,123)";
    PasvExampleTextOnes(head);
    PasvExampleValues();
    PasvReadsFields(s, head, "1", "1", "1", "1", "12", "123", ")");
  }

  lemma {:induction false} PasvExampleTextBroadcast(head: seq<char>)
    ensures head + "255,255,255,255,1,0)" == head + "255" + "," + "255" + "," + "255" + "," + "255" + "," + "1" + "," + "0" + ")"
  {
  }

  lemma {:induction false} PasvExampleBroadcast(head: seq<char>)
    requires |head| >= 4 && forall k :: 4 <= k < |head| ==> !IsDigit(head[k])
    ensures ParsePasvSpec(head + "255,255,255,255,1,0)") == Some(PasvAddress("255.255.255.255", 256))
    ensures PortText(256) == "256"
  {
    var s := head + "255,255,255,255,1,0)";
    PasvExampleTextBroadcast(head);
    PasvExampleValues();
    PasvReadsFields(s, head, "255", "255", "255", "255", "1", "0", ")");
  }

  lemma {:induction false} EpsvExamples(head: seq<char>)
    requires |head| >= 4 && forall k :: 4 <= k < |head| ==> head[k] != '('
    ensures ParseEpsvSpec(head + "(|||6446|))") == Some("6446")
    ensures ParseEpsvSpec(head + "(||||))") == Some("")
    ensures ParseEpsvSpec(head + "(|||1|))") == Some("1")
    ensures ParseEpsvSpec(head + "(|||12|))") == Some("12")
  {
    EpsvExampleText(head);
    EpsvExample(head, "6446", "))");
    EpsvExample(head, "", "))");
    EpsvExample(head, "1", "))");
    EpsvExample(head, "12", "))");
  }

  lemma {:induction false} EpsvExampleText(head: seq<char>)
    ensures head + "(|||6446|))" == head + "(|||" + "6446" + "|" + "))"
    ensures head + "(||||))" == head + "(|||" + "" + "|" + "))"
    ensures head + "(|||1|))" == head + "(|||" + "1" + "|" + "))"
    ensures head + "(|||12|))" == head + "(|||" + "12" + "|" + "))"
  {
  }

  /** `head`, then `(|||`, a port without `|`, `|` and any `tail`. */
  lemma {:induction false} EpsvExample(head: seq<char>, port: seq<char>, tail: seq<char>)
    requires |head| >= 4 && forall k :: 4 <= k < |head| ==> head[k] != '('
    requires forall i :: 0 <= i < |port| ==> port[i] != '|'
    ensures ParseEpsvSpec(head + "(|||" + port + "|" + tail) == Some(port)
  {
    var s := head + "(|||" + port + "|" + tail;
    var n := |head|;
    assert s[n] == '(' && s[n + 1] == '|' && s[n + 2] == '|' && s[n + 3] == '|' && s[n + 4 + |port|] == '|';
    forall k | 4 <= k < n
      ensures s[k] != '('
    {
      assert s[k] == head[k];
    }
    forall j | 0 <= j < |port|
      ensures Offset(s, n + 4, j) == port[j]
    {
    }
    EpsvReadsPort(s, n, port);
  }

  /** The EPSV replies the tests refuse. */
  lemma {:induction false} EpsvRejectExamples()
    ensures ParseEpsvSpec("229") == None
    ensures ParseEpsvSpec("229 ||||") == None
    ensures ParseEpsvSpec("229 (|||)") == None
  {
  }

  /** A delimiter that does not repeat, as in `(|1||1234|))`. */
  lemma {:induction false} EpsvRejectsDelimiterMismatch(s: seq<char>, open: nat)
    requires 4 <= open && open + 3 < |s| && s[open] == '(' && (forall k :: 4 <= k < open ==> s[k] != '(')
    requires s[open + 2] != s[open + 1]
    ensures ParseEpsvSpec(s) == None
  {
    FindFromAt(s, 4, open, '(');
  }
}

=== FILE: parse_scan.dfy ===
/**
 * The scanning helpers of the listing parser (src/parse.c): `strtol`-style
 * numbers, `copy_until`, the `skip_at_least_one_*` family, the month table
 * and the year guess for listings that show a time instead of a year.
 *
 * Each helper is a cursor over a NUL-terminated string (see `Common.At`).
 * Helpers that loop in the source are methods, each proved equal to a
 * specification function; the functions carry the properties.
 */
module ParseScan {
  import opened Common

  const LONG_MIN: int := -0x8000_0000_0000_0000
  const LONG_MAX: int := 0x7FFF_FFFF_FFFF_FFFF
  const INT_MIN: int := -0x8000_0000
  const INT_MAX: int := 0x7FFF_FFFF
  const SSIZE_MAX: int := LONG_MAX

  /** A converted number and the index just past the text it used. */
  datatype Conversion = Conversion(value: int, end: nat)

  function Clamp(v: int, lo: int, hi: int): int
  {
    if v < lo then lo else if v > hi then hi else v
  }

  /**
   * `strtol`/`strtoll` in base 10 and the C locale, with a 64-bit `long`:
   * leading whitespace, an optional sign, then a digit run; an out-of-range
   * value saturates. Without digits nothing is consumed: `end == i`.
   */
  function Strtol(s: seq<char>, i: nat): (c: Conversion)
    requires i <= |s|
    ensures c.end == i || i < c.end <= |s|
    ensures LONG_MIN <= c.value <= LONG_MAX
    ensures c.end != i ==> IsDigit(s[c.end - 1]) && !IsDigit(At(s, c.end))
  {
    var w := SkipSpaces(s, i);
    var signed := At(s, w) == '-' || At(s, w) == '+';
    var d := if signed then w + 1 else w;
    var e := DigitRunEnd(s, d);
    if e == d then Conversion(0, i)
    else
      assert forall k :: d <= k < e ==> IsDigit(s[k]) by {
        forall k | d <= k < e ensures IsDigit(s[k]) {
          assert At(s, k) == s[k];
        }
      }
      var magnitude: int := DigitsValue(s, d, e);
      var v: int := if At(s, w) == '-' then -magnitude else magnitude;
      assert At(s, e - 1) == s[e - 1];
      Conversion(Clamp(v, LONG_MIN, LONG_MAX), e)
  }

  /**
   * `parse_int` and `parse_ssize_t` (one macro, PARSE_FUNC): the byte at `b`
   * must not be the terminator, `strtoll` must consume some digits, and the
   * value must lie in `[min, max]`.
   */
  function ParseNumber(s: seq<char>, b: nat, min: int, max: int): (r: Option<Conversion>)
    ensures r.Some? ==> min <= r.value.value <= max && b < r.value.end <= |s|
    ensures r.Some? ==> IsDigit(s[r.value.end - 1]) && !IsDigit(At(s, r.value.end))
  {
    if At(s, b) == NUL then None
    else
      var c := Strtol(s, b);
      if c.end == b || c.value < min || c.value > max then None else Some(c)
  }

  /** parse_int: the strtoll conversion at `b`, refused when NUL, digitless or outside `int`. */
  function ParseInt(s: seq<char>, b: nat): (r: Option<Conversion>)
    ensures r.Some? ==> b < |s| && r.value == Strtol(s, b) && INT_MIN <= r.value.value <= INT_MAX && b < r.value.end
    ensures b < |s| && (Strtol(s, b).value < INT_MIN || Strtol(s, b).value > INT_MAX) ==> r.None?
  {
    ParseNumber(s, b, INT_MIN, INT_MAX)
  }

  /** parse_ssize_t: the strtoll conversion at `b`, refused when NUL, digitless or outside `[-1, SSIZE_MAX]`. */
  function ParseSsize(s: seq<char>, b: nat): (r: Option<Conversion>)
    ensures r.Some? ==> b < |s| && r.value == Strtol(s, b) && -1 <= r.value.value <= SSIZE_MAX && b < r.value.end
    ensures b < |s| && (Strtol(s, b).value < -1 || Strtol(s, b).value > SSIZE_MAX) ==> r.None?
  {
    ParseNumber(s, b, -1, SSIZE_MAX)
  }

  /** The value of the digits `s[d..e]`, most significant first. */
  function DigitsValue(s: seq<char>, d: nat, e: nat): nat
    requires d <= e <= |s| && forall k :: d <= k < e ==> IsDigit(s[k])
    decreases e - d
  {
    if e == d then 0 else DigitsValue(s, d, e - 1) * 10 + DigitValue(s[e - 1])
  }

  lemma {:induction false} DigitsValueMatches(s: seq<char>, b: nat, ds: seq<char>)
    requires AllDigits(ds) && Matches(s, b, ds)
    ensures forall k :: b <= k < b + |ds| ==> IsDigit(s[k])
    ensures DigitsValue(s, b, b + |ds|) == DecimalValue(ds)
    decreases |ds|
  {
    forall k | b <= k < b + |ds|
      ensures IsDigit(s[k])
    {
      assert Offset(s, b, k - b) == ds[k - b];
    }
    if ds != [] {
      var n := |ds| - 1;
      MatchesSplit(s, b, ds[..n], [ds[n]]);
      assert ds[..n] + [ds[n]] == ds;
      DigitsValueMatches(s, b, ds[..n]);
      assert Offset(s, b, n) == ds[n];
    }
  }

  /**
   * A run of digits `ds` at `b`, not followed by a digit, is read back as
   * its value by `strtol` when that value fits a `long`.
   */
  lemma {:induction false} StrtolReadsDigits(s: seq<char>, b: nat, ds: seq<char>)
    requires |ds| > 0 && AllDigits(ds) && DecimalValue(ds) <= LONG_MAX
    requires Matches(s, b, ds)
    requires !IsDigit(At(s, b + |ds|))
    ensures Strtol(s, b) == Conversion(DecimalValue(ds), b + |ds|)
  {
    var e := b + |ds|;
    assert Offset(s, b, 0) == ds[0];
    assert !IsSpace(s[b]) && s[b] != '-' && s[b] != '+';
    assert SkipSpaces(s, b) == b;
    DigitsValueMatches(s, b, ds);
    DigitRunEndAt(s, b, e);
  }

  /** The same digits are accepted by `parse_int`/`parse_ssize_t` when in range. */
  lemma {:induction false} ParseNumberReadsDigits(s: seq<char>, b: nat, ds: seq<char>, min: int, max: int)
    requires |ds| > 0 && AllDigits(ds) && Matches(s, b, ds)
    requires !IsDigit(At(s, b + |ds|))
    requires min <= DecimalValue(ds) <= max <= LONG_MAX
    ensures ParseNumber(s, b, min, max) == Some(Conversion(DecimalValue(ds), b + |ds|))
  {
    StrtolReadsDigits(s, b, ds);
    assert Offset(s, b, 0) == ds[0];
  }

  /** A digit run from `i` to `e` that stops at `e` is what `DigitRunEnd` finds. */
  lemma {:induction false} DigitRunEndAt(s: seq<char>, i: nat, e: nat)
    requires i <= e <= |s|
    requires forall k :: i <= k < e ==> IsDigit(s[k])
    requires !IsDigit(At(s, e))
    ensures DigitRunEnd(s, i) == e
    decreases e - i
  {
    if i < e {
      DigitRunEndAt(s, i + 1, e);
    }
  }

  // ---------------------------------------------------------------------
  // copy_until

  /**
   * The index where `copy_until(s + b, &end, dest, c, len)` stops, from
   * iteration `i` on: iteration `i` copies the byte at `b + i` (it must not
   * be the terminator) and succeeds when the next byte is `c`. At most
   * `len - 1` iterations run.
   */
  function CopyUntilFrom(s: seq<char>, b: nat, c: char, len: nat, i: nat): (r: Option<nat>)
    requires 1 <= len
    ensures r.Some? ==> b + i < r.value <= b + len - 1 && r.value <= |s| && At(s, r.value) == c
    ensures r.Some? ==> forall j :: b + i <= j < r.value ==> At(s, j) != NUL
    ensures r.Some? ==> forall j :: b + i < j < r.value ==> At(s, j) != c
    ensures r.None? ==> forall k :: b + i < k < b + len && At(s, k) == c ==>
                          exists j :: b + i <= j < k && At(s, j) == NUL
    decreases len - i
  {
    if i + 1 >= len then None
    else if At(s, b + i) == NUL then None
    else if At(s, b + i + 1) == c then Some(b + i + 1)
    else CopyUntilFrom(s, b, c, len, i + 1)
  }

  function CopyUntilSpec(s: seq<char>, b: nat, c: char, len: nat): Option<nat>
    requires 1 <= len
  {
    CopyUntilFrom(s, b, c, len, 0)
  }

  /**
   * copy_until: copies at least one byte from `b` into `dest` and succeeds
   * only when `c` follows within `len - 1` bytes; the cursor is left on `c`.
   */
  method CopyUntil(s: seq<char>, b: nat, c: char, len: nat) returns (ok: bool, dest: seq<char>, end: nat)
    requires 1 <= len
    ensures ok == CopyUntilSpec(s, b, c, len).Some?
    ensures ok ==> end == CopyUntilSpec(s, b, c, len).value && b < end <= |s|
    ensures ok ==> dest == s[b..end]
  {
    var ptr := b;
    var i := 0;
    dest := [];
    while i < len - 1
      invariant 0 <= i <= len - 1
      invariant ptr == b + i
      invariant i == 0 ==> dest == []
      invariant i > 0 ==> ptr <= |s| && dest == s[b..ptr]
      invariant CopyUntilFrom(s, b, c, len, i) == CopyUntilSpec(s, b, c, len)
    {
      if At(s, ptr) == NUL {
        return false, [], 0;
      }
      dest := dest + [s[ptr]];
      ptr := ptr + 1;
      if At(s, ptr) == c {
        return true, dest, ptr;
      }
      i := i + 1;
    }
    return false, [], 0;
  }

  // ---------------------------------------------------------------------
  // skip_at_least_one_eq / _neq / _f / _f_neg

  /** First index at or after `i` holding the terminator or a byte that `stop` accepts. */
  function SkipEnd(s: seq<char>, i: nat, stop: char -> bool): (e: nat)
    ensures i <= e
    ensures i <= |s| ==> e <= |s|
    ensures At(s, e) == NUL || stop(At(s, e))
    ensures forall k :: i <= k < e ==> At(s, k) != NUL && !stop(At(s, k))
    decreases |s| - i
  {
    if i < |s| && s[i] != NUL && !stop(s[i]) then SkipEnd(s, i + 1, stop) else i
  }

  /**
   * Where the `skip_at_least_one_*` family leaves the cursor: it fails only
   * on the terminator, consumes the byte at `b` untested, then the run of
   * bytes `stop` rejects.
   */
  function SkipAtLeastOneSpec(s: seq<char>, b: nat, stop: char -> bool): (r: Option<nat>)
    ensures r.Some? <==> At(s, b) != NUL
    ensures r.Some? ==> b < r.value <= |s|
  {
    if At(s, b) == NUL then None else Some(SkipEnd(s, b + 1, stop))
  }

  /** `skip_at_least_one_eq(c)` stops at the first byte other than `c`. */
  function NotEq(c: char): char -> bool
  {
    x => x != c
  }

  /** `skip_at_least_one_neq(c)` stops at `c`. */
  function Eq(c: char): char -> bool
  {
    x => x == c
  }

  /**
   * The four `skip_at_least_one_*` functions, which differ only in their
   * stop test (`NotEq(c)`, `Eq(c)`, `!f`, `f`).
   */
  method SkipAtLeastOne(s: seq<char>, b: nat, stop: char -> bool) returns (ok: bool, end: nat)
    ensures ok == (At(s, b) != NUL)
    ensures ok ==> end == SkipEnd(s, b + 1, stop)
  {
    if At(s, b) == NUL {
      return false, 0;
    }
    var ptr := b + 1;
    while true
      invariant b < ptr <= |s|
      invariant SkipEnd(s, ptr, stop) == SkipEnd(s, b + 1, stop)
      decreases |s| - ptr
    {
      if At(s, ptr) == NUL || stop(At(s, ptr)) {
        return true, ptr;
      }
      ptr := ptr + 1;
    }
  }

  // ---------------------------------------------------------------------
  // get_mon

  const Months: seq<seq<char>> :=
    ["Jan", "Feb", "Mar", "Apr", "May", "Jun", "Jul", "Aug", "Sep", "Oct", "Nov", "Dec"]

  /** The index of `str` in the month table from entry `i` on, -1 when absent. */
  function MonthIndexFrom(str: seq<char>, i: nat): (r: int)
    requires i <= 12
    ensures -1 <= r < 12
    ensures r == -1 <==> forall k :: i <= k < 12 ==> Months[k] != str
    ensures r >= 0 ==> i <= r && Months[r] == str
    decreases 12 - i
  {
    if i == 12 then -1 else if Months[i] == str then i else MonthIndexFrom(str, i + 1)
  }

  function MonthIndex(str: seq<char>): int
  {
    MonthIndexFrom(str, 0)
  }

  /** get_mon: the table index of an exact month abbreviation, -1 otherwise. */
  method GetMon(str: seq<char>) returns (r: int)
    ensures r == MonthIndex(str)
    ensures -1 <= r < 12
    ensures r == -1 <==> str !in Months
    ensures r >= 0 ==> Months[r] == str
  {
    var i := 0;
    while i < 12
      invariant 0 <= i <= 12
      invariant MonthIndexFrom(str, i) == MonthIndex(str)
    {
      if Months[i] == str {
        return i;
      }
      i := i + 1;
    }
    return -1;
  }

  /** The month names are pairwise distinct, so a name has one index. */
  lemma {:induction false} MonthsDistinct()
    ensures forall i, j :: 0 <= i < j < 12 ==> Months[i] != Months[j]
  {
  }

  // ---------------------------------------------------------------------
  // guess_year

  /** The fields of `struct tm` that `timegm` reads (year since 1900, month 0..11). */
  datatype Tm = Tm(year: int, mon: int, mday: int, hour: int, min: int, sec: int)

  /** The C library's calendar conversions, taken as given. */
  datatype Calendar = Calendar(gmtime: int -> Tm, timegm: Tm -> int)

  const CUTOFF_MONTH: int := 6

  /** `now` broken down, with the month moved back six months (timegm normalises). */
  function CutoffTm(cal: Calendar, now: int): Tm
  {
    var t := cal.gmtime(now);
    t.(mon := t.mon - CUTOFF_MONTH)
  }

  /** The listed date placed in the current year. */
  function GuessTm(cal: Calendar, now: int, mon: int, mday: int, hour: int, min: int): Tm
  {
    Tm(cal.gmtime(now).year, mon, mday, hour, min, 0)
  }

  /**
   * guess_year: the current year when the listed date, placed in the
   * current year, falls strictly between six months ago and now; otherwise
   * the previous year. `gmtime` and `timegm` are left uninterpreted, so
   * what is promised is this decision rule, not a fact about calendars.
   */
  function GuessYear(cal: Calendar, now: int, mon: int, mday: int, hour: int, min: int): (year: int)
    ensures year == cal.gmtime(now).year || year == cal.gmtime(now).year - 1
    ensures year == cal.gmtime(now).year <==>
              cal.timegm(CutoffTm(cal, now)) < cal.timegm(GuessTm(cal, now, mon, mday, hour, min)) < now
  {
    var cutoff := cal.timegm(CutoffTm(cal, now));
    var guess := cal.timegm(GuessTm(cal, now, mon, mday, hour, min));
    if cutoff < guess < now then cal.gmtime(now).year else cal.gmtime(now).year - 1
  }
}

=== FILE: socket_util.dfy ===
/**
 * The socket helpers (src/socket_util.c): the receive buffer `RecvBuf`
 * that hands out received bytes one at a time and one line at a time, and
 * `sendn`, which is meant to write a whole buffer.
 *
 * The descriptor is a `Socket` whose `recv` and `send` calls follow a
 * script of outcomes fixed in advance; `outgoing` collects what the peer
 * has been sent.
 */
module SocketUtil {
  import opened Common

  const LINE_MAX_LEN: nat := 1024

  /** What one `recv` call on the descriptor does. */
  datatype RecvEvent =
    | Data(bytes: seq<char>)  // bytes have arrived; a call takes at most what it asks for
    | PeerClosed              // orderly shutdown: every later call returns 0
    | Interrupted             // -1 with errno EINTR
    | RecvError               // -1 with any other errno

  /** What one `send` call on the descriptor does. */
  datatype SendEvent =
    | Accepts(count: nat)     // the kernel takes up to `count` bytes
    | SendInterrupted         // -1 with errno EINTR
    | SendFailed              // -1 with any other errno

  /** The return value of `recv`, the bytes it stored and whether errno is EINTR. */
  datatype RecvReturn = RecvReturn(count: int, bytes: seq<char>, eintr: bool, rest: seq<RecvEvent>)

  /** One `recv(fd, buf, len, 0)`; an exhausted script reads as a closed peer. */
  function RecvStep(events: seq<RecvEvent>, len: nat): (r: RecvReturn)
    requires 1 <= len
    ensures r.count == |r.bytes| || (r.count == -1 && r.bytes == [])
    ensures |r.bytes| <= len
    ensures |r.rest| <= |events|
  {
    if events == [] then RecvReturn(0, [], false, [])
    else
      match events[0]
      case Data(b) =>
        if |b| == 0 then RecvReturn(0, [], false, events)
        else if |b| <= len then RecvReturn(|b|, b, false, events[1..])
        else RecvReturn(len, b[..len], false, [Data(b[len..])] + events[1..])
      case PeerClosed => RecvReturn(0, [], false, events)
      case Interrupted => RecvReturn(-1, [], true, events[1..])
      case RecvError => RecvReturn(-1, [], false, events[1..])
  }

  /** The bytes the descriptor delivers before it closes or fails. */
  function StreamData(events: seq<RecvEvent>): seq<char>
  {
    if events == [] then []
    else
      match events[0]
      case Data(b) => if |b| == 0 then [] else b + StreamData(events[1..])
      case PeerClosed => []
      case Interrupted => StreamData(events[1..])
      case RecvError => []
  }

  /** Whether the descriptor ends in an error (rather than a close) after its data. */
  predicate StreamFails(events: seq<RecvEvent>)
  {
    if events == [] then false
    else
      match events[0]
      case Data(b) => |b| > 0 && StreamFails(events[1..])
      case PeerClosed => false
      case Interrupted => StreamFails(events[1..])
      case RecvError => true
  }

  /** The descriptor seen by the client. */
  class Socket {
    var incoming: seq<RecvEvent>
    var sendScript: seq<SendEvent>
    var outgoing: seq<char>

    constructor (incoming: seq<RecvEvent>, sendScript: seq<SendEvent>)
      ensures this.incoming == incoming && this.sendScript == sendScript && outgoing == []
    {
      this.incoming := incoming;
      this.sendScript := sendScript;
      outgoing := [];
    }

    /** recv(2) as scripted. */
    method Recv(len: nat) returns (r: RecvReturn)
      requires 1 <= len
      modifies this
      ensures r == RecvStep(old(incoming), len) && incoming == r.rest
      ensures sendScript == old(sendScript) && outgoing == old(outgoing)
    {
      r := RecvStep(incoming, len);
      incoming := r.rest;
    }

    /**
     * send(2) as scripted: the count of bytes taken from the front of
     * `bytes`, or -1 with `eintr` telling EINTR apart; an exhausted script
     * fails.
     */
    method Send(bytes: seq<char>) returns (count: int, eintr: bool)
      modifies this
      ensures incoming == old(incoming)
      ensures old(sendScript) == [] ==> count == -1 && !eintr && sendScript == [] && outgoing == old(outgoing)
      ensures old(sendScript) != [] ==> sendScript == old(sendScript)[1..]
      ensures count == -1 || 0 <= count <= |bytes|
      ensures count >= 0 <==> old(sendScript) != [] && old(sendScript)[0].Accepts?
      ensures count >= 0 ==> count == Min(old(sendScript)[0].count, |bytes|)
      ensures count >= 0 ==> outgoing == old(outgoing) + bytes[..count]
      ensures count < 0 ==> outgoing == old(outgoing)
      ensures eintr <==> old(sendScript) != [] && old(sendScript)[0].SendInterrupted?
    {
      if sendScript == [] {
        return -1, false;
      }
      var event := sendScript[0];
      sendScript := sendScript[1..];
      match event
      case Accepts(k) =>
        count := Min(k, |bytes|);
        outgoing := outgoing + bytes[..count];
        eintr := false;
      case SendInterrupted =>
        count, eintr := -1, true;
      case SendFailed =>
        count, eintr := -1, false;
    }
  }

  // ---------------------------------------------------------------------
  // recv_buf_fill and recv_buf_get_char, as functions of the script

  /** The outcome of recv_buf_fill: 1, 0 or -1, the bytes now buffered and the rest of the script. */
  datatype Fill = Fill(status: int, bytes: seq<char>, rest: seq<RecvEvent>)

  /**
   * recv_buf_fill: calls `recv` for a whole buffer until it does not fail
   * with EINTR; 0 received bytes is a close.
   */
  function FillSpec(events: seq<RecvEvent>): (f: Fill)
    ensures f.status == 1 ==> 1 <= |f.bytes| <= LINE_MAX_LEN && f.bytes + StreamData(f.rest) == StreamData(events)
    ensures f.status == 1 ==> StreamFails(f.rest) == StreamFails(events)
    ensures f.status != 1 ==> f.bytes == [] && StreamData(events) == []
    ensures f.status == 0 ==> !StreamFails(events)
    ensures f.status == -1 ==> StreamFails(events)
    ensures f.status in {-1, 0, 1}
    decreases |events|
  {
    var r := RecvStep(events, LINE_MAX_LEN);
    if r.count < 0 then
      if !r.eintr then Fill(-1, [], r.rest) else FillSpec(r.rest)
    else if r.count == 0 then Fill(0, [], r.rest)
    else
      assert events[0].Data? && |events[0].bytes| > 0;
      var b := events[0].bytes;
      if |b| > LINE_MAX_LEN then
        assert b[..LINE_MAX_LEN] + b[LINE_MAX_LEN..] == b;
        var rest := [Data(b[LINE_MAX_LEN..])] + events[1..];
        assert rest[1..] == events[1..];
        Fill(1, r.bytes, r.rest)
      else
        Fill(1, r.bytes, r.rest)
  }

  /** What recv_buf_get_char returns: the status, the byte, then what stays buffered and scripted. */
  datatype Take = Take(status: int, c: char, unread: seq<char>, rest: seq<RecvEvent>)

  /**
   * recv_buf_get_char: the next buffered byte, refilling first when the
   * buffer is empty.
   */
  function GetCharSpec(unread: seq<char>, events: seq<RecvEvent>): (t: Take)
  {
    if |unread| > 0 then Take(1, unread[0], unread[1..], events)
    else
      var f := FillSpec(events);
      if f.status == 1 then Take(1, f.bytes[0], f.bytes[1..], f.rest)
      else Take(f.status, NUL, [], f.rest)
  }

  /**
   * recv_buf_get_char takes the next byte of the stream (buffer first,
   * then the descriptor) and no other; it fails only at the stream's end,
   * with 0 for a close and -1 for an error.
   */
  lemma {:induction false} GetCharTakesNext(unread: seq<char>, events: seq<RecvEvent>)
    ensures var t := GetCharSpec(unread, events);
      var s := unread + StreamData(events);
      && (t.status == 1 <==> |s| > 0)
      && (t.status == 1 ==> t.c == s[0] && t.unread + StreamData(t.rest) == s[1..])
      && (t.status == 1 ==> StreamFails(t.rest) == StreamFails(events))
      && (t.status == 0 ==> !StreamFails(events))
      && (t.status == -1 ==> StreamFails(events))
      && t.status in {-1, 0, 1}
  {
    if |unread| == 0 {
      var f := FillSpec(events);
      assert unread + StreamData(events) == StreamData(events);
      if f.status == 1 {
        assert f.bytes[1..] + StreamData(f.rest) == (f.bytes + StreamData(f.rest))[1..];
      }
    } else {
      assert (unread + StreamData(events))[1..] == unread[1..] + StreamData(events);
    }
  }

  /** What recv_buf_get_line hands back: its result, the bytes before the NUL and the unread stream. */
  datatype LineRead = LineRead(n: int, bytes: seq<char>, rest: seq<char>)

  /**
   * recv_buf_get_line on the stream `s`: the bytes up to and including the
   * first LF when it comes within LINE_MAX_LEN - 1 bytes, the first
   * LINE_MAX_LEN - 1 bytes when it does not, and 0 (close) or -1 (error)
   * when the stream ends first.
   */
  function LineSpec(s: seq<char>, fails: bool): LineRead
  {
    var k := FindFrom(s, 0, '\n');
    if k < |s| && k < LINE_MAX_LEN - 1 then LineRead(k + 1, s[..k + 1], s[k + 1..])
    else if |s| < LINE_MAX_LEN - 1 then LineRead(if fails then -1 else 0, [], [])
    else LineRead(LINE_MAX_LEN - 1, s[..LINE_MAX_LEN - 1], s[LINE_MAX_LEN - 1..])
  }

  /**
   * A line read is a prefix of the stream that ends at its first LF, or
   * else holds LINE_MAX_LEN - 1 bytes with no LF; the stream goes on right
   * after it. A stream that yields no line ends early and holds no LF.
   */
  lemma {:induction false} LineSpecSplitsStream(s: seq<char>, fails: bool)
    ensures var r := LineSpec(s, fails);
      && (r.n > 0 ==> r.n == |r.bytes| < LINE_MAX_LEN && r.bytes + r.rest == s)
      && (r.n > 0 ==> r.bytes[|r.bytes| - 1] == '\n' || |r.bytes| == LINE_MAX_LEN - 1)
      && (r.n > 0 ==> forall j :: 0 <= j < |r.bytes| - 1 ==> r.bytes[j] != '\n')
      && (r.n <= 0 ==> |s| < LINE_MAX_LEN - 1 && '\n' !in s && r.n == (if fails then -1 else 0))
  {
    var r := LineSpec(s, fails);
    var k := FindFrom(s, 0, '\n');
    if r.n > 0 {
      assert r.bytes + r.rest == s;
    } else {
      assert k == |s|;
    }
  }

  /** A reply line of the usual shape comes back whole, CRLF included. */
  lemma LineSpecReadsReply(rest: seq<char>, fails: bool)
    ensures LineSpec("220 ok\r\n" + rest, fails) == LineRead(8, "220 ok\r\n", rest)
  {
    var s := "220 ok\r\n" + rest;
    FindFromAt(s, 0, 7, '\n');
    assert s[..8] == "220 ok\r\n" && s[8..] == rest;
  }

  // ---------------------------------------------------------------------
  // RecvBuf

  class RecvBuf {
    const buf: array<char>
    var readPtr: int
    var remainCount: int

    /** `(read_ptr - buf) + remain_count <= LINE_MAX_LEN` while bytes are buffered. */
    predicate Valid()
      reads this
    {
      buf.Length == LINE_MAX_LEN &&
      (remainCount > 0 ==> 0 <= readPtr && readPtr + remainCount <= LINE_MAX_LEN)
    }

    /** The bytes received but not yet handed out. */
    function Unread(): seq<char>
      reads this, buf
      requires Valid()
    {
      if remainCount <= 0 then [] else buf[readPtr..readPtr + remainCount]
    }

    /** The storage of a `struct RecvBuf`, emptied. */
    constructor ()
      ensures Valid() && Unread() == [] && fresh(buf)
    {
      buf := new char[LINE_MAX_LEN];
      readPtr, remainCount := 0, 0;
    }

    /** recv_buf_init: nothing is buffered. */
    method Init()
      requires buf.Length == LINE_MAX_LEN
      modifies this
      ensures Valid() && Unread() == [] && remainCount == 0
    {
      remainCount := 0;
    }

    /**
     * recv_buf_fill: `recv` into the whole buffer, again on EINTR; on
     * success the read pointer is at the start and `remain_count` is the
     * number of bytes received.
     */
    method Fill(sock: Socket) returns (result: int)
      requires Valid()
      modifies this, buf, sock
      ensures Valid()
      ensures var f := FillSpec(old(sock.incoming));
        result == f.status && sock.incoming == f.rest && Unread() == f.bytes
      ensures result == 1 ==> readPtr == 0 && 1 <= remainCount <= LINE_MAX_LEN
      ensures sock.sendScript == old(sock.sendScript) && sock.outgoing == old(sock.outgoing)
    {
      while true
        invariant Valid()
        invariant FillSpec(sock.incoming) == FillSpec(old(sock.incoming))
        invariant sock.sendScript == old(sock.sendScript) && sock.outgoing == old(sock.outgoing)
        decreases |sock.incoming|
      {
        var r := sock.Recv(buf.Length);
        forall i | 0 <= i < |r.bytes| {
          buf[i] := r.bytes[i];
        }
        remainCount := r.count;
        if r.count < 0 {
          if !r.eintr {
            return -1;
          }
          continue;
        } else if r.count == 0 {
          return 0;
        }
        readPtr := 0;
        assert buf[0..remainCount] == r.bytes;
        return 1;
      }
    }

    /** recv_buf_get_char: refills only when nothing is buffered. */
    method GetChar(sock: Socket) returns (result: int, c: char)
      requires Valid()
      modifies this, buf, sock
      ensures Valid()
      ensures var t := GetCharSpec(old(Unread()), old(sock.incoming));
        result == t.status && (result == 1 ==> c == t.c) && Unread() == t.unread && sock.incoming == t.rest
      ensures sock.sendScript == old(sock.sendScript) && sock.outgoing == old(sock.outgoing)
    {
      c := NUL;
      if remainCount <= 0 {
        result := Fill(sock);
        if result <= 0 {
          return;
        }
      }
      remainCount := remainCount - 1;
      c := buf[readPtr];
      readPtr := readPtr + 1;
      result := 1;
    }
  
    /**
     * recv_buf_get_line as written: the `return -1` after the branches is
     * reached by every byte other than LF, so only a line that is a lone LF
     * succeeds, with the count 0 that the documentation reserves for a
     * close; a close returns `n - 1`, that is -1.
     */
    method GetLineAsWritten(sock: Socket, line: array<char>) returns (n: int)
      requires Valid() && line.Length == LINE_MAX_LEN && line != buf
      modifies this, buf, sock, line
      ensures Valid()
      ensures var s := old(Unread()) + old(StreamData(sock.incoming));
        && n == (if |s| > 0 && s[0] == '\n' then 0 else -1)
        && (|s| > 0 ==> line[0] == s[0] && Unread() + StreamData(sock.incoming) == s[1..])
        && (|s| > 0 && s[0] == '\n' ==> line[1] == NUL)
        && (|s| == 0 && !old(StreamFails(sock.incoming)) ==> line[0] == NUL)
      ensures sock.sendScript == old(sock.sendScript) && sock.outgoing == old(sock.outgoing)
    {
      // The body of the `for` loop leaves it on every path, so it runs once.
      var w := 0;
      n := 0;
      var u, e := Unread(), sock.incoming;
      var result, c := GetChar(sock);
      GetCharTakesNext(u, e);
      if result == 1 {
        line[w] := c;
        w := w + 1;
        if c == '\n' {
          line[w] := NUL;
          return n;
        }
      } else if result == 0 {
        line[w] := NUL;
        return n - 1;
      }
      return -1;
    }

    /**
     * recv_buf_get_char as a step along the stream `s`, of which the first
     * `i` bytes are already taken.
     */
    method NextByte(sock: Socket, ghost s: seq<char>, ghost i: nat) returns (result: int, c: char)
      requires Valid() && i <= |s| && Unread() + StreamData(sock.incoming) == s[i..]
      modifies this, buf, sock
      ensures Valid()
      ensures result in {-1, 0, 1}
      ensures result == 1 ==> i < |s| && c == s[i] && Unread() + StreamData(sock.incoming) == s[i + 1..]
      ensures result == 1 ==> StreamFails(sock.incoming) == old(StreamFails(sock.incoming))
      ensures result != 1 ==> i == |s|
      ensures result == 0 ==> !old(StreamFails(sock.incoming))
      ensures result == -1 ==> old(StreamFails(sock.incoming))
      ensures sock.sendScript == old(sock.sendScript) && sock.outgoing == old(sock.outgoing)
    {
      ghost var u, e := Unread(), sock.incoming;
      result, c := GetChar(sock);
      GetCharTakesNext(u, e);
      if result == 1 {
        assert s[i..][1..] == s[i + 1..];
      }
    }

    /**
     * The loop of recv_buf_get_line as its documentation describes it:
     * bytes up to and including the first LF, at most LINE_MAX_LEN - 1 of
     * them; the status is 1 when a line was read, else 0 for a close and -1
     * for an error.
     */
    method ReadLine(sock: Socket) returns (status: int, got: seq<char>)
      requires Valid()
      modifies this, buf, sock
      ensures Valid()
      ensures LineOutcome(old(Unread()) + old(StreamData(sock.incoming)), old(StreamFails(sock.incoming)), status, got, Unread() + StreamData(sock.incoming))
      ensures status == 1 ==> StreamFails(sock.incoming) == old(StreamFails(sock.incoming))
      ensures sock.sendScript == old(sock.sendScript) && sock.outgoing == old(sock.outgoing)
    {
      ghost var s := Unread() + StreamData(sock.incoming);
      ghost var fails := StreamFails(sock.incoming);
      ghost var k := FindFrom(s, 0, '\n');
      got := [];
      for i := 0 to LINE_MAX_LEN - 1
        invariant Valid() && |got| == i <= |s| && i <= k && got == s[..i]
        invariant Unread() + StreamData(sock.incoming) == s[i..]
        invariant StreamFails(sock.incoming) == fails
        invariant sock.sendScript == old(sock.sendScript) && sock.outgoing == old(sock.outgoing)
      {
        var result, c := NextByte(sock, s, i);
        if result != 1 {
          return result, got;
        }
        PrefixGrows(s, i);
        FindFromStep(s, 0, i, '\n');
        got := got + [c];
        if c == '\n' {
          return 1, got;
        }
      }
      return 1, got;
    }

    /**
     * recv_buf_get_line as its documentation describes it: the line up to
     * and including the first LF, NUL-terminated inside `line[LINE_MAX_LEN]`,
     * with its length; 0 when the connection closes first and -1 on an
     * error. A line with no LF among its first LINE_MAX_LEN - 1 bytes is
     * handed back cut there.
     */
    method GetLine(sock: Socket, line: array<char>) returns (n: int)
      requires Valid() && line.Length == LINE_MAX_LEN && line != buf
      modifies this, buf, sock, line
      ensures Valid()
      ensures var r := LineSpec(old(Unread()) + old(StreamData(sock.incoming)), old(StreamFails(sock.incoming)));
        && n == r.n
        && (n >= 0 ==> line[..|r.bytes|] == r.bytes && line[|r.bytes|] == NUL)
        && (n > 0 ==> Unread() + StreamData(sock.incoming) == r.rest)
        && (n > 0 ==> StreamFails(sock.incoming) == old(StreamFails(sock.incoming)))
      ensures sock.sendScript == old(sock.sendScript) && sock.outgoing == old(sock.outgoing)
    {
      var status, got := ReadLine(sock);
      if status == 1 {
        Store(line, got);
        return |got|;
      } else if status == 0 {
        Store(line, []);
      }
      return status;
    }
  }

  /**
   * What the loop of recv_buf_get_line leaves, for the stream `s`: status 1
   * with the bytes read and the stream after them, stopped by the first LF
   * or by LINE_MAX_LEN - 1 bytes; otherwise the stream ended before either.
   */
  predicate LineOutcome(s: seq<char>, fails: bool, status: int, got: seq<char>, rest: seq<char>)
  {
    var k := FindFrom(s, 0, '\n');
    if status == 1 then
      && 0 < |got| <= LINE_MAX_LEN - 1 && |got| <= |s| && got == s[..|got|] && rest == s[|got|..]
      && (k == |got| - 1 || (|got| == LINE_MAX_LEN - 1 && |got| <= k))
    else
      k == |s| < LINE_MAX_LEN - 1 && status == (if fails then -1 else 0)
  }

  /** Copies a line into the caller's buffer and terminates it with NUL. */
  method Store(line: array<char>, got: seq<char>)
    requires |got| < line.Length
    modifies line
    ensures line[..|got|] == got && line[|got|] == NUL
  {
    forall i | 0 <= i < |got| {
      line[i] := got[i];
    }
    line[|got|] := NUL;
  }

  lemma {:induction false} PrefixGrows(s: seq<char>, i: nat)
    requires i < |s|
    ensures s[..i + 1] == s[..i] + [s[i]]
  {
  }

  // ---------------------------------------------------------------------
  // sendn

  /**
   * What `sendn` as written hands to the kernel: line 12 stores the
   * comparison `send(...) <= 0` in `n_written`, so a send that takes bytes
   * leaves `n_remain` as it was and the same leading bytes are sent again,
   * until a send fails or takes nothing.
   */
  function Resent(data: seq<char>, script: seq<SendEvent>): seq<char>
    decreases |script|
  {
    if script == [] || !script[0].Accepts? || Min(script[0].count, |data|) == 0 then []
    else data[..Min(script[0].count, |data|)] + Resent(data, script[1..])
  }

  /**
   * sendn as written: it never reports success for a non-empty buffer, and
   * EINTR is not retried.
   */
  method SendnAsWritten(sock: Socket, data: seq<char>) returns (r: int)
    modifies sock
    ensures r == (if |data| == 0 then 0 else -1)
    ensures sock.outgoing == old(sock.outgoing) + (if |data| == 0 then [] else Resent(data, old(sock.sendScript)))
    ensures sock.incoming == old(sock.incoming)
  {
    var nRemain := |data|;
    var p := 0;
    while nRemain != 0
      invariant nRemain == |data| && p == 0
      invariant old(sock.outgoing) + Resent(data, old(sock.sendScript)) == sock.outgoing + Resent(data, sock.sendScript)
      invariant sock.incoming == old(sock.incoming)
      decreases |sock.sendScript|
    {
      ghost var script := sock.sendScript;
      assert data[p..p + nRemain] == data;
      var count, eintr := sock.Send(data[p..p + nRemain]);
      assert count <= 0 ==> Resent(data, script) == [];
      var nWritten := if count <= 0 then 1 else 0;
      if nWritten != 0 {
        if nWritten < 0 && eintr {
          nWritten := 0;
        } else {
          return -1;
        }
      }
      nRemain := nRemain - nWritten;
      p := p + nWritten;
    }
    return |data|;
  }

  /**
   * How many bytes of `data` the corrected loop gets through from `done`
   * on: EINTR is retried, a failing send or one that takes nothing stops.
   */
  function DeliveredFrom(data: seq<char>, done: nat, script: seq<SendEvent>): (d: nat)
    requires done <= |data|
    ensures done <= d <= |data|
    decreases |script|
  {
    if done == |data| || script == [] then done
    else
      match script[0]
      case Accepts(k) =>
        var m := Min(k, |data| - done);
        if m == 0 then done else DeliveredFrom(data, done + m, script[1..])
      case SendInterrupted => DeliveredFrom(data, done, script[1..])
      case SendFailed => done
  }

  /**
   * What is left of the send script once the corrected loop is done with
   * `data` from `done` on: each call to send takes one event, and none is
   * taken once everything went out.
   */
  function ScriptLeft(data: seq<char>, done: nat, script: seq<SendEvent>): (left: seq<SendEvent>)
    requires done <= |data|
    ensures |left| <= |script|
    ensures done == |data| ==> left == script
    decreases |script|
  {
    if done == |data| || script == [] then script
    else
      match script[0]
      case Accepts(k) =>
        var m := Min(k, |data| - done);
        if m == 0 then script[1..] else ScriptLeft(data, done + m, script[1..])
      case SendInterrupted => ScriptLeft(data, done, script[1..])
      case SendFailed => script[1..]
  }

  /**
   * sendn with `n_written = send(...)`: every byte is handed over in order,
   * and the result is `n` exactly when all of them were, -1 otherwise.
   */
  method Sendn(sock: Socket, data: seq<char>) returns (r: int)
    modifies sock
    ensures var d := DeliveredFrom(data, 0, old(sock.sendScript));
      && r == (if d == |data| then |data| else -1)
      && sock.outgoing == old(sock.outgoing) + data[..d]
    ensures sock.sendScript == ScriptLeft(data, 0, old(sock.sendScript))
    ensures sock.incoming == old(sock.incoming)
  {
    var nRemain := |data|;
    var p := 0;
    while nRemain != 0
      invariant 0 <= p <= |data| && nRemain == |data| - p
      invariant DeliveredFrom(data, p, sock.sendScript) == DeliveredFrom(data, 0, old(sock.sendScript))
      invariant ScriptLeft(data, p, sock.sendScript) == ScriptLeft(data, 0, old(sock.sendScript))
      invariant sock.outgoing == old(sock.outgoing) + data[..p]
      invariant sock.incoming == old(sock.incoming)
      decreases |sock.sendScript|
    {
      ghost var script := sock.sendScript;
      SendnOnce(data, p, script);
      var nWritten, eintr := sock.Send(data[p..p + nRemain]);
      if nWritten <= 0 {
        if nWritten < 0 && eintr {
          nWritten := 0;
        } else {
          return -1;
        }
      }
      assert data[..p] + data[p..p + nRemain][..nWritten] == data[..p + nWritten];
      nRemain := nRemain - nWritten;
      p := p + nWritten;
    }
    return |data|;
  }

  /** One call to send in the corrected loop, while bytes remain. */
  lemma {:induction false} SendnOnce(data: seq<char>, p: nat, script: seq<SendEvent>)
    requires p < |data|
    ensures script == [] ==> DeliveredFrom(data, p, script) == p && ScriptLeft(data, p, script) == []
    ensures script != [] && script[0].Accepts? && Min(script[0].count, |data| - p) > 0 ==>
      var m := Min(script[0].count, |data| - p);
      DeliveredFrom(data, p, script) == DeliveredFrom(data, p + m, script[1..]) && ScriptLeft(data, p, script) == ScriptLeft(data, p + m, script[1..])
    ensures script != [] && script[0].SendInterrupted? ==>
      DeliveredFrom(data, p, script) == DeliveredFrom(data, p, script[1..]) && ScriptLeft(data, p, script) == ScriptLeft(data, p, script[1..])
    ensures script != [] && (script[0].SendFailed? || (script[0].Accepts? && Min(script[0].count, |data| - p) == 0)) ==>
      DeliveredFrom(data, p, script) == p && ScriptLeft(data, p, script) == script[1..]
  {
  }

  /** The corrected sendn delivers everything while each send takes at least one byte. */
  lemma {:induction false} SendnDeliversAll(data: seq<char>, done: nat, script: seq<SendEvent>)
    requires done <= |data| && |data| - done <= |script|
    requires forall i :: 0 <= i < |script| ==> script[i].Accepts? && script[i].count >= 1
    ensures DeliveredFrom(data, done, script) == |data|
    decreases |script|
  {
    if done < |data| {
      SendnDeliversAll(data, done + Min(script[0].count, |data| - done), script[1..]);
    }
  }
}

=== FILE: telnet.dfy ===
/**
 * `try_read_telnet_cmd_and_reply` (src/telnet.h): at the cursor of a
 * received line, consume Telnet commands (RFC 854) and refuse every option
 * the peer offers or asks for: WILL is answered with DONT, DO with WONT.
 *
 * The line is `buf[..end]`, the cursor an index into it. Each answer is the
 * three-byte frame `send_telnet_negotiation` writes (src/telnet.c:6); the
 * outcome of the k-th write of a call is `sendOk(k)`.
 */
module Telnet {

  const IAC: char := 255 as char
  const DONT: char := 254 as char
  const DO: char := 253 as char
  const WONT: char := 252 as char
  const WILL: char := 251 as char

  /** The bytes `send_telnet_negotiation(fd, cmd, option)` writes. */
  function Frame(cmd: char, opt: char): (f: seq<char>)
    ensures |f| == 3 && f[0] == IAC && f[1] == cmd && f[2] == opt
  {
    [IAC, cmd, opt]
  }

  predicate IsVerb(c: char)
  {
    c == DONT || c == WONT || c == DO || c == WILL
  }

  /**
   * A scan's end: `ok` is false for the `-1` return (a write failed, the
   * failed frame is the last of `sent`); `cursor` is where `*ptr` is left.
   */
  datatype Scan = Scan(ok: bool, cursor: nat, sent: seq<seq<char>>)

  /**
   * The loop of try_read_telnet_cmd_and_reply from cursor `p`, with the
   * frames `sent` already written.
   */
  function ScanFrom(buf: seq<char>, p: nat, end: nat, sendOk: nat -> bool, sent: seq<seq<char>>): (r: Scan)
    requires p < end <= |buf|
    ensures p <= r.cursor <= end
    ensures |sent| <= |r.sent| && r.sent[..|sent|] == sent
    ensures forall i :: |sent| <= i < |r.sent| ==>
              |r.sent[i]| == 3 && r.sent[i][0] == IAC && (r.sent[i][1] == DONT || r.sent[i][1] == WONT)
    ensures r.ok ==> forall i :: |sent| <= i < |r.sent| ==> sendOk(i)
    ensures !r.ok ==> |sent| < |r.sent| && !sendOk(|r.sent| - 1)
    decreases end - p
  {
    if buf[p] != IAC then Scan(true, p, sent)
    else if p + 1 == end then Scan(true, p + 1, sent)
    else
      var cmd := buf[p + 1];
      if IsVerb(cmd) then
        if p + 2 == end then Scan(true, p + 2, sent)
        else
          var opt := buf[p + 2];
          if cmd == WONT || cmd == DONT then ScanFrom(buf, p + 2, end, sendOk, sent)
          else
            var answer := if cmd == WILL then DONT else WONT;
            var sent' := sent + [Frame(answer, opt)];
            if !sendOk(|sent|) then Scan(false, p + 2, sent')
            else if p + 3 == end then Scan(true, p + 3, sent')
            else
              var r := ScanFrom(buf, p + 3, end, sendOk, sent');
              assert r.sent[..|sent'|][..|sent|] == r.sent[..|sent|];
              r
      else if cmd == IAC then Scan(true, p + 1, sent)
      else if p + 2 == end then Scan(true, p + 2, sent)
      else ScanFrom(buf, p + 2, end, sendOk, sent)
  }

  function TelnetScan(buf: seq<char>, p: nat, end: nat, sendOk: nat -> bool): Scan
    requires p < end <= |buf|
  {
    ScanFrom(buf, p, end, sendOk, [])
  }

  /**
   * try_read_telnet_cmd_and_reply: `ret` is 0 or -1, `cursor` the new
   * `*ptr`, `sent` the frames written in order.
   */
  method TryReadTelnetCmdAndReply(buf: seq<char>, p: nat, end: nat, sendOk: nat -> bool)
      returns (ret: int, cursor: nat, sent: seq<seq<char>>)
    requires p < end <= |buf|
    ensures var r := TelnetScan(buf, p, end, sendOk);
      ret == (if r.ok then 0 else -1) && cursor == r.cursor && sent == r.sent
  {
    var ptr := p;
    sent := [];
    while true
      invariant p <= ptr < end
      invariant ScanFrom(buf, ptr, end, sendOk, sent) == TelnetScan(buf, p, end, sendOk)
      decreases end - ptr
    {
      if buf[ptr] != IAC {
        return 0, ptr, sent;
      }
      ptr := ptr + 1;
      if ptr == end {
        return 0, ptr, sent;
      }
      var cmd := buf[ptr];
      if cmd == DONT || cmd == WONT || cmd == DO || cmd == WILL {
        ptr := ptr + 1;
        if ptr == end {
          return 0, ptr, sent;
        }
        var opt := buf[ptr];
        var answer: char := 0 as char;
        if cmd == WILL {
          answer := DONT;
        }
        if cmd == DO {
          answer := WONT;
        }
        if answer == 0 as char {
          continue;
        }
        var written := sendOk(|sent|);
        sent := sent + [Frame(answer, opt)];
        if !written {
          return -1, ptr, sent;
        }
      }
      if cmd == IAC {
        return 0, ptr, sent;
      }
      ptr := ptr + 1;
      if ptr == end {
        return 0, ptr, sent;
      }
    }
  }

  // ---------------------------------------------------------------------
  // One command at a time

  /** A byte other than IAC is data: nothing is consumed or sent. */
  lemma {:induction false} ScanStopsAtData(buf: seq<char>, p: nat, end: nat, sendOk: nat -> bool)
    requires p < end <= |buf| && buf[p] != IAC
    ensures TelnetScan(buf, p, end, sendOk) == Scan(true, p, [])
  {
  }

  /** IAC IAC is an escaped data byte: the cursor stops on the second IAC. */
  lemma {:induction false} ScanStopsAtEscapedIac(buf: seq<char>, p: nat, end: nat, sendOk: nat -> bool)
    requires p + 1 < end <= |buf| && buf[p] == IAC && buf[p + 1] == IAC
    ensures TelnetScan(buf, p, end, sendOk) == Scan(true, p + 1, [])
  {
  }

  /**
   * IAC WILL opt is answered with exactly IAC DONT opt, and IAC DO opt with
   * exactly IAC WONT opt; the scan then goes on after the option byte.
   */
  lemma {:induction false} ScanRefuses(buf: seq<char>, p: nat, end: nat, sendOk: nat -> bool, sent: seq<seq<char>>)
    requires p + 2 < end <= |buf| && buf[p] == IAC && (buf[p + 1] == WILL || buf[p + 1] == DO)
    requires sendOk(|sent|)
    ensures var frame := Frame(if buf[p + 1] == WILL then DONT else WONT, buf[p + 2]);
      ScanFrom(buf, p, end, sendOk, sent) ==
        if p + 3 == end then Scan(true, end, sent + [frame])
        else ScanFrom(buf, p + 3, end, sendOk, sent + [frame])
  {
  }

  /** A failed answer ends the scan with -1, the cursor on the option byte. */
  lemma {:induction false} ScanSendFails(buf: seq<char>, p: nat, end: nat, sendOk: nat -> bool, sent: seq<seq<char>>)
    requires p + 2 < end <= |buf| && buf[p] == IAC && (buf[p + 1] == WILL || buf[p + 1] == DO)
    requires !sendOk(|sent|)
    ensures var frame := Frame(if buf[p + 1] == WILL then DONT else WONT, buf[p + 2]);
      ScanFrom(buf, p, end, sendOk, sent) == Scan(false, p + 2, sent + [frame])
  {
  }

  /**
   * IAC WONT opt and IAC DONT opt are not answered, and the scan resumes on
   * the option byte itself rather than after it.
   */
  lemma {:induction false} ScanResumesOnOption(buf: seq<char>, p: nat, end: nat, sendOk: nat -> bool, sent: seq<seq<char>>)
    requires p + 2 < end <= |buf| && buf[p] == IAC && (buf[p + 1] == WONT || buf[p + 1] == DONT)
    ensures ScanFrom(buf, p, end, sendOk, sent) == ScanFrom(buf, p + 2, end, sendOk, sent)
  {
  }

  /** Any other command byte after IAC is skipped. */
  lemma {:induction false} ScanSkipsOtherCommand(buf: seq<char>, p: nat, end: nat, sendOk: nat -> bool, sent: seq<seq<char>>)
    requires p + 2 < end <= |buf| && buf[p] == IAC && !IsVerb(buf[p + 1]) && buf[p + 1] != IAC
    ensures ScanFrom(buf, p, end, sendOk, sent) == ScanFrom(buf, p + 2, end, sendOk, sent)
  {
  }

  /** A command cut off by the end of the line ends the scan at `end` without error. */
  lemma {:induction false} ScanStopsAtEnd(buf: seq<char>, p: nat, end: nat, sendOk: nat -> bool, sent: seq<seq<char>>)
    requires p < end <= |buf| && buf[p] == IAC
    requires p + 1 == end || (p + 2 == end && buf[p + 1] != IAC)
    ensures ScanFrom(buf, p, end, sendOk, sent) == Scan(true, end, sent)
  {
  }

  // ---------------------------------------------------------------------
  // The option byte of WONT and DONT

  /** `buf[p..c]` is a run of whole Telnet commands (IAC IAC excluded). */
  predicate Commands(buf: seq<char>, p: nat, c: nat)
    requires p <= c <= |buf|
    decreases c - p
  {
    p == c ||
    (buf[p] == IAC && p + 1 < c && buf[p + 1] != IAC &&
     if IsVerb(buf[p + 1]) then p + 3 <= c && Commands(buf, p + 3, c) else Commands(buf, p + 2, c))
  }

  /**
   * As written, IAC WONT 'A' leaves the cursor on 'A', which the reply
   * decoder then takes as reply text although it belongs to the command.
   */
  lemma {:induction false} ScanLeavesOptionAsData()
    ensures var buf := [IAC, WONT, 'A'];
      TelnetScan(buf, 0, 3, k => true) == Scan(true, 2, []) && buf[2] != IAC && !Commands(buf, 0, 2)
  {
    var buf := [IAC, WONT, 'A'];
    assert ScanFrom(buf, 2, 3, k => true, []) == Scan(true, 2, []);
  }

  /** The scan with WONT and DONT consuming their option byte like WILL and DO. */
  function ScanFromFixed(buf: seq<char>, p: nat, end: nat, sendOk: nat -> bool, sent: seq<seq<char>>): (r: Scan)
    requires p < end <= |buf|
    ensures p <= r.cursor <= end
    ensures r.ok && r.cursor < end ==>
              (Commands(buf, p, r.cursor) && buf[r.cursor] != IAC) ||
              (p < r.cursor && Commands(buf, p, r.cursor - 1) && buf[r.cursor - 1] == IAC && buf[r.cursor] == IAC)
    decreases end - p
  {
    if buf[p] != IAC then Scan(true, p, sent)
    else if p + 1 == end then Scan(true, p + 1, sent)
    else
      var cmd := buf[p + 1];
      if IsVerb(cmd) then
        if p + 2 == end then Scan(true, p + 2, sent)
        else if cmd == WONT || cmd == DONT then
          if p + 3 == end then Scan(true, p + 3, sent)
          else
            var r := ScanFromFixed(buf, p + 3, end, sendOk, sent);
            CommandsCons(buf, p, p + 3, r.cursor);
            r
        else
          var answer := if cmd == WILL then DONT else WONT;
          var sent' := sent + [Frame(answer, buf[p + 2])];
          if !sendOk(|sent|) then Scan(false, p + 2, sent')
          else if p + 3 == end then Scan(true, p + 3, sent')
          else
            var r := ScanFromFixed(buf, p + 3, end, sendOk, sent');
            CommandsCons(buf, p, p + 3, r.cursor);
            r
      else if cmd == IAC then Scan(true, p + 1, sent)
      else if p + 2 == end then Scan(true, p + 2, sent)
      else
        var r := ScanFromFixed(buf, p + 2, end, sendOk, sent);
        CommandsCons(buf, p, p + 2, r.cursor);
        r
  }

  /** One command at `p` in front of a run of commands. */
  lemma {:induction false} CommandsCons(buf: seq<char>, p: nat, q: nat, c: nat)
    requires p + 1 < q <= c <= |buf| && buf[p] == IAC && buf[p + 1] != IAC
    requires q == (if IsVerb(buf[p + 1]) then p + 3 else p + 2)
    ensures Commands(buf, q, c) ==> Commands(buf, p, c)
    ensures q < c && Commands(buf, q, c - 1) ==> Commands(buf, p, c - 1)
  {
  }

  /**
   * A refusal frame this client writes, read back by a peer running the same
   * scan: the corrected scan consumes it whole, the scan as written stops on
   * its option byte. Neither answers it.
   */
  lemma {:induction false} FrameReadWhole(cmd: char, opt: char, sendOk: nat -> bool)
    requires cmd == DONT || cmd == WONT
    ensures ScanFromFixed(Frame(cmd, opt), 0, 3, sendOk, []) == Scan(true, 3, [])
    ensures opt != IAC ==> ScanFrom(Frame(cmd, opt), 0, 3, sendOk, []) == Scan(true, 2, [])
  {
  }

  /** The corrected scan leaves IAC WONT 'A' wholly consumed. */
  lemma {:induction false} ScanFixedConsumesOption()
    ensures ScanFromFixed([IAC, WONT, 'A'], 0, 3, k => true, []) == Scan(true, 3, [])
  {
  }
}
